=== FILE: README.md ===
# Cradle agent core in Dafny

Cradle is a self-improving agent. A heartbeat runs every few seconds. Each
beat takes up to three tasks off the task engine's queue and runs the
think–act–execute–observe–reflect cycle on each one. Every completed or
failed task is announced on Telegram. Every failure that carries an error
gets a self-healing task. On fixed beats the heartbeat also:

- seeds one of eight self-improvement tasks, round-robin;
- requests self-evolution;
- persists a crash-recovery snapshot;
- fetches skills from the skill store.

LLM requests go through a router. It tries the configured providers in
priority order, or the preferred provider first. A provider that fails
three times in a row is demoted for five minutes. Generated code runs in a
Docker container with no capabilities, no network by default and capped
output.

This project models that core, one module per source file:

| module | file | form |
|---|---|---|
| `CradleConfig` | `cradle/config.py` | pure functions; `ProvidersFromEnv` builds the provider list by straight-line conditional appends |
| `Sandbox` | `cradle/sandbox.py` | pure functions; the script and argv builders are methods of straight-line appends |
| `Telegram` | `cradle/telegram_bot.py` | pure functions (authorisation, chunking, delivery) |
| `Skills` | `cradle/skills.py` | class `SkillLoader`, whose cache and insertion order are fields the methods update |
| `Router` | `cradle/llm_router.py` | class `LLMRouter` with usage statistics, failure streaks and demotions as fields |
| `Tasks` | `cradle/task_engine.py` | class `TaskEngine` with the task dictionary, insertion order, queue and id counter as fields |
| `Heartbeat` | `cradle/heartbeat.py` | class `Heartbeat` with the beat counter and improvement index as fields |

Two support modules model Python built-ins the core relies on:

- `Text`: slicing, `find`, `split`, `join`, `strip`, `lower`, `str(int)` and `int(str)`.
- `Sorting`: the stable `sort`/`sorted` by key.

Every state-changing method is proved against a pure specification
function of the old state and its inputs. For example,
`(State(), r) == ProcessSpec(old(State()), ...)` for `process_next`, and
`(State(), report) == BeatSpec(old(State()), ...)` for `_beat`. The
properties the source promises are then proved as lemmas about those
functions.

Inputs from the outside world are parameters:

- The LLM replies, the JSON decoder, container runs and the skill store's answers are oracle functions.
- Clocks are integer `now` arguments.
- The `uuid4` id source is an injective function `freshId` with a counter of ids issued.

A beat reports what it would send, file and store as values in a
`BeatReport`: the notifications, fix tasks, reflections, improvement task,
evolution request, snapshot and fetch count.

## Model

| member | source | states |
|---|---|---|
| CradleConfig.Candidates | cradle/config.py:77-134 | the five providers `from_env` considers have priorities 1 to 5 and distinct names |
| CradleConfig.WithKeysMembers | cradle/config.py:80-134 | a provider is kept exactly when it is a candidate with a non-empty key; the list never grows |
| CradleConfig.WithKeysIncreasing | cradle/config.py:80-134 | keeping only the keyed candidates preserves increasing priority |
| CradleConfig.ProvidersFacts | cradle/config.py:77-137 | the provider list holds exactly the keyed candidates, at most five, distinct by name and in priority order |
| CradleConfig.KeyedProviders | cradle/config.py:134-136 | for any candidate list in priority order with distinct names, the sorted keyed list holds exactly its keyed members and keeps both properties |
| CradleConfig.Getenv | cradle/config.py:55-75 | `os.getenv`: the variable's value when set, else the default |
| CradleConfig.WithKeys | cradle/config.py:80-134 | the candidates with a non-empty key, in their order |
| CradleConfig.Providers | cradle/config.py:77-137 | the keyed candidates sorted by priority |
| CradleConfig.FromEnv | cradle/config.py:51-139 | every setting is the environment value or its default; a non-numeric HEARTBEAT_INTERVAL is an error exactly when `int()` would raise; the interval defaults to 30; the providers are `Providers(env)` |
| CradleConfig.ProvidersFromEnv | cradle/config.py:77-137 | the five straight-line conditional appends followed by the sort yield exactly `Providers(env)` |
| CradleConfig.DefaultIntervalParses | cradle/config.py:73 | the default interval text parses to 30 |
| CradleConfig.Validate | cradle/config.py:141-150 | each warning is present exactly when its setting is missing; there are no other warnings and they come in the fixed order; the list is empty exactly when all three settings are present |
| Sandbox.ScriptLines | cradle/sandbox.py:56-60 | the setup script's lines: bash header, `set -e`, a pip line only when packages are given, and the run line |
| Sandbox.BaseArgs | cradle/sandbox.py:107-116 | the fixed `docker run` isolation flags and the read-only mount of the work directory |
| Sandbox.SetupScript | cradle/sandbox.py:56-60 | the script starts with the bash header and ends with the run line |
| Sandbox.SetupScriptJoin | cradle/sandbox.py:56-60 | the script is its lines joined by newlines: header, the pip line only when packages were given, and the run line |
| Sandbox.SetupScriptLines | cradle/sandbox.py:56-60 | split at newlines, the script gives back its lines, so it has a pip line exactly when packages were given |
| Sandbox.PipLineNamesPackages | cradle/sandbox.py:58-59 | the pip line, split at spaces after its prefix, lists exactly the requested packages |
| Sandbox.BuildSetupScript | cradle/sandbox.py:56-60 | the string built step by step equals `SetupScript` |
| Sandbox.DockerCommand | cradle/sandbox.py:107-122 | the argv has the fixed isolation flags and the read-only mount, then the image, then the command; "--network=none" is present exactly when network access was not asked for (or the image or command contains it) |
| Sandbox.BuildDockerArgv | cradle/sandbox.py:107-122 | the appends build exactly `DockerCommand` |
| Sandbox.Capped | cradle/sandbox.py:152-158 | output up to 50000 characters is unchanged; longer output keeps its first 50000 characters and ends with the truncation marker |
| Sandbox.TimeoutResult | cradle/sandbox.py:140-147 | a timeout fails with exit code -1 and empty stdout |
| Sandbox.DockerMissingResult | cradle/sandbox.py:178-186 | a missing docker CLI fails with exit code -2 |
| Sandbox.CrashResult | cradle/sandbox.py:187-195 | any other failure gives exit code -3 and the error in stderr |
| Sandbox.ResultFor | cradle/sandbox.py:126-176 | success holds exactly when the exit code is 0, and only for a finished run; a finished run reports capped streams and whether they were truncated |
| Sandbox.RunInContainer | cradle/sandbox.py:86-195 | the result is the one for the run of exactly `DockerCommand` on the given files |
| Sandbox.RunPython | cradle/sandbox.py:41-68 | runs `script.py` and the setup script through `bash /workspace/run.sh` in the Python image |
| Sandbox.RunShell | cradle/sandbox.py:70-84 | runs `script.sh` through bash in the given image |
| Telegram.AllowedUser | cradle/telegram_bot.py:34 | the allowed user is the configured name with all its leading '@' removed, and it does not start with '@' |
| Telegram.IsAuthorized | cradle/telegram_bot.py:44-52 | an update is authorised exactly when it has a user whose username equals the allowed user |
| Telegram.Chunks | cradle/telegram_bot.py:140 | the text is split into ceil(n/4000) non-empty chunks of at most 4000 characters, all but the last full |
| Telegram.ChunksStep | cradle/telegram_bot.py:140 | a long text's chunks are its first 4000 characters followed by the chunks of the rest |
| Telegram.ChunksConcat | cradle/telegram_bot.py:140 | concatenating the chunks gives back the text; only the empty text has no chunks |
| Telegram.SendMessage | cradle/telegram_bot.py:132-145 | the target is the given non-zero chat id, else the last chat; without a target or app nothing is sent; otherwise each chunk goes to the target in order |
| Telegram.SendMessageDeliversText | cradle/telegram_bot.py:132-145 | when there is a target and a running app, the texts sent concatenate to the whole message |
| Skills.WithSkill | cradle/skills.py:308-311 | the entry is set; a new name joins the end of the order and an existing name keeps its place; the cache stays well formed |
| Skills.SyncedUpTo | cradle/skills.py:297-317 | the built-ins offered in order, each cached when the store accepted it |
| Skills.MergedUpTo | cradle/skills.py:333-340 | the listed skills merged in order, each added only when named and not yet cached |
| Skills.SyncedContents | cradle/skills.py:297-317 | after offering the built-ins, the cache holds the old entries plus the accepted built-ins, each with its own description and content |
| Skills.SyncedCount | cradle/skills.py:297-317 | on a cache without built-ins, the order grows by exactly the number of accepted built-ins |
| Skills.SyncedWellFormed | cradle/skills.py:297-317 | offering the built-ins keeps the cache well formed |
| Skills.MergedFacts | cradle/skills.py:328-346 | merging a listing never changes a cached entry, only adds names from the listing, and extends the order at its end |
| Skills.MergedMapsNewNames | cradle/skills.py:333-340 | a listed skill with a new non-empty name, first of its name in the listing, is cached with its own description and content |
| Skills.BuiltinNamesDistinct | cradle/skills.py:22 | the built-in skills have distinct names |
| Skills.SkillLoader.constructor | cradle/skills.py:292-295 | the loader starts with an empty cache and is not loaded |
| Skills.SkillLoader.CacheSkill | cradle/skills.py:308-311 | one cache assignment is `WithSkill` on the old cache |
| Skills.SkillLoader.SyncBuiltinSkills | cradle/skills.py:297-317 | caches exactly the built-ins the store accepted, counts them (at most 3) and marks the loader loaded |
| Skills.SkillLoader.LoadBuiltinSkillsLocal | cradle/skills.py:319-326 | caches every built-in and marks the loader loaded |
| Skills.SkillLoader.FetchFromAgentPlaybooks | cradle/skills.py:328-346 | a failed listing changes nothing and returns 0; otherwise the listing is merged up to its first element that is not an object; the count returned is the number of skills added when every element was an object, and 0 when one was not |
| Skills.LoadLocalCachesBuiltins | cradle/skills.py:319-326 | after the local load every built-in is cached with its own description and content |
| Skills.SummaryLine | cradle/skills.py:352-355 | the name in bold and the description cut to 120 characters |
| Skills.TaskText | cradle/skills.py:365 | the title and description, joined by a space and lower-cased |
| Skills.SummaryLines | cradle/skills.py:352-355 | the header, then one line per cached skill in cache order |
| Skills.SkillsSummary | cradle/skills.py:348-356 | the summary is empty exactly when the cache is; otherwise it is the summary lines joined by newlines |
| Skills.SummaryReadsBack | cradle/skills.py:348-356 | split at newlines, the summary gives back its header and one line per skill, for single-line names and descriptions |
| Skills.SkillContent | cradle/skills.py:358-361 | a known skill's content is returned and an unknown name gives None |
| Skills.RelevantNames | cradle/skills.py:374-376 | every selected name is cached |
| Skills.RelevantNamesSpec | cradle/skills.py:363-378 | a skill is selected exactly when its keyword row matches the lower-cased text and it is cached; the selection follows table order |
| Skills.RelevantSkills | cradle/skills.py:363-378 | the result is empty when nothing is selected, else the selected contents joined by the separator |
| Router.Bump | cradle/llm_router.py:100-102 | the counter for the key rises by one and no other counter changes |
| Router.TryOrderFacts | cradle/llm_router.py:69-73 | every provider is tried once; without a preference the configured order is kept; with one, the preferred provider comes first and the rest follow by ascending priority |
| Router.Succeed | cradle/llm_router.py:95-105 | a reply adds one call and its tokens, counts one call for the provider and ends its failure streak; errors and demotions are unchanged |
| Router.Fail | cradle/llm_router.py:114-124 | a failure adds one error and extends the streak; a streak of 3 or more demotes the provider until 300 seconds later; nothing else changes |
| Router.FailKeepsDemotions | cradle/llm_router.py:123-124 | a later failure never lifts a demotion in force when the request started |
| Router.RouteSkipsDemoted | cradle/llm_router.py:76-82 | a provider demoted when the request starts is never called |
| Router.RouteStopsAtFirstReply | cradle/llm_router.py:77-130 | every call but the last failed, and the request succeeds exactly when the last call replied |
| Router.RouteFailureKeepsSuccessStats | cradle/llm_router.py:114-132 | when no provider replies, no success counter moves and the request raises |
| Router.RouteSuccessCounts | cradle/llm_router.py:95-112 | a reply counts exactly one call and its own tokens, and ends that provider's failure streak |
| Router.LLMRouter.constructor | cradle/llm_router.py:50-55 | the router takes the configured providers and starts with no usage, streaks or demotions |
| Router.TryOrder | cradle/llm_router.py:69-73 | with a non-empty preference, the providers sorted with the preferred one keyed 0 and the rest by priority; otherwise the configured order |
| Router.Route | cradle/llm_router.py:75-132 | demoted providers are skipped; a reply ends the loop with its success recorded; a failure is recorded and the next provider tried; None when none replied |
| Router.Attempted | cradle/llm_router.py:77-130 | the positions called: each provider not demoted, up to and including the first that replies |
| Router.LLMRouter.Complete | cradle/llm_router.py:60-132 | the new state and reply are those of `Route` over `TryOrder` from the old state; None stands for the RuntimeError |
| Tasks.AddTaskSpec | cradle/task_engine.py:65-85 | the new task is stored under the next fresh id, pending and queued at the end; a known parent lists it as its last child |
| Tasks.AddTaskKeepsWellFormed | cradle/task_engine.py:65-85 | adding a task keeps the engine invariant, and the new id was not in use |
| Tasks.AddTaskLinks | cradle/task_engine.py:81-83 | a known parent gains the new id as its last child and no other task changes |
| Tasks.AddTaskIds | cradle/task_engine.py:75-80 | every task stays stored under its own non-empty id |
| Tasks.AddTaskAttempts | cradle/task_engine.py:75-80 | attempts stay within their maximum |
| Tasks.AddTaskQueue | cradle/task_engine.py:84 | the queue still holds exactly the pending tasks, each once |
| Tasks.AddTaskOrder | cradle/task_engine.py:80 | the insertion order still lists every task once |
| Tasks.AddTaskFresh | cradle/task_engine.py:75 | ids not yet issued are still unused |
| Tasks.AddTaskChildren | cradle/task_engine.py:81-83 | every listed child still names its parent |
| Tasks.AddSubtasks | cradle/task_engine.py:116-126 | each sub-task gets one fresh id; the id counter rises by the number of sub-tasks |
| Tasks.PutKeepsWellFormed | cradle/task_engine.py:100-171 | replacing a task that keeps its id, links and attempt bounds, with a consistent queue, keeps the invariant |
| Tasks.AddSubtasksKeepsWellFormed | cradle/task_engine.py:116-126 | decomposition keeps the invariant |
| Tasks.AddSubtasksQueue | cradle/task_engine.py:116-126 | the sub-tasks are queued in order under the next fresh ids |
| Tasks.AddSubtasksFresh | cradle/task_engine.py:116-126 | sub-tasks get ids no task had |
| Tasks.AddSubtasksLinks | cradle/task_engine.py:116-126 | the parent lists the sub-tasks as its newest children in order, and no other existing task changes |
| Tasks.AddSubtasksStores | cradle/task_engine.py:118-125 | the i-th sub-task is stored under the i-th fresh id with its title, its description (the title when the description is empty), the parent and source "self" |
| Tasks.StartKeepsWellFormed | cradle/task_engine.py:87-104 | dequeuing the head and counting its attempt keeps the invariant |
| Tasks.ObserveKeepsWellFormed | cradle/task_engine.py:150-171 | the end of the cycle keeps the invariant |
| Tasks.ActOnKeepsWellFormed | cradle/task_engine.py:109-147 | carrying out a plan keeps the invariant, also when it raises |
| Tasks.ReflectAndObserveKeepsWellFormed | cradle/task_engine.py:150-171 | the reflect and observe phases keep the invariant, also when the reflection raises |
| Tasks.ReactKeepsWellFormed | cradle/task_engine.py:100-171 | the whole cycle keeps the invariant |
| Tasks.ProcessKeepsWellFormed | cradle/task_engine.py:87-98 | `process_next` keeps the invariant |
| Tasks.ObserveEnds | cradle/task_engine.py:153-171 | after the observe phase the task is completed with a completion time, failed with an error, or pending and re-queued with an attempt left |
| Tasks.ActOnEnds | cradle/task_engine.py:109-147 | each branch of the plan ends the cycle in one of the allowed states; an exception leaves the task in its phase status, or REFLECTING with the queue unchanged, and not re-queued |
| Tasks.AddSubtasksEnds | cradle/task_engine.py:116-126 | adding sub-tasks leaves the parent as it was except for its children, and queues only the new ids after the old queue |
| Tasks.ReflectAndObserveEnds | cradle/task_engine.py:150-171 | the reflect and observe phases end in one of the allowed states, and raise exactly when the reflection is JSON but not an object |
| Tasks.ReactEnds | cradle/task_engine.py:100-171 | the cycle ends in one of the allowed states, or raises leaving the task in its phase status and out of the new part of the queue |
| Tasks.ProcessFacts | cradle/task_engine.py:87-171 | an empty queue changes nothing; otherwise the head is dequeued and gets exactly one more attempt, never beyond three; the rest of the queue keeps its order; an exception leaves the task THINKING, or REFLECTING with the rest of the queue unchanged, and out of the queue; a returned task is the stored one and ends completed, failed with a non-empty error, blocked, or pending and re-queued |
| Tasks.StatusLines | cradle/task_engine.py:316 | one line per listed task, in order |
| Tasks.Values | cradle/task_engine.py:305 | the values are stored tasks, and every task in the order is among them |
| Tasks.NewestAreListed | cradle/task_engine.py:299-318 | the summary lists at most ten stored tasks, newest first; a task is left out only when ten newer-or-equal ones are listed |
| Tasks.SortedValues | cradle/task_engine.py:305 | the sorted values are exactly the stored tasks |
| Tasks.SortedPrefix | cradle/task_engine.py:305 | the first ten of a newest-first list are ordered, and nothing after them is newer |
| Tasks.StatusSummaryReadsBack | cradle/task_engine.py:299-318 | split at newlines, the summary is the header followed by one line per listed task |
| Tasks.TaskEngine.constructor | cradle/task_engine.py:58-63 | the engine starts with no tasks and an empty queue |
| Tasks.TaskEngine.PendingCount | cradle/task_engine.py:320-322 | the pending count is the queue length, and a task is queued exactly when it is pending |
| Tasks.TaskEngine.AddTask | cradle/task_engine.py:65-85 | the new state and the task returned are `AddTaskSpec` of the old state |
| Tasks.TaskEngine.ProcessNext | cradle/task_engine.py:87-98 | the new state and the outcome are `ProcessSpec` of the old state |
| Tasks.TaskEngine.ReactLoop | cradle/task_engine.py:100-171 | the new state and the outcome are `React` of the old state, including the raise on a plan that is not an object |
| Tasks.TaskEngine.CarryOut | cradle/task_engine.py:109-147 | the new state and the outcome are `ActOn` of the old state |
| Tasks.TaskEngine.RunCode | cradle/task_engine.py:129-147 | the code branch of `ActOn` |
| Tasks.TaskEngine.ExecuteAndReflect | cradle/task_engine.py:139-171 | executes, then reflects and observes as `ReflectAndObserve` of the run |
| Tasks.TaskEngine.Reflect | cradle/task_engine.py:150-171 | reflects on the run and ends the cycle, or raises with the task REFLECTING, as `ReflectAndObserve` of the old state |
| Tasks.TaskEngine.AddSubtaskList | cradle/task_engine.py:116-126 | the new state is `AddSubtasks` of the old one over the sub-tasks before the first element that is not an object, and it reports whether every element was added |
| Tasks.TaskEngine.Conclude | cradle/task_engine.py:153-171 | the new state and the outcome are `Observe` of the old state |
| Tasks.TaskEngine.GetStatusSummary | cradle/task_engine.py:299-318 | returns `StatusSummary` of the state |
| Tasks.StatusSummaryLines | cradle/task_engine.py:304-316 | the loop builds the header followed by the status lines |
| Tasks.ObserveAfterStatus | cradle/task_engine.py:150-171 | the phase status set before the end of the cycle does not affect its result |
| Tasks.ReflectAndObserveAfterStatus | cradle/task_engine.py:139-171 | the phase status set before the reflect phase does not affect what it and the observe phase leave |
| Tasks.AddSubtasksSnoc | cradle/task_engine.py:117-125 | adding one more sub-task of the list adds its task after those of the sub-tasks before it |
| Tasks.ThinkPlan | cradle/task_engine.py:236-250 | a reply that is not JSON becomes a direct answer with the whole reply, a JSON object is the plan, and any other JSON value is None, where the cycle raises |
| Tasks.ReflectOn | cradle/task_engine.py:278-297 | a failed call gives the fallback reflection, and the result is None, where the cycle raises, exactly when the reply is JSON but not an object |
| Tasks.FallbackReflection | cradle/task_engine.py:291-297 | the fallback: a fixed reflection text, the first 500 characters of stdout or stderr, and a retry exactly when the run failed with an attempt left |
| Tasks.ThinkPrompt | cradle/task_engine.py:228-234 | the prompt names the title and description, adds the previous error on a retry that has one, and the relevant skill instructions when there are any |
| Tasks.React | cradle/task_engine.py:106-171 | the think phase: a raising LLM call or a plan that is not an object raises with nothing changed; otherwise the plan is carried out |
| Tasks.ActOn | cradle/task_engine.py:109-147 | a direct answer completes the task now; a decomposition adds the sub-tasks and blocks it, or raises at the first element that is not an object; an empty code fails it; code runs and is reflected on |
| Tasks.ReflectAndObserve | cradle/task_engine.py:150-171 | a reflection that is not an object raises with the task REFLECTING; any other ends the cycle |
| Tasks.Observe | cradle/task_engine.py:153-171 | records the reflection; success completes with stdout or the summary; failure records stderr or "Unknown error" and re-queues as pending only with an attempt left and a retry asked for, and fails otherwise |
| Tasks.Execute | cradle/task_engine.py:139-147 | Python code runs with the plan's packages and network flag; other code runs as a shell script without network |
| Tasks.ProcessSpec | cradle/task_engine.py:87-106 | an empty queue gives no task; the head id is dequeued, an unknown id gives no task, and a known task gets one more attempt, turns THINKING and enters the cycle |
| Tasks.NewTask | cradle/task_engine.py:73-78 | a new task is pending with no attempts, three allowed, no children, and its title as description when none is given |
| Tasks.StatusSummary | cradle/task_engine.py:299-318 | no tasks give the fixed text; otherwise the header and one line per listed task, joined by newlines |
| Tasks.StatusLine | cradle/task_engine.py:316 | icon, id in brackets, title and status value in parentheses |
| Tasks.Icon | cradle/task_engine.py:306-315 | one icon per status, as the source spells it |
| Tasks.RunInSandbox | cradle/task_engine.py:139-147 | Python code goes through `run_python`, anything else through `run_shell` |
| Heartbeat.ImprovementTitlesDistinct | cradle/heartbeat.py:26-97 | there is one title per template, eight in all, and no two templates share a title |
| Heartbeat.ImprovementRotation | cradle/heartbeat.py:215-218 | within any eight consecutive indices each of the eight templates is selected, and the selection repeats every eight indices |
| Heartbeat.FirstEvolution | cradle/heartbeat.py:230 | the first evolution after the start is at beat 20 |
| Heartbeat.NextEvolution | cradle/heartbeat.py:230 | from beat 20 on, the next evolution is at the next multiple of 50, and no beat in between evolves |
| Heartbeat.ImprovementBeatsPersistAndFetch | cradle/heartbeat.py:211-252 | every beat that seeds an improvement also persists and fetches skills |
| Heartbeat.Notification | cradle/heartbeat.py:167-173 | the message starts with the outcome line; it adds the first 3800 characters of the result and the first 1000 of the error, each only when present |
| Heartbeat.FixTitle | cradle/heartbeat.py:181 | the fix title is "Fix failure: " followed by the first 60 characters of the title |
| Heartbeat.NeedingFix | cradle/heartbeat.py:180 | the failed tasks with an error, in order |
| Heartbeat.Notifications | cradle/heartbeat.py:166-177 | every message is the notification of a completed or failed task among those given, and there is none exactly when no such task is given |
| Heartbeat.Reflections | cradle/heartbeat.py:199-204 | every pair is the id and reflection of a given task with a reflection, and there is none exactly when no task has one |
| Heartbeat.Handled | cradle/heartbeat.py:166-204 | a task's follow-up adds its notification when announced, files its fix task when it failed with an error, and adds its reflection when present |
| Heartbeat.Drain | cradle/heartbeat.py:158-164 | the task loop runs while tasks are pending and fewer than three were processed, and stops at a `None` or an exception |
| Heartbeat.FixDescription | cradle/heartbeat.py:182-190 | the fix description names the failed title, the first 500 characters of the error and the first 300 of the description |
| Heartbeat.ImprovementDue | cradle/heartbeat.py:211-213 | an improvement is due on every 20th beat past beat 5 with nothing pending |
| Heartbeat.EvolutionDue | cradle/heartbeat.py:230 | evolution is due at beat 20 and at every later multiple of 50 |
| Heartbeat.PersistDue | cradle/heartbeat.py:243 | the state is persisted every fifth beat |
| Heartbeat.FetchDue | cradle/heartbeat.py:247 | skills are fetched every tenth beat |
| Heartbeat.Pick | cradle/heartbeat.py:215-217 | the template is the improvement index taken modulo eight |
| Heartbeat.Persisted | cradle/heartbeat.py:274-278 | a persisted task keeps title, status value and source, and the first 500 characters of result and error |
| Heartbeat.Fetch | cradle/heartbeat.py:246-252 | a fetch merges the listing as `fetch_from_agentplaybooks` does and gives the count it returns |
| Heartbeat.AfterLoop | cradle/heartbeat.py:206-252 | an aborted beat only counts itself; otherwise the improvement, evolution, snapshot and fetch each happen on their schedule |
| Heartbeat.BeatSpec | cradle/heartbeat.py:154-262 | a beat is the task loop followed by `AfterLoop` with the template the index selects |
| Heartbeat.Step | cradle/heartbeat.py:160-204 | a round adds the returned task to the processed ones and nothing else to them |
| Heartbeat.HandledEngine | cradle/heartbeat.py:179-196 | handling a task files its fix task on a well-formed engine and keeps the engine well formed |
| Heartbeat.HandledAccounted | cradle/heartbeat.py:166-204 | handling a task records exactly its notification, fix task and reflection |
| Heartbeat.HandledReported | cradle/heartbeat.py:166-204 | the messages and reflections stay exactly those of the processed tasks |
| Heartbeat.HandledHealed | cradle/heartbeat.py:179-196 | the fix tasks stay one per processed task that needs one |
| Heartbeat.NotificationsAppend | cradle/heartbeat.py:166-177 | one more task adds its message, when announced, after those of the tasks before it |
| Heartbeat.ReflectionsAppend | cradle/heartbeat.py:199-204 | one more task adds its reflection, when present, after those of the tasks before it |
| Heartbeat.NeedingFixAppend | cradle/heartbeat.py:180 | the failed tasks of a longer list are those of the shorter list plus the new one if it needs a fix |
| Heartbeat.FixFiled | cradle/heartbeat.py:191-196 | the task filed for a failure is its self-healing task: titled, described, parented and sourced as required |
| Heartbeat.ReturnedFailureHasError | cradle/heartbeat.py:180 | a failed task returned by the engine carries a non-empty error, so it always gets a fix task |
| Heartbeat.StepWellFormed | cradle/heartbeat.py:160-204 | a round keeps the engine well formed |
| Heartbeat.StepAccounted | cradle/heartbeat.py:160-204 | a round keeps notifications, fix tasks and reflections in step with the processed tasks |
| Heartbeat.DrainFacts | cradle/heartbeat.py:158-204 | the task loop keeps the engine well formed and processes at most three tasks; every failed one carries an error and gets exactly one self-healing task, in order, with it as parent |
| Heartbeat.SnapshotOf | cradle/heartbeat.py:264-282 | the snapshot lists every task and only those, keeping title, status value and source; result and error are cut to 500 characters, a short one kept whole |
| Heartbeat.UptimeParts | cradle/heartbeat.py:294-296 | hours and minutes are whole, minutes are below 60, and together they are within the minute below the uptime |
| Heartbeat.StatusTextLines | cradle/heartbeat.py:298-307 | eight lines, the fourth and fifth carrying the beat count and the pending count |
| Heartbeat.StatusText | cradle/heartbeat.py:298-307 | split at newlines, the status text gives back its eight lines |
| Heartbeat.StatusTextReadsBack | cradle/heartbeat.py:298-307 | the status text has eight lines, and the beat count and pending count parse back from theirs |
| Heartbeat.BeatKeepsWellFormed | cradle/heartbeat.py:154-262 | a beat keeps the engine and the skill cache well formed, and the beat counter rises by exactly one |
| Heartbeat.BeatWork | cradle/heartbeat.py:158-204 | at most three tasks are processed; completed and failed ones are announced; reflections are handed on; each failed task carries an error and gets exactly one self-healing task, in order |
| Heartbeat.AfterLoopKeepsLog | cradle/heartbeat.py:158-204 | the report carries the task loop's processed tasks, messages, fix tasks and reflections unchanged |
| Heartbeat.AfterLoopImprovement | cradle/heartbeat.py:209-227 | whatever the task loop left, the template is seeded exactly when the beat is due with nothing pending, as a pending parentless self-improvement task with the template's title and description, now stored, and the index rises with it |
| Heartbeat.AfterLoopPeriodic | cradle/heartbeat.py:229-252 | whatever the task loop left, evolution, the snapshot and the fetch happen exactly on their beats unless aborted; the snapshot covers every task and the new index |
| Heartbeat.AfterLoopSchedule | cradle/heartbeat.py:209-252 | the two above together |
| Heartbeat.BeatSchedule | cradle/heartbeat.py:209-252 | an improvement is seeded exactly when due with nothing pending, with the selected template's title and description, and the index rises by one; evolution, snapshot and fetch happen exactly on their beats; an aborted beat does none of these |
| Heartbeat.Heartbeat.constructor | cradle/heartbeat.py:103-120 | the heartbeat takes the configured interval and starts at beat 0 with improvement index 0 |
| Heartbeat.Heartbeat.Beat | cradle/heartbeat.py:154-262 | the new state and the report are `BeatSpec` of the old state |
| Heartbeat.Heartbeat.Conclude | cradle/heartbeat.py:206-252 | the work after the task loop is `AfterLoop` with the given template |
| Heartbeat.Heartbeat.RunSchedule | cradle/heartbeat.py:209-252 | the scheduled work of a beat that was not aborted is `AfterLoop` with the given template |
| Heartbeat.Heartbeat.SeedImprovement | cradle/heartbeat.py:209-227 | adds the template as a self-improvement task exactly when due with nothing pending, and raises the index by one; otherwise nothing changes |
| Heartbeat.Heartbeat.FetchSkills | cradle/heartbeat.py:246-252 | fetches on fetch beats when a loader exists, and otherwise changes nothing |
| Heartbeat.Heartbeat.WorkQueue | cradle/heartbeat.py:158-204 | the loop leaves the log `Drain` computes from the engine's old state |
| Heartbeat.Heartbeat.FollowUp | cradle/heartbeat.py:166-204 | the follow-up of a returned task is `Handled` |
| Heartbeat.Heartbeat.GetStatus | cradle/heartbeat.py:292-307 | split at newlines, the status is the eight status lines for the current uptime and counts |
| Wrappers.LeadingValues | cradle/task_engine.py:117-125 | the values before the first missing one: the elements a loop gets through before one that is not an object raises |
| Text.ParseInt | cradle/config.py:73 | `int(s)` in base 10: optional sign, digits with single underscores between them, surrounding whitespace allowed; None where it raises |
| Text.Strip | cradle/task_engine.py:247 | `strip()`: leading and trailing whitespace removed |
| Text.Join | cradle/task_engine.py:318 | `sep.join(parts)` |
| Text.IntToString | cradle/heartbeat.py:301-303 | `str(n)`: a minus sign for negative numbers, then the decimal digits |
| Text.ExtractFenced | cradle/task_engine.py:239-244 | the text after the first "```json" up to the next fence, else between the first two fences, else the whole reply |
| Text.Take | cradle/heartbeat.py:171 | slicing to n characters keeps a prefix of length min(n, len) |
| Text.IndexFrom | cradle/task_engine.py:239-247 | the index found is the first occurrence at or after the start |
| Text.Split | cradle/task_engine.py:239-247 | the first piece is the text before the separator, and there are two or more pieces exactly when the separator occurs |
| Text.SplitJoin | cradle/task_engine.py:239-247 | joining the pieces of a split gives back the text |
| Text.JoinSplit | cradle/heartbeat.py:298-307 | splitting a join at a character no piece contains gives back the pieces |
| Text.ExtractJsonFence | cradle/task_engine.py:239-244 | with a "```json" fence, the text handed to the decoder is what follows it, up to the next "```" |
| Text.ExtractPlainFence | cradle/task_engine.py:245-247 | with a plain fence only, it is what lies between the first two fences |
| Text.ExtractNoFence | cradle/task_engine.py:239-247 | a reply without a fence is passed unchanged |
| Text.StripLeft | cradle/task_engine.py:239-247 | leading whitespace is dropped and nothing else |
| Text.StripRight | cradle/task_engine.py:239-247 | trailing whitespace is dropped and nothing else |
| Text.LStrip | cradle/telegram_bot.py:34 | the leading run of the character is dropped and nothing else |
| Text.Lower | cradle/skills.py:365 | each character is lowered, length unchanged |
| Text.NatToString | cradle/heartbeat.py:302 | a decimal rendering is a non-empty digit string |
| Text.ParseIntToString | cradle/config.py:73 | `int(str(n)) == n` |
| Sorting.SortBySortedPermutation | cradle/config.py:136 | the sort yields a key-ordered permutation of its input |
| Sorting.SortByStable | cradle/task_engine.py:305 | elements with equal keys keep their relative order |
| Sorting.SortBySortedIsIdentity | cradle/config.py:136 | sorting a list already in key order leaves it unchanged |

## Left out

- The supervisor that restarts the agent on exit code 42 is not part of this model. Neither is `main.py`, which wires the parts together and starts the loops.
- Floating-point fields are not modelled: costs, `cost_per_1k_tokens`, temperature, latency, `duration_ms`, `total_cost_usd` and `LLMRouter.get_stats_summary`, which formats them.
- Clocks are integer inputs. `time.time()` and `time.monotonic()` are floats, and the model does not capture the `int()` truncation of a fractional uptime or the float `start_time` in the snapshot.
- `str(uuid.uuid4())[:8]` ids are an injective `freshId` function. Eight-character prefix collisions are not modelled.
- The LLM, container runs, the skill store and Telegram are oracle parameters. `json.loads` is an oracle with three answers: not JSON, JSON that is not an object, or an object. The `.get` defaults on missing keys, and field values of another type than the one the code goes on to use, are folded into the object answer.
- The fixed system prompts of the think and reflect phases are left out. The LLM oracle receives the think prompt and the skills summary appended to the system prompt. The reflection request is reduced to the title, the code shown and the run's result.
- Built-in skill contents are reduced to their names, descriptions and a content string. The helper functions defined in `skills.py` (`web_search`, `github_read_file`, `git_push`, `spawn_agent`) are skill bodies run inside the sandbox, not part of the agent.
- Text.Lower: lowers ASCII letters only; Python's Unicode case mapping is not modelled.
- Text.ParseInt: accepts ASCII digits only; non-ASCII decimal digits that `int()` accepts are not modelled.
- Tasks.ProcessSpec: the router state is not threaded through the task engine. Each LLM reply in a task cycle is an oracle answer rather than a `Router.LLMRouter.Complete` call.
- Skills.SkillLoader.SyncBuiltinSkills: `store_skill` is a yes/no oracle; an exception it raises is not modelled.
- Skills.SkillLoader.FetchFromAgentPlaybooks: any exception from `list_skills` is the failed listing (`Err`), and an element of the listing that is not an object is `None`. A `name` field that is not a string is not modelled.
- Tasks.AddSubtasks: the sub-tasks of one decomposition, and the fix and improvement tasks of one beat (Heartbeat.Handled, Heartbeat.AfterLoop), share the cycle's `now` as creation time, where `time.time()` gives each a later one. Tasks.StatusSummary therefore lists such tasks oldest first among themselves, because the stable sort keeps insertion order on equal times, where the source lists them newest first; the ten listed can differ at the cut.
- Heartbeat.Heartbeat.Beat: the source swallows Telegram send failures and reflection-store failures, so the report lists what would be sent and stored.
- Heartbeat.BeatSchedule: self-evolution is reported as a request flag. The evolver and its result message (heartbeat.py:233-240) are not part of this model, nor are `memory.py` and `github_client.py`.
- Logging is left out, including the periodic beat log line (heartbeat.py:254-262).
- `start`, `stop` and the sleep between beats are left out, as is the start-up announcement. Asyncio concurrency is left out: a beat is modelled as running alone.
- The Telegram handlers (`/start`, `/status`, `/task`, `/cost`, `/evolve` and free text), the bot's start and stop, and `_chat_id` bookkeeping are left out. Only authorisation, chunking and delivery are modelled.
- `Sandbox.pull_image`, the temporary directory and file writes, and the UTF-8 decoding with replacement are left out. Output is a string of characters.
- The `state.json` path, JSON formatting and write failures are left out. The snapshot is the value that would be written.
- Tasks.TaskEngine.Valid: the invariant does not state that the queue only holds stored ids of pending tasks whose `process_next` returns them. So `process_next` may return `None` in the middle of a beat's loop, and the loop's early exit on `None` is modelled.
- Tasks.Icon: the status icons of `get_status_summary` are kept as the mis-encoded strings the source contains (task_engine.py:302-315).

=== FILE: config.dfy ===
/**
 * Configuration (cradle/config.py): every setting comes from the process
 * environment, given here as a map from variable name to value. A variable
 * that is set to the empty string counts as set (Python's `os.getenv`).
 */
module CradleConfig {
  import opened Wrappers
  import opened Text
  import opened Sorting

  /** One LLM back end; a lower `priority` is preferred. Its per-token cost (a float) is not modelled. */
  datatype LLMProvider = LLMProvider(
    name: string,
    apiKey: string,
    baseUrl: string,
    model: string,
    priority: int,
    maxRpm: int)

  datatype Config = Config(
    llmProviders: seq<LLMProvider>,
    telegramBotToken: string,
    allowedTelegramUser: string,
    githubPat: string,
    githubOrg: string,
    githubRepo: string,
    agentplaybooksKey: string,
    agentplaybooksGuid: string,
    agentplaybooksPlaybookId: string,
    agentplaybooksBaseUrl: string,
    supabaseKey: string,
    heartbeatInterval: int,
    logLevel: string,
    dataDir: string)

  type Env = map<string, string>

  /** Python's `os.getenv(name, default)`. */
  function Getenv(env: Env, name: string, default: string): string
  {
    if name in env then env[name] else default
  }

  /** `int(HEARTBEAT_INTERVAL)` raised `ValueError` on this text. */
  datatype ConfigError = InvalidHeartbeatInterval(text: string)

  const DefaultAllowedUser: string := "@matebenyovszky"
  const DefaultGithubOrg: string := "agenthatchery"
  const DefaultGithubRepo: string := "cradle"
  const DefaultAgentplaybooksBaseUrl: string := "https://agentplaybooks.ai/api"
  const DefaultHeartbeatInterval: string := "30"
  const DefaultLogLevel: string := "INFO"
  const DefaultDataDir: string := "/app/data"
  const DefaultGeminiModel: string := "gemini-3.1-pro"

  function Priority(p: LLMProvider): int
  {
    p.priority
  }

  /** No two providers share a name. */
  ghost predicate DistinctNames(ps: seq<LLMProvider>)
  {
    forall i, j :: 0 <= i < j < |ps| ==> ps[i].name != ps[j].name
  }

  /** Priorities strictly increase along the list. */
  ghost predicate IncreasingPriority(ps: seq<LLMProvider>)
  {
    forall i, j :: 0 <= i < j < |ps| ==> ps[i].priority < ps[j].priority
  }

  /** The five providers `from_env` knows, in the order it considers them, keyed or not. */
  function Candidates(env: Env): (cs: seq<LLMProvider>)
    ensures |cs| == 5
    ensures forall i :: 0 <= i < 5 ==> cs[i].priority == i + 1
    ensures DistinctNames(cs)
  {
    [LLMProvider("gemini", Getenv(env, "GEMINI_API_KEY", ""), "https://generativelanguage.googleapis.com/v1beta",
                 Getenv(env, "GEMINI_MODEL", DefaultGeminiModel), 1, 60),
     LLMProvider("minimax", Getenv(env, "MINIMAX_API_KEY", ""), "https://api.minimaxi.chat/v1", "MiniMax-M1", 2, 20),
     LLMProvider("groq", Getenv(env, "GROQ_API_KEY", ""), "https://api.groq.com/openai/v1", "llama-3.3-70b-versatile", 3, 60),
     LLMProvider("openrouter", Getenv(env, "OPENROUTER_API_KEY", ""), "https://openrouter.ai/api/v1",
                 "meta-llama/llama-3.3-70b-instruct:free", 4, 60),
     LLMProvider("openai", Getenv(env, "OPENAI_API_KEY", ""), "https://api.openai.com/v1", "gpt-4.1-mini", 5, 60)]
  }

  /** The candidates whose API key is non-empty, in their original order. */
  function WithKeys(cs: seq<LLMProvider>): seq<LLMProvider>
  {
    if cs == [] then []
    else WithKeys(cs[..|cs| - 1]) + (if cs[|cs| - 1].apiKey != "" then [cs[|cs| - 1]] else [])
  }

  /** The provider list `from_env` builds: the keyed candidates, sorted by priority. */
  function Providers(env: Env): seq<LLMProvider>
  {
    SortBy(WithKeys(Candidates(env)), Priority)
  }

  lemma {:induction false} WithKeysMembers(cs: seq<LLMProvider>)
    ensures |WithKeys(cs)| <= |cs|
    ensures forall p :: p in WithKeys(cs) <==> p in cs && p.apiKey != ""
  {
    if cs != [] {
      var init := cs[..|cs| - 1];
      WithKeysMembers(init);
      assert cs == init + [cs[|cs| - 1]];
    }
  }

  lemma {:induction false} WithKeysIncreasing(cs: seq<LLMProvider>)
    requires IncreasingPriority(cs)
    ensures IncreasingPriority(WithKeys(cs))
  {
    if cs != [] {
      var init, last := cs[..|cs| - 1], cs[|cs| - 1];
      WithKeysIncreasing(init);
      WithKeysMembers(init);
      var w := WithKeys(init);
      forall i | 0 <= i < |w| ensures w[i].priority < last.priority {
        assert w[i] in init;
      }
    }
  }

  /**
   * What `from_env` promises about its provider list: exactly the candidates
   * with a non-empty key, at most one per name, ordered by priority.
   */
  lemma ProvidersFacts(env: Env)
    ensures forall p :: p in Providers(env) <==> p in Candidates(env) && p.apiKey != ""
    ensures |Providers(env)| <= 5
    ensures IncreasingPriority(Providers(env)) && DistinctNames(Providers(env))
  {
    var cs := Candidates(env);
    assert IncreasingPriority(cs);
    KeyedProviders(cs);
  }

  /** The keyed providers of any priority-ordered candidate list with distinct names. */
  lemma KeyedProviders(cs: seq<LLMProvider>)
    requires IncreasingPriority(cs) && DistinctNames(cs)
    ensures var ps := SortBy(WithKeys(cs), Priority);
      && (forall p :: p in ps <==> p in cs && p.apiKey != "")
      && |ps| <= |cs|
      && IncreasingPriority(ps) && DistinctNames(ps)
  {
    WithKeysIncreasing(cs);
    WithKeysMembers(cs);
    var w := WithKeys(cs);
    SortBySortedIsIdentity(w, Priority);
    forall i, j | 0 <= i < j < |w| ensures w[i].name != w[j].name {
      assert w[i] in cs && w[j] in cs;
      var k :| 0 <= k < |cs| && cs[k] == w[i];
      var l :| 0 <= l < |cs| && cs[l] == w[j];
      assert w[i].priority < w[j].priority;
      assert k != l;
    }
  }

  /**
   * `Config.from_env`: reads every setting (unset variables take their
   * defaults), then lists a provider for each non-empty API key, sorted by
   * priority. A non-numeric HEARTBEAT_INTERVAL raises.
   */
  method FromEnv(env: Env) returns (r: Result<Config, ConfigError>)
    ensures r.Err? <==> ParseInt(Getenv(env, "HEARTBEAT_INTERVAL", DefaultHeartbeatInterval)).None?
    ensures r.Ok? ==> Some(r.value.heartbeatInterval) == ParseInt(Getenv(env, "HEARTBEAT_INTERVAL", DefaultHeartbeatInterval))
    ensures r.Ok? && "HEARTBEAT_INTERVAL" !in env ==> r.value.heartbeatInterval == 30
    ensures r.Ok? ==> r.value.allowedTelegramUser == (if "ALLOWED_TELEGRAM_USER" in env then env["ALLOWED_TELEGRAM_USER"] else "@matebenyovszky")
    ensures r.Ok? ==> r.value.githubOrg == (if "GITHUB_ORG" in env then env["GITHUB_ORG"] else "agenthatchery")
    ensures r.Ok? ==> r.value.githubRepo == (if "GITHUB_REPO" in env then env["GITHUB_REPO"] else "cradle")
    ensures r.Ok? ==> r.value.dataDir == (if "DATA_DIR" in env then env["DATA_DIR"] else "/app/data")
    ensures r.Ok? ==> r.value.telegramBotToken == (if "TELEGRAM_BOT_TOKEN" in env then env["TELEGRAM_BOT_TOKEN"] else "")
    ensures r.Ok? ==> r.value.githubPat == (if "GITHUB_PAT" in env then env["GITHUB_PAT"] else "")
    ensures r.Ok? ==> r.value.agentplaybooksKey == Getenv(env, "AGENTPLAYBOOKS_KEY", "")
    ensures r.Ok? ==> r.value.agentplaybooksGuid == Getenv(env, "AGENTPLAYBOOKS_GUID", "")
    ensures r.Ok? ==> r.value.agentplaybooksPlaybookId == Getenv(env, "AGENTPLAYBOOKS_PLAYBOOK_ID", "")
    ensures r.Ok? ==> r.value.agentplaybooksBaseUrl == DefaultAgentplaybooksBaseUrl
    ensures r.Ok? ==> r.value.supabaseKey == Getenv(env, "SUPABASE_KEY", "")
    ensures r.Ok? ==> r.value.logLevel == Getenv(env, "LOG_LEVEL", DefaultLogLevel)
    ensures r.Ok? ==> r.value.llmProviders == Providers(env)
  {
    // Telegram
    var telegramBotToken := Getenv(env, "TELEGRAM_BOT_TOKEN", "");
    var allowedTelegramUser := Getenv(env, "ALLOWED_TELEGRAM_USER", DefaultAllowedUser);
    // GitHub
    var githubPat := Getenv(env, "GITHUB_PAT", "");
    var githubOrg := Getenv(env, "GITHUB_ORG", DefaultGithubOrg);
    var githubRepo := Getenv(env, "GITHUB_REPO", DefaultGithubRepo);
    // AgentPlaybooks
    var agentplaybooksKey := Getenv(env, "AGENTPLAYBOOKS_KEY", "");
    var agentplaybooksGuid := Getenv(env, "AGENTPLAYBOOKS_GUID", "");
    var agentplaybooksPlaybookId := Getenv(env, "AGENTPLAYBOOKS_PLAYBOOK_ID", "");
    // Supabase
    var supabaseKey := Getenv(env, "SUPABASE_KEY", "");
    // Cradle
    var intervalText := Getenv(env, "HEARTBEAT_INTERVAL", DefaultHeartbeatInterval);
    var interval := ParseInt(intervalText);
    if interval.None? {
      return Err(InvalidHeartbeatInterval(intervalText));
    }
    if "HEARTBEAT_INTERVAL" !in env {
      DefaultIntervalParses();
    }
    var logLevel := Getenv(env, "LOG_LEVEL", DefaultLogLevel);
    var dataDir := Getenv(env, "DATA_DIR", DefaultDataDir);

    var providers := ProvidersFromEnv(env);
    r := Ok(Config(providers, telegramBotToken, allowedTelegramUser, githubPat, githubOrg, githubRepo,
                   agentplaybooksKey, agentplaybooksGuid, agentplaybooksPlaybookId, DefaultAgentplaybooksBaseUrl,
                   supabaseKey, interval.value, logLevel, dataDir));
  }

  /**
   * The provider part of `Config.from_env`: one `append` per candidate whose
   * key is non-empty, then a sort by priority.
   */
  method ProvidersFromEnv(env: Env) returns (ps: seq<LLMProvider>)
    ensures ps == Providers(env)
  {
    var cs := Candidates(env);
    ps := [];
    if cs[0].apiKey != "" { ps := ps + [cs[0]]; }
    assert ps == WithKeys(cs[..1]);
    if cs[1].apiKey != "" { ps := ps + [cs[1]]; }
    assert cs[..2][..1] == cs[..1];
    assert ps == WithKeys(cs[..2]);
    if cs[2].apiKey != "" { ps := ps + [cs[2]]; }
    assert cs[..3][..2] == cs[..2];
    assert ps == WithKeys(cs[..3]);
    if cs[3].apiKey != "" { ps := ps + [cs[3]]; }
    assert cs[..4][..3] == cs[..3];
    assert ps == WithKeys(cs[..4]);
    if cs[4].apiKey != "" { ps := ps + [cs[4]]; }
    assert cs[..5][..4] == cs[..4] && cs[..5] == cs;
    assert ps == WithKeys(cs);
    ps := SortBy(ps, Priority);
  }

  /** The default interval text "30" parses to 30. */
  lemma DefaultIntervalParses()
    ensures ParseInt(DefaultHeartbeatInterval) == Some(30)
  {
    assert NatToString(3) == "3";
    assert NatToString(30) == NatToString(3) + [DigitChar(0)] == "30";
    assert IntToString(30) == "30";
    ParseIntToString(30);
  }

  const NoProvidersWarning: string := "No LLM providers configured — agent cannot think!"
  const NoTelegramWarning: string := "No Telegram bot token — no human communication channel"
  const NoGithubWarning: string := "No GitHub PAT — cannot self-evolve via git"

  /** The position of a warning in the fixed reporting order. */
  function WarningRank(w: string): int
  {
    if w == NoProvidersWarning then 0 else if w == NoTelegramWarning then 1 else 2
  }

  /** `Config.validate`: one warning per missing essential setting, in a fixed order. */
  function Validate(cfg: Config): (w: seq<string>)
    ensures NoProvidersWarning in w <==> cfg.llmProviders == []
    ensures NoTelegramWarning in w <==> cfg.telegramBotToken == ""
    ensures NoGithubWarning in w <==> cfg.githubPat == ""
    ensures forall i :: 0 <= i < |w| ==> w[i] in {NoProvidersWarning, NoTelegramWarning, NoGithubWarning}
    ensures forall i, j :: 0 <= i < j < |w| ==> WarningRank(w[i]) < WarningRank(w[j])
    ensures w == [] <==> cfg.llmProviders != [] && cfg.telegramBotToken != "" && cfg.githubPat != ""
  {
    (if cfg.llmProviders == [] then [NoProvidersWarning] else [])
    + (if cfg.telegramBotToken == "" then [NoTelegramWarning] else [])
    + (if cfg.githubPat == "" then [NoGithubWarning] else [])
  }
}

=== FILE: heartbeat.dfy ===
/**
 * The heartbeat daemon (cradle/heartbeat.py). Every beat it works through at
 * most three queued tasks: it notifies on each completed or failed one,
 * files a self-healing task for each failure, and stores each reflection.
 * Then, driven by the beat counter alone, it seeds a self-improvement task
 * when idle, triggers self-evolution, persists a snapshot and refreshes the
 * skill catalogue.
 *
 * What a beat does is the function `BeatSpec` of the heartbeat's state; the
 * class `Heartbeat` carries it out on the engine and the skill loader it
 * shares. The outside world does not appear: messages to Telegram,
 * reflections for the memory store, the evolution request and the snapshot
 * are returned in a `BeatReport`. The clock (`now`), the evolver's counter,
 * the LLM and sandbox oracles of each processed task and the remote skill
 * listing are parameters.
 */
module Heartbeat {
  import opened Wrappers
  import opened Text
  import opened Tasks
  import Skills
  import CradleConfig

  // ---------------------------------------------------------------------------
  // SELF_IMPROVEMENT_TASKS
  // ---------------------------------------------------------------------------

  datatype Template = Template(title: string, description: string)

  /** How many improvement tasks the agent cycles through. */
  const ImprovementCount: nat := 8

  /** The titles of the improvement tasks, in the order the agent cycles through them. */
  const ImprovementTitles: seq<string> := [
    "Migrate Cradle system prompt to AgentPlaybooks Persona",
    "Perform a deep architecture review using Gemini 3.1 Pro",
    "Synchronize agent capabilities as official Skills",
    "Research and implement NanoClaw-style sub-agent spawning",
    "Audit and optimize multi-provider cost/performance",
    "Enhance Evolver with automated unit test generation",
    "Implement long-term memory consolidation (RLM)",
    "Research and implement revenue-generating agent skills"
  ]

  /** The description of the improvement task at position `i`. */
  function ImprovementDescription(i: nat): string
    requires i < ImprovementCount
  {
    match i
    case 0 =>
      "Extract the full system prompt from task_engine.py and config instructions. Use the memory.update_playbook tool to set the persona_system_prompt in AgentPlaybooks. This makes the agent's core instructions editable from the web UI."
    case 1 =>
      "Read all source files in the cradle/ directory. Use the premium 'gemini-pro' provider (Gemini 3.1 Pro Preview) to analyze the architecture for bottlenecks, security flaws, and scalability issues. Store the detailed analysis as a Canvas document in AgentPlaybooks."
    case 2 =>
      "For each key module (sandbox, llm_router, memory, evolver), generate a concise 'skill definition' (prompt/instructions). Use memory.store_skill to upload these to AgentPlaybooks. Ensure they follow the international agentplaybook.ai standard."
    case 3 =>
      "Analyze the NanoClaw spawning mechanism (cloning GitHub repos into Docker). Implement a 'SubAgentSpawner' skill that can take a GitHub URL, spin up a container, execute a specific command, and pull results. Test with 'github.com/matebenyovszky/healing-agent' as a proof of concept."
    case 4 =>
      "Analyze the last 100 LLM calls from logs. Compare latency and success rates between Gemini 2.5 Flash, Groq, and OpenAI. Adjust provider priorities in config.py if certain providers are underperforming. Store the optimization report in AgentPlaybooks memory."
    case 5 =>
      "Modify the evolver.py to automatically generate unit tests for proposed changes. The evolver should write a test file, run it in the sandbox, and only proceed if BOTH the code and the new tests pass. This ensures self-modifications are safe."
    case 6 =>
      "Analyze the current memory usage. Implement a background task that takes 'contextual' memories and summarizes them into 'longterm' memories using RLM (Recursive Language Model) patterns. This prevents context window bloat while retaining knowledge."
    case _ =>
      "Investigate automated bug bounty hunting and freelance coding tasks. Develop a skill that can search for open issues on GitHub tagged 'good first issue' and propose fixes for them. Goal: make the agent self-sustaining."
  }

  /** The improvement task at position `i`. */
  function Improvement(i: nat): Template
    requires i < ImprovementCount
  {
    Template(ImprovementTitles[i], ImprovementDescription(i))
  }

  /** The template an improvement index selects: the list is used round-robin. */
  function Pick(index: nat): Template
  {
    Improvement(index % ImprovementCount)
  }

  /** There is one title per improvement task, and no two tasks share a title. */
  lemma ImprovementTitlesDistinct()
    ensures |ImprovementTitles| == ImprovementCount
    ensures forall i, j :: 0 <= i < j < ImprovementCount ==> ImprovementTitles[i] != ImprovementTitles[j]
  {
    var lengths := [54, 55, 49, 56, 50, 51, 46, 54];
    forall i | 0 <= i < 8 ensures |ImprovementTitles[i]| == lengths[i] {
    }
    assert ImprovementTitles[0][53] == 'a' && ImprovementTitles[7][53] == 's';
  }

  /**
   * Round-robin: any eight consecutive indices select every one of the eight
   * templates, and the selection repeats every eight indices.
   */
  lemma ImprovementRotation(k: nat)
    ensures forall j :: 0 <= j < ImprovementCount ==>
      k <= k + (j + 8 - k % 8) % 8 < k + ImprovementCount && Pick(k + (j + 8 - k % 8) % 8) == Improvement(j)
    ensures forall m: nat :: Pick(k + ImprovementCount * m) == Pick(k)
  {
    forall j | 0 <= j < 8
      ensures Pick(k + (j + 8 - k % 8) % 8) == Improvement(j)
    {
      assert (k + (j + 8 - k % 8) % 8) % 8 == j;
    }
    forall m: nat ensures Pick(k + 8 * m) == Pick(k) {
      assert (k + 8 * m) % 8 == k % 8;
    }
  }

  // ---------------------------------------------------------------------------
  // The beat schedule
  // ---------------------------------------------------------------------------

  /** At most this many tasks are worked on per beat. */
  const TasksPerBeat: nat := 3

  /** An improvement task is seeded every 20 beats, past beat 5, when nothing is pending. */
  predicate ImprovementDue(beat: int, pending: nat)
  {
    beat % 20 == 0 && pending == 0 && beat > 5
  }

  /** Self-evolution runs at beat 20 and then at every multiple of 50. */
  predicate EvolutionDue(beat: int)
  {
    beat == 20 || (beat > 20 && beat % 50 == 0)
  }

  /** The state is persisted every 5 beats. */
  predicate PersistDue(beat: int)
  {
    beat % 5 == 0
  }

  /** Skills are fetched every 10 beats. */
  predicate FetchDue(beat: int)
  {
    beat > 0 && beat % 10 == 0
  }

  /** The first evolution follows beat 19 and comes at beat 20. */
  lemma FirstEvolution(b: int)
    requires 0 < b <= 20
    ensures EvolutionDue(b) <==> b == 20
  {
  }

  /**
   * From beat 20 on, the evolution after beat `b` is the next multiple of 50,
   * which is at most 50 beats away, and no beat in between evolves.
   */
  lemma NextEvolution(b: int)
    requires b >= 20
    ensures var e := b + 50 - b % 50;
      && b < e <= b + 50
      && EvolutionDue(e)
      && forall c :: b < c < e ==> !EvolutionDue(c)
  {
  }

  /** Every beat that seeds an improvement also persists and fetches skills. */
  lemma ImprovementBeatsPersistAndFetch(beat: int, pending: nat)
    requires ImprovementDue(beat, pending)
    ensures PersistDue(beat) && FetchDue(beat)
  {
    var q := beat / 20;
    assert beat == 20 * q;
    assert beat == 5 * (4 * q) && beat % 5 == 0;
    assert beat == 10 * (2 * q) && beat % 10 == 0;
  }

  // ---------------------------------------------------------------------------
  // Notifications and self-healing
  // ---------------------------------------------------------------------------

  /** Whether a processed task is announced on Telegram. */
  predicate Announced(t: Task)
  {
    t.status == Completed || t.status == Failed
  }

  const ResultShown: nat := 3800
  const ErrorShown: nat := 1000
  const ErrorLabel: string := "\n\U{26a0}\U{fe0f} Error: "

  /** The first line of a notification: the outcome icon, the id and the title. */
  function NotificationHead(t: Task): string
  {
    (if t.status == Completed then "\U{2705}" else "\U{274c}") + " [" + t.id + "] " + t.title + "\n"
  }

  /**
   * The message announcing a completed or failed task: the head line, then
   * the start of the result and the start of the error, each only when
   * present.
   */
  function Notification(t: Task): (msg: string)
    ensures |NotificationHead(t)| <= |msg| && msg[..|NotificationHead(t)|] == NotificationHead(t)
    ensures |msg| <= |NotificationHead(t)| + 1 + ResultShown + |ErrorLabel| + ErrorShown
    ensures t.result == "" && t.error == "" ==> msg == NotificationHead(t)
    ensures t.result != "" && |t.result| <= ResultShown && t.error == "" ==> msg == NotificationHead(t) + "\n" + t.result
  {
    NotificationHead(t)
      + (if t.result != "" then "\n" + Take(t.result, ResultShown) else "")
      + (if t.error != "" then ErrorLabel + Take(t.error, ErrorShown) else "")
  }

  const SelfHealing: string := "self-healing"
  const SelfImprovement: string := "self-improvement"

  /** The title of the fix task for a failed task. */
  function FixTitle(title: string): (r: string)
    ensures |r| == 13 + (if |title| <= 60 then |title| else 60)
    ensures r[..13] == "Fix failure: " && title[..|r| - 13] == r[13..]
  {
    "Fix failure: " + Take(title, 60)
  }

  /** The description of the fix task: the failed title, the start of the error and of the description. */
  function FixDescription(t: Task): string
  {
    "The task '" + t.title + "' failed with this error:\n" + Take(t.error, 500) + "\n\n"
      + "Analyze the error, fix the root cause, and retry the task. "
      + "If it's a code error, correct the code and re-run. "
      + "If it's a missing dependency, install it and retry. "
      + "Store the fix as a learning in AgentPlaybooks memory. "
      + "Original description: " + Take(t.description, 300)
  }

  /** A failed task with an error message gets a fix task. */
  predicate NeedsFix(t: Task)
  {
    t.status == Failed && t.error != ""
  }

  /** `fix` is the self-healing task filed for the failed task `t`. */
  predicate FixesTask(fix: Task, t: Task)
  {
    && fix.parentId == Some(t.id)
    && fix.source == SelfHealing
    && fix.title == FixTitle(t.title)
    && fix.description == FixDescription(t)
    && fix.status == Pending
  }

  /** The failed tasks among `ts` that need a fix, in order. */
  function NeedingFix(ts: seq<Task>): (r: seq<Task>)
    ensures |r| <= |ts| && forall t :: t in r ==> t in ts && NeedsFix(t)
  {
    if ts == [] then []
    else NeedingFix(ts[..|ts| - 1]) + (if NeedsFix(ts[|ts| - 1]) then [ts[|ts| - 1]] else [])
  }

  /** The messages sent for the tasks `ts`, in order: one per announced task and nothing else. */
  function Notifications(ts: seq<Task>): (r: seq<string>)
    ensures |r| <= |ts|
    ensures r == [] <==> forall t :: t in ts ==> !Announced(t)
    ensures forall m :: m in r ==> exists t :: t in ts && Announced(t) && m == Notification(t)
  {
    if ts == [] then []
    else Notifications(ts[..|ts| - 1]) + (if Announced(ts[|ts| - 1]) then [Notification(ts[|ts| - 1])] else [])
  }

  /** The (task id, reflection) pairs handed to the memory store for the tasks `ts`: one per task with a reflection. */
  function Reflections(ts: seq<Task>): (r: seq<(string, string)>)
    ensures |r| <= |ts|
    ensures r == [] <==> forall t :: t in ts ==> t.reflection == ""
    ensures forall p :: p in r ==> exists t :: t in ts && t.reflection != "" && p == (t.id, t.reflection)
  {
    if ts == [] then []
    else Reflections(ts[..|ts| - 1]) + (if ts[|ts| - 1].reflection != "" then [(ts[|ts| - 1].id, ts[|ts| - 1].reflection)] else [])
  }

  // ---------------------------------------------------------------------------
  // Working the queue
  // ---------------------------------------------------------------------------

  /** What the task loop of a beat has done so far. */
  datatype BeatLog = BeatLog(
    engine: EngineState,
    processed: seq<Task>,
    notifications: seq<string>,
    fixes: seq<Task>,
    reflections: seq<(string, string)>,
    aborted: bool)

  /** The follow-up of one processed task: its notification, its fix task, its reflection. */
  function Handled(log: BeatLog, fid: nat -> string, t: Task, now: int): BeatLog
  {
    var notes := log.notifications + (if Announced(t) then [Notification(t)] else []);
    var refls := log.reflections + (if t.reflection != "" then [(t.id, t.reflection)] else []);
    if NeedsFix(t) then
      var (s', fix) := AddTaskSpec(log.engine, fid, FixTitle(t.title), FixDescription(t), Some(t.id), SelfHealing, now);
      log.(engine := s', notifications := notes, fixes := log.fixes + [fix], reflections := refls)
    else
      log.(notifications := notes, reflections := refls)
  }

  /**
   * The follow-up of one round of the task loop, given what `process_next`
   * left in the engine and returned: a `None` only updates the engine, an
   * exception marks the beat aborted, a task is handled.
   */
  function Step(log: BeatLog, s': EngineState, out: ProcessOutcome, fid: nat -> string, now: int): (r: BeatLog)
    ensures r.processed == (if out.Returned? then log.processed + [out.task] else log.processed)
  {
    match out
    case NoTask => log.(engine := s')
    case Raised => log.(engine := s', aborted := true)
    case Returned(t) => Handled(log.(engine := s', processed := log.processed + [t]), fid, t, now)
  }

  /**
   * The task loop of a beat: while tasks are pending and fewer than three
   * were processed, process the next one. The loop ends early when the
   * engine returns `None` or raises. `oracles(k)` answers for the `k`-th
   * task of the beat.
   */
  function Drain(log: BeatLog, fid: nat -> string, skills: Option<Skills.SkillCache>,
                 oracles: nat -> Oracles, now: int): BeatLog
    requires |log.processed| <= TasksPerBeat
    requires skills.Some? ==> Skills.WellFormed(skills.value)
    decreases TasksPerBeat - |log.processed|
  {
    if log.aborted || log.engine.queue == [] || |log.processed| == TasksPerBeat then log
    else
      var (s', out) := ProcessSpec(log.engine, fid, skills, oracles(|log.processed|), now);
      var next := Step(log, s', out, fid, now);
      if out.Returned? then Drain(next, fid, skills, oracles, now) else next
  }

  /** The messages and reflections recorded are exactly those of the processed tasks. */
  ghost predicate Reported(log: BeatLog)
  {
    log.notifications == Notifications(log.processed) && log.reflections == Reflections(log.processed)
  }

  /** One self-healing task was filed for each processed task that needs a fix, in order. */
  ghost predicate Healed(log: BeatLog)
  {
    && |log.fixes| == |NeedingFix(log.processed)|
    && forall i :: 0 <= i < |log.fixes| ==> FixesTask(log.fixes[i], NeedingFix(log.processed)[i])
  }

  /** Every processed task that failed carries an error message. */
  ghost predicate FailuresExplained(ts: seq<Task>)
  {
    forall i :: 0 <= i < |ts| && ts[i].status == Failed ==> ts[i].error != ""
  }

  ghost predicate Accounted(log: BeatLog)
  {
    Reported(log) && Healed(log) && FailuresExplained(log.processed)
  }

  /** Handling a returned task files its fix task on a well-formed engine and keeps it well formed. */
  lemma HandledEngine(log: BeatLog, fid: nat -> string, t: Task, now: int)
    requires FreshIds(fid) && WellFormed(log.engine, fid)
    ensures var h := Handled(log, fid, t, now);
      && WellFormed(h.engine, fid)
      && h.processed == log.processed && h.aborted == log.aborted
  {
    if NeedsFix(t) {
      AddTaskKeepsWellFormed(log.engine, fid, FixTitle(t.title), FixDescription(t), Some(t.id), SelfHealing, now);
    }
  }

  /** Handling the task just processed records its follow-ups and nothing else. */
  lemma HandledAccounted(log: BeatLog, fid: nat -> string, t: Task, now: int)
    requires Accounted(log) && (t.status == Failed ==> t.error != "")
    ensures Accounted(Handled(log.(processed := log.processed + [t]), fid, t, now))
  {
    var p := log.processed + [t];
    assert p[..|p| - 1] == log.processed;
    HandledReported(log, fid, t, now);
    HandledHealed(log, fid, t, now);
    assert FailuresExplained(p) by {
      forall i | 0 <= i < |p| && p[i].status == Failed ensures p[i].error != "" {
        if i < |log.processed| {
          assert p[i] == log.processed[i];
        }
      }
    }
  }

  lemma HandledReported(log: BeatLog, fid: nat -> string, t: Task, now: int)
    requires Reported(log)
    ensures Reported(Handled(log.(processed := log.processed + [t]), fid, t, now))
  {
    NotificationsAppend(log.processed, t);
    ReflectionsAppend(log.processed, t);
  }

  /** One more task adds its message, if it is announced, after those of the tasks before it. */
  lemma NotificationsAppend(ts: seq<Task>, t: Task)
    ensures Notifications(ts + [t]) == Notifications(ts) + (if Announced(t) then [Notification(t)] else [])
  {
    assert (ts + [t])[..|ts|] == ts;
  }

  /** One more task adds its reflection, if it has one, after those of the tasks before it. */
  lemma ReflectionsAppend(ts: seq<Task>, t: Task)
    ensures Reflections(ts + [t]) == Reflections(ts) + (if t.reflection != "" then [(t.id, t.reflection)] else [])
  {
    assert (ts + [t])[..|ts|] == ts;
  }

  lemma HandledHealed(log: BeatLog, fid: nat -> string, t: Task, now: int)
    requires Healed(log)
    ensures Healed(Handled(log.(processed := log.processed + [t]), fid, t, now))
  {
    var p := log.processed + [t];
    var h := Handled(log.(processed := p), fid, t, now);
    NeedingFixAppend(log.processed, t);
    if NeedsFix(t) {
      FixFiled(log.engine, fid, t, now);
      assert h.fixes == log.fixes + [AddTaskSpec(log.engine, fid, FixTitle(t.title), FixDescription(t), Some(t.id), SelfHealing, now).1];
    } else {
      assert h.fixes == log.fixes;
    }
  }

  lemma NeedingFixAppend(ts: seq<Task>, t: Task)
    ensures NeedingFix(ts + [t]) == NeedingFix(ts) + (if NeedsFix(t) then [t] else [])
  {
    assert (ts + [t])[..|ts|] == ts;
  }

  /** The task `add_task` files for a failure is its self-healing task. */
  lemma FixFiled(s: EngineState, fid: nat -> string, t: Task, now: int)
    requires NeedsFix(t)
    ensures FixesTask(AddTaskSpec(s, fid, FixTitle(t.title), FixDescription(t), Some(t.id), SelfHealing, now).1, t)
  {
    assert |FixDescription(t)| > 0;
  }

  /** A task returned by the engine that failed carries an error message. */
  lemma ReturnedFailureHasError(s: EngineState, fid: nat -> string, skills: Option<Skills.SkillCache>, o: Oracles, now: int)
    requires FreshIds(fid) && WellFormed(s, fid)
    requires skills.Some? ==> Skills.WellFormed(skills.value)
    ensures var r := ProcessSpec(s, fid, skills, o, now).1;
      r.Returned? && r.task.status == Failed ==> r.task.error != ""
  {
    ProcessFacts(s, fid, skills, o, now);
  }

  /** The follow-up of a round keeps a well-formed engine well formed. */
  lemma StepWellFormed(log: BeatLog, s': EngineState, out: ProcessOutcome, fid: nat -> string, now: int)
    requires FreshIds(fid) && WellFormed(s', fid)
    ensures WellFormed(Step(log, s', out, fid, now).engine, fid)
  {
    if out.Returned? {
      HandledEngine(log.(engine := s', processed := log.processed + [out.task]), fid, out.task, now);
    }
  }

  /** The follow-up of a round keeps the log accounted, given that a failed task carries an error. */
  lemma StepAccounted(log: BeatLog, s': EngineState, out: ProcessOutcome, fid: nat -> string, now: int)
    requires Accounted(log)
    requires out.Returned? && out.task.status == Failed ==> out.task.error != ""
    ensures Accounted(Step(log, s', out, fid, now))
  {
    if out.Returned? {
      HandledAccounted(log.(engine := s'), fid, out.task, now);
    }
  }

  /**
   * The task loop on a well-formed engine keeps it well formed and works on
   * at most three tasks. Every failed one carries an error, and exactly one
   * self-healing task was filed for each failed one, in the same order, with
   * the failed task as its parent.
   */
  lemma {:induction false} DrainFacts(log: BeatLog, fid: nat -> string, skills: Option<Skills.SkillCache>,
                                      oracles: nat -> Oracles, now: int)
    requires FreshIds(fid) && WellFormed(log.engine, fid)
    requires skills.Some? ==> Skills.WellFormed(skills.value)
    requires |log.processed| <= TasksPerBeat && Accounted(log)
    ensures var r := Drain(log, fid, skills, oracles, now);
      && WellFormed(r.engine, fid)
      && Accounted(r)
      && log.processed <= r.processed && |r.processed| <= TasksPerBeat
    decreases TasksPerBeat - |log.processed|
  {
    if !(log.aborted || log.engine.queue == [] || |log.processed| == TasksPerBeat) {
      var o := oracles(|log.processed|);
      var (s', out) := ProcessSpec(log.engine, fid, skills, o, now);
      ProcessKeepsWellFormed(log.engine, fid, skills, o, now);
      ReturnedFailureHasError(log.engine, fid, skills, o, now);
      StepWellFormed(log, s', out, fid, now);
      StepAccounted(log, s', out, fid, now);
      if out.Returned? {
        DrainFacts(Step(log, s', out, fid, now), fid, skills, oracles, now);
      }
    }
  }

  // ---------------------------------------------------------------------------
  // _persist_state
  // ---------------------------------------------------------------------------

  /** How much of a result or an error the snapshot keeps. */
  const PersistedText: nat := 500

  /** The snapshot record of one task. */
  datatype PersistedTask = PersistedTask(title: string, status: string, result: string, error: string, source: string)

  /** The crash-recovery snapshot written every five beats. */
  datatype Snapshot = Snapshot(
    beatCount: int,
    startTime: int,
    uptimeSeconds: int,
    evolutionCount: nat,
    improvementIndex: nat,
    tasks: map<string, PersistedTask>)

  function Persisted(t: Task): PersistedTask
  {
    PersistedTask(t.title, StatusValue(t.status), Take(t.result, PersistedText), Take(t.error, PersistedText), t.source)
  }

  /**
   * The snapshot lists every task and only those; each keeps its title,
   * status value and source, and its result and error are cut to their first
   * 500 characters, a short one being kept whole.
   */
  function SnapshotOf(beat: int, startTime: int, now: int, evolutions: nat, index: nat,
                      tasks: map<string, Task>): (p: Snapshot)
    ensures p.beatCount == beat && p.improvementIndex == index && p.evolutionCount == evolutions
    ensures p.uptimeSeconds == now - startTime
    ensures p.tasks.Keys == tasks.Keys
    ensures forall id :: id in tasks ==>
      var (t, q) := (tasks[id], p.tasks[id]);
      && q.title == t.title && q.status == StatusValue(t.status) && q.source == t.source
      && |q.result| <= PersistedText && q.result <= t.result
      && (|t.result| <= PersistedText ==> q.result == t.result)
      && |q.error| <= PersistedText && q.error <= t.error
      && (|t.error| <= PersistedText ==> q.error == t.error)
  {
    Snapshot(beat, startTime, now - startTime, evolutions, index, map id | id in tasks :: Persisted(tasks[id]))
  }

  // ---------------------------------------------------------------------------
  // get_status
  // ---------------------------------------------------------------------------

  /**
   * Whole hours and the remaining whole minutes of an uptime in seconds,
   * both rounded down: together they are within the minute below the uptime.
   */
  function UptimeParts(uptime: int): (r: (int, int))
    ensures r.0 * 3600 + r.1 * 60 <= uptime < r.0 * 3600 + r.1 * 60 + 60
    ensures 0 <= r.1 < 60
    ensures uptime >= 0 ==> r.0 >= 0
  {
    (uptime / 3600, (uptime % 3600) / 60)
  }

  const Banner: string := "\U{1f423} Cradle Agent v0.5.0"
  const Divider: string := "\U{2501}\U{2501}\U{2501}\U{2501}\U{2501}\U{2501}\U{2501}\U{2501}\U{2501}\U{2501}\U{2501}\U{2501}\U{2501}\U{2501}\U{2501}\U{2501}\U{2501}"
  const UptimeLabel: string := "\U{23f1}\U{fe0f} Uptime: "
  const HeartbeatsLabel: string := "\U{1f493} Heartbeats: "
  const PendingLabel: string := "\U{1f4cb} Pending tasks: "
  const TotalLabel: string := "\U{1f4ca} Total tasks: "
  const EvolutionsLabel: string := "\U{1f9ec} Evolutions: "
  const CycleLabel: string := "\U{1f504} Improvement cycle: "

  /** A label followed by a number. */
  function CountLine(caption: string, n: int): string
  {
    caption + IntToString(n)
  }

  function UptimeLine(uptime: int): string
  {
    var (hours, minutes) := UptimeParts(uptime);
    UptimeLabel + IntToString(hours) + "h " + IntToString(minutes) + "m"
  }

  function CycleLine(index: nat): string
  {
    CycleLabel + IntToString(index) + "/" + IntToString(ImprovementCount)
  }

  /** The lines of the status text. */
  function StatusTextLines(uptime: int, beats: int, pending: nat, total: nat, evolutions: nat, index: nat): (lines: seq<string>)
    ensures |lines| == 8
    ensures lines[3] == HeartbeatsLabel + IntToString(beats) && lines[4] == PendingLabel + IntToString(pending)
  {
    [ Banner, Divider, UptimeLine(uptime),
      CountLine(HeartbeatsLabel, beats), CountLine(PendingLabel, pending), CountLine(TotalLabel, total),
      CountLine(EvolutionsLabel, evolutions), CycleLine(index) ]
  }

  /** The status text: its lines, one per line break. */
  function StatusText(uptime: int, beats: int, pending: nat, total: nat, evolutions: nat, index: nat): (r: string)
    ensures Split(r, "\n") == StatusTextLines(uptime, beats, pending, total, evolutions, index)
  {
    var lines := StatusTextLines(uptime, beats, pending, total, evolutions, index);
    StatusLinesSingle(uptime, beats, pending, total, evolutions, index);
    JoinSplit(lines, '\n');
    Join(lines, "\n")
  }

  /** A decimal rendering holds no line break. */
  lemma IntToStringSingleLine(n: int)
    ensures '\n' !in IntToString(n)
  {
    var d := NatToString(if n < 0 then -n else n);
    assert forall i :: 0 <= i < |d| ==> IsDigit(d[i]);
    if n < 0 {
      assert IntToString(n) == "-" + d;
    }
  }

  lemma CountLineSingle(caption: string, n: int)
    requires '\n' !in caption
    ensures '\n' !in CountLine(caption, n)
  {
    IntToStringSingleLine(n);
  }

  lemma UptimeLineSingle(uptime: int)
    ensures '\n' !in UptimeLine(uptime)
  {
    var (hours, minutes) := UptimeParts(uptime);
    IntToStringSingleLine(hours);
    IntToStringSingleLine(minutes);
    assert '\n' !in UptimeLabel;
  }

  lemma CycleLineSingle(index: nat)
    ensures '\n' !in CycleLine(index)
  {
    IntToStringSingleLine(index);
    IntToStringSingleLine(ImprovementCount);
    assert '\n' !in CycleLabel;
  }

  /** The fixed parts of the status text hold no line break. */
  lemma CaptionsSingle()
    ensures '\n' !in Banner && '\n' !in Divider
    ensures '\n' !in HeartbeatsLabel && '\n' !in PendingLabel && '\n' !in TotalLabel && '\n' !in EvolutionsLabel
  {
  }

  /** No line of the status text holds a line break. */
  lemma StatusLinesSingle(uptime: int, beats: int, pending: nat, total: nat, evolutions: nat, index: nat)
    ensures var lines := StatusTextLines(uptime, beats, pending, total, evolutions, index);
      forall i :: 0 <= i < |lines| ==> '\n' !in lines[i]
  {
    var lines := StatusTextLines(uptime, beats, pending, total, evolutions, index);
    CaptionsSingle();
    UptimeLineSingle(uptime);
    CountLineSingle(HeartbeatsLabel, beats);
    CountLineSingle(PendingLabel, pending);
    CountLineSingle(TotalLabel, total);
    CountLineSingle(EvolutionsLabel, evolutions);
    CycleLineSingle(index);
    forall i | 0 <= i < 8 ensures '\n' !in lines[i] {
      assert i == 0 || i == 1 || i == 2 || i == 3 || i == 4 || i == 5 || i == 6 || i == 7;
    }
  }

  /**
   * The status text splits into its eight lines, and the beat count and the
   * pending count read back from theirs.
   */
  lemma StatusTextReadsBack(uptime: int, beats: int, pending: nat, total: nat, evolutions: nat, index: nat)
    ensures var lines := Split(StatusText(uptime, beats, pending, total, evolutions, index), "\n");
      && |lines| == 8
      && ParseInt(lines[3][|HeartbeatsLabel|..]) == Some(beats)
      && ParseInt(lines[4][|PendingLabel|..]) == Some(pending)
  {
    var lines := StatusTextLines(uptime, beats, pending, total, evolutions, index);
    assert lines[3][|HeartbeatsLabel|..] == IntToString(beats);
    assert lines[4][|PendingLabel|..] == IntToString(pending);
    ParseIntToString(beats);
    ParseIntToString(pending);
  }

  // ---------------------------------------------------------------------------
  // _beat
  // ---------------------------------------------------------------------------

  /** The heartbeat's state as a value, with the skill cache of the shared loader, if any. */
  datatype BeatState = BeatState(engine: EngineState, beatCount: int, improvementIndex: nat,
                                 skills: Option<Skills.SkillCache>)

  /**
   * What a beat did beyond its state change: the tasks processed, the
   * Telegram messages, the self-healing tasks filed, the reflections for the
   * memory store, whether an exception aborted the beat, the improvement
   * task seeded, whether self-evolution was requested, the snapshot written
   * and the number of skills fetched.
   */
  datatype BeatReport = BeatReport(
    processed: seq<Task>,
    notifications: seq<string>,
    fixes: seq<Task>,
    reflections: seq<(string, string)>,
    aborted: bool,
    improvement: Option<Task>,
    evolve: bool,
    snapshot: Option<Snapshot>,
    fetched: Option<int>)

  /**
   * A skill fetch: the merged cache and the count returned, the number of
   * skills added, or 0 when an element of the listing was not an object.
   */
  function Fetch(c: Skills.SkillCache, listing: Skills.Listing): (Skills.SkillCache, int)
  {
    var valid := if listing.Ok? then LeadingValues(listing.value) else [];
    var c' := if listing.Ok? then Skills.MergedUpTo(c, valid, |valid|) else c;
    (c', if listing.Ok? && |valid| == |listing.value| then |c'.order| - |c.order| else 0)
  }

  /**
   * One beat: count it, work the queue, then (unless the engine raised)
   * seed an improvement task, request self-evolution, persist a snapshot
   * and fetch skills, each on its schedule. `startTime` is when the
   * heartbeat was created, `evolutions` the evolver's count when the
   * snapshot is taken and `listing` the remote skill listing.
   */
  function BeatSpec(h: BeatState, fid: nat -> string, oracles: nat -> Oracles, now: int, startTime: int,
                    evolutions: nat, listing: Skills.Listing): (BeatState, BeatReport)
    requires h.skills.Some? ==> Skills.WellFormed(h.skills.value)
  {
    AfterLoop(h, BeatLoop(h, fid, oracles, now), Pick(h.improvementIndex), fid, now, startTime, evolutions, listing)
  }

  /**
   * What a beat does once its task loop has left `log`; `h` is the state the
   * beat started from and `template` the improvement task it would seed.
   */
  function AfterLoop(h: BeatState, log: BeatLog, template: Template, fid: nat -> string, now: int, startTime: int,
                     evolutions: nat, listing: Skills.Listing): (BeatState, BeatReport)
  {
    var beat := h.beatCount + 1;
    if log.aborted then
      (h.(engine := log.engine, beatCount := beat),
       BeatReport(log.processed, log.notifications, log.fixes, log.reflections, true, None, false, None, None))
    else
      var due := ImprovementDue(beat, |log.engine.queue|);
      var added := AddTaskSpec(log.engine, fid, template.title, template.description, None, SelfImprovement, now);
      var engine := if due then added.0 else log.engine;
      var index := if due then h.improvementIndex + 1 else h.improvementIndex;
      var snapshot := if PersistDue(beat) then Some(SnapshotOf(beat, startTime, now, evolutions, index, engine.tasks)) else None;
      var fetching := FetchDue(beat) && h.skills.Some?;
      var skills := if fetching then Some(Fetch(h.skills.value, listing).0) else h.skills;
      (BeatState(engine, beat, index, skills),
       BeatReport(log.processed, log.notifications, log.fixes, log.reflections, false,
                  if due then Some(added.1) else None, EvolutionDue(beat), snapshot,
                  if fetching then Some(Fetch(h.skills.value, listing).1) else None))
  }

  /** The task loop as a beat starts it. */
  function BeatLoop(h: BeatState, fid: nat -> string, oracles: nat -> Oracles, now: int): BeatLog
    requires h.skills.Some? ==> Skills.WellFormed(h.skills.value)
  {
    Drain(BeatLog(h.engine, [], [], [], [], false), fid, h.skills, oracles, now)
  }

  /**
   * A beat keeps the engine and the skill cache well formed, and the counter
   * rises by exactly one, aborted or not.
   */
  lemma BeatKeepsWellFormed(h: BeatState, fid: nat -> string, oracles: nat -> Oracles, now: int, startTime: int,
                            evolutions: nat, listing: Skills.Listing)
    requires FreshIds(fid) && WellFormed(h.engine, fid)
    requires h.skills.Some? ==> Skills.WellFormed(h.skills.value)
    ensures var h' := BeatSpec(h, fid, oracles, now, startTime, evolutions, listing).0;
      && h'.beatCount == h.beatCount + 1
      && WellFormed(h'.engine, fid)
      && (h'.skills.Some? <==> h.skills.Some?)
      && (h'.skills.Some? ==> Skills.WellFormed(h'.skills.value))
  {
    var log0 := BeatLog(h.engine, [], [], [], [], false);
    var log := Drain(log0, fid, h.skills, oracles, now);
    DrainFacts(log0, fid, h.skills, oracles, now);
    if !log.aborted {
      var template := Pick(h.improvementIndex);
      AddTaskKeepsWellFormed(log.engine, fid, template.title, template.description, None, SelfImprovement, now);
      if FetchDue(h.beatCount + 1) && h.skills.Some? && listing.Ok? {
        Skills.MergedFacts(h.skills.value, LeadingValues(listing.value), |LeadingValues(listing.value)|);
      }
    }
  }

  /**
   * The task work of a beat on a well-formed engine: at most three tasks
   * are processed, completed and failed ones are announced, reflections are
   * handed on, and each failed task carries an error and gets exactly one
   * self-healing task, in order.
   */
  lemma BeatWork(h: BeatState, fid: nat -> string, oracles: nat -> Oracles, now: int, startTime: int,
                 evolutions: nat, listing: Skills.Listing)
    requires FreshIds(fid) && WellFormed(h.engine, fid)
    requires h.skills.Some? ==> Skills.WellFormed(h.skills.value)
    ensures var r := BeatSpec(h, fid, oracles, now, startTime, evolutions, listing).1;
      && |r.processed| <= TasksPerBeat
      && r.notifications == Notifications(r.processed)
      && r.reflections == Reflections(r.processed)
      && FailuresExplained(r.processed)
      && |r.fixes| == |NeedingFix(r.processed)|
      && (forall i :: 0 <= i < |r.fixes| ==> FixesTask(r.fixes[i], NeedingFix(r.processed)[i]))
  {
    var log0 := BeatLog(h.engine, [], [], [], [], false);
    DrainFacts(log0, fid, h.skills, oracles, now);
    AfterLoopKeepsLog(h, BeatLoop(h, fid, oracles, now), Pick(h.improvementIndex), fid, now, startTime, evolutions, listing);
  }

  /** The report of a beat carries the task loop's record unchanged. */
  lemma AfterLoopKeepsLog(h: BeatState, log: BeatLog, template: Template, fid: nat -> string, now: int, startTime: int,
                          evolutions: nat, listing: Skills.Listing)
    ensures var r := AfterLoop(h, log, template, fid, now, startTime, evolutions, listing).1;
      && r.processed == log.processed && r.notifications == log.notifications
      && r.fixes == log.fixes && r.reflections == log.reflections
  {
  }

  /**
   * The schedule of a beat that was not aborted: an improvement task is
   * seeded exactly when the beat is due and nothing is pending after the task
   * loop; it comes from the template the index selects, and the index then
   * rises by one. Evolution, persistence and the skill fetch happen exactly
   * on their beats; the snapshot covers every task and the new index. An
   * aborted beat does none of these.
   */
  lemma BeatSchedule(h: BeatState, fid: nat -> string, oracles: nat -> Oracles, now: int, startTime: int,
                     evolutions: nat, listing: Skills.Listing)
    requires h.skills.Some? ==> Skills.WellFormed(h.skills.value)
    ensures var (h', r) := BeatSpec(h, fid, oracles, now, startTime, evolutions, listing);
      var beat := h.beatCount + 1;
      var log := BeatLoop(h, fid, oracles, now);
      && r.aborted == log.aborted
      && (r.improvement.Some? <==> !r.aborted && ImprovementDue(beat, |log.engine.queue|))
      && (r.improvement.Some? ==>
            && r.improvement.value.title == Pick(h.improvementIndex).title
            && r.improvement.value.description
                 == (if Pick(h.improvementIndex).description != "" then Pick(h.improvementIndex).description else Pick(h.improvementIndex).title)
            && r.improvement.value.source == SelfImprovement
            && r.improvement.value.parentId == None
            && r.improvement.value.status == Pending
            && r.improvement.value in h'.engine.tasks.Values)
      && h'.improvementIndex == h.improvementIndex + (if r.improvement.Some? then 1 else 0)
      && (r.evolve <==> !r.aborted && EvolutionDue(beat))
      && (r.snapshot.Some? <==> !r.aborted && PersistDue(beat))
      && (r.snapshot.Some? ==> r.snapshot.value.tasks.Keys == h'.engine.tasks.Keys
                               && r.snapshot.value.beatCount == beat
                               && r.snapshot.value.improvementIndex == h'.improvementIndex)
      && (r.fetched.Some? <==> !r.aborted && FetchDue(beat) && h.skills.Some?)
  {
    AfterLoopSchedule(h, BeatLoop(h, fid, oracles, now), Pick(h.improvementIndex), fid, now, startTime, evolutions, listing);
  }

  /** The schedule of a beat, whatever its task loop left. */
  lemma AfterLoopSchedule(h: BeatState, log: BeatLog, template: Template, fid: nat -> string, now: int, startTime: int,
                          evolutions: nat, listing: Skills.Listing)
    ensures var (h', r) := AfterLoop(h, log, template, fid, now, startTime, evolutions, listing);
      var beat := h.beatCount + 1;
      && r.aborted == log.aborted
      && (r.improvement.Some? <==> !r.aborted && ImprovementDue(beat, |log.engine.queue|))
      && (r.improvement.Some? ==>
            && r.improvement.value.title == template.title
            && r.improvement.value.description
                 == (if template.description != "" then template.description else template.title)
            && r.improvement.value.source == SelfImprovement
            && r.improvement.value.parentId == None
            && r.improvement.value.status == Pending
            && r.improvement.value in h'.engine.tasks.Values)
      && h'.improvementIndex == h.improvementIndex + (if r.improvement.Some? then 1 else 0)
      && (r.evolve <==> !r.aborted && EvolutionDue(beat))
      && (r.snapshot.Some? <==> !r.aborted && PersistDue(beat))
      && (r.snapshot.Some? ==> r.snapshot.value.tasks.Keys == h'.engine.tasks.Keys
                               && r.snapshot.value.beatCount == beat
                               && r.snapshot.value.improvementIndex == h'.improvementIndex)
      && (r.fetched.Some? <==> !r.aborted && FetchDue(beat) && h.skills.Some?)
  {
    AfterLoopImprovement(h, log, template, fid, now, startTime, evolutions, listing);
    AfterLoopPeriodic(h, log, template, fid, now, startTime, evolutions, listing);
  }

  /** The improvement task of a beat: seeded when due, from the selected template, advancing the index. */
  lemma AfterLoopImprovement(h: BeatState, log: BeatLog, template: Template, fid: nat -> string, now: int, startTime: int,
                             evolutions: nat, listing: Skills.Listing)
    ensures var (h', r) := AfterLoop(h, log, template, fid, now, startTime, evolutions, listing);
      var beat := h.beatCount + 1;
      && r.aborted == log.aborted
      && (r.improvement.Some? <==> !r.aborted && ImprovementDue(beat, |log.engine.queue|))
      && (r.improvement.Some? ==>
            && r.improvement.value.title == template.title
            && r.improvement.value.description
                 == (if template.description != "" then template.description else template.title)
            && r.improvement.value.source == SelfImprovement
            && r.improvement.value.parentId == None
            && r.improvement.value.status == Pending
            && r.improvement.value in h'.engine.tasks.Values)
      && h'.improvementIndex == h.improvementIndex + (if r.improvement.Some? then 1 else 0)
  {
    if !log.aborted {
      var added := AddTaskSpec(log.engine, fid, template.title, template.description, None, SelfImprovement, now);
      assert added.1 == added.0.tasks[fid(log.engine.issued)];
    }
  }

  /** Evolution, the snapshot and the skill fetch of a beat happen exactly on their beats. */
  lemma AfterLoopPeriodic(h: BeatState, log: BeatLog, template: Template, fid: nat -> string, now: int, startTime: int,
                          evolutions: nat, listing: Skills.Listing)
    ensures var (h', r) := AfterLoop(h, log, template, fid, now, startTime, evolutions, listing);
      var beat := h.beatCount + 1;
      && (r.evolve <==> !log.aborted && EvolutionDue(beat))
      && (r.snapshot.Some? <==> !log.aborted && PersistDue(beat))
      && (r.snapshot.Some? ==> r.snapshot.value.tasks.Keys == h'.engine.tasks.Keys
                               && r.snapshot.value.beatCount == beat
                               && r.snapshot.value.improvementIndex == h'.improvementIndex)
      && (r.fetched.Some? <==> !log.aborted && FetchDue(beat) && h.skills.Some?)
  {
  }

  // ---------------------------------------------------------------------------
  // The daemon
  // ---------------------------------------------------------------------------

  class Heartbeat {
    /** The task engine the heartbeat drives. */
    const engine: TaskEngine
    /** The engine's skill loader, shared with the heartbeat's fetch. */
    const skills: Option<Skills.SkillLoader>
    /** Seconds between beats. */
    const interval: int
    const startTime: int
    var beatCount: int
    var improvementIndex: nat

    ghost function SkillsRepr(): set<object>
    {
      if skills.Some? then {skills.value} else {}
    }

    function SkillsState(): Option<Skills.SkillCache>
      reads SkillsRepr()
    {
      if skills.Some? then Some(skills.value.State()) else None
    }

    function State(): BeatState
      reads this, engine, SkillsRepr()
    {
      BeatState(engine.State(), beatCount, improvementIndex, SkillsState())
    }

    ghost predicate Valid()
      reads this, engine, SkillsRepr()
    {
      engine.Valid() && (skills.Some? ==> skills.value.Valid())
    }

    constructor (config: CradleConfig.Config, engine: TaskEngine, skills: Option<Skills.SkillLoader>, now: int)
      ensures this.engine == engine && this.skills == skills
      ensures interval == config.heartbeatInterval && startTime == now
      ensures beatCount == 0 && improvementIndex == 0
    {
      this.engine := engine;
      this.skills := skills;
      interval := config.heartbeatInterval;
      startTime := now;
      beatCount := 0;
      improvementIndex := 0;
    }

    /** `_beat`. */
    method Beat(oracles: nat -> Oracles, now: int, evolutions: nat, listing: Skills.Listing)
      returns (report: BeatReport)
      requires Valid()
      modifies this, engine, SkillsRepr()
      ensures Valid()
      ensures (State(), report) == BeatSpec(old(State()), engine.freshId, oracles, now, startTime, evolutions, listing)
    {
      ghost var h := State();
      beatCount := beatCount + 1;
      var log := WorkQueue(oracles, now);
      assert log == BeatLoop(h, engine.freshId, oracles, now);
      // the improvement task the index selects, should this beat seed one
      var template := Pick(improvementIndex);
      report := Conclude(h, log, template, now, evolutions, listing);
    }

    /**
     * The part of `_beat` after the task loop, which left `log`; `h` is the
     * state the beat started from and `template` the improvement task to seed.
     */
    method Conclude(ghost h: BeatState, log: BeatLog, template: Template, now: int, evolutions: nat,
                    listing: Skills.Listing) returns (report: BeatReport)
      requires Valid() && log.engine == engine.State()
      requires beatCount == h.beatCount + 1 && improvementIndex == h.improvementIndex && SkillsState() == h.skills
      modifies this, engine, SkillsRepr()
      ensures Valid()
      ensures (State(), report) == AfterLoop(h, log, template, engine.freshId, now, startTime, evolutions, listing)
    {
      if log.aborted {
        report := BeatReport(log.processed, log.notifications, log.fixes, log.reflections, true, None, false, None, None);
      } else {
        report := RunSchedule(h, log, template, now, evolutions, listing);
      }
    }

    /** The scheduled work of a beat the engine did not abort: improvement, snapshot and skill fetch. */
    method RunSchedule(ghost h: BeatState, log: BeatLog, template: Template, now: int, evolutions: nat,
                    listing: Skills.Listing) returns (report: BeatReport)
      requires Valid() && log.engine == engine.State() && !log.aborted
      requires beatCount == h.beatCount + 1 && improvementIndex == h.improvementIndex && SkillsState() == h.skills
      modifies this, engine, SkillsRepr()
      ensures Valid()
      ensures (State(), report) == AfterLoop(h, log, template, engine.freshId, now, startTime, evolutions, listing)
    {
      ghost var expected := AfterLoop(h, log, template, engine.freshId, now, startTime, evolutions, listing);
      var improvement := SeedImprovement(template, now);
      assert engine.State() == expected.0.engine && improvementIndex == expected.0.improvementIndex;
      assert improvement == expected.1.improvement;
      var snapshot := None;
      if PersistDue(beatCount) {
        snapshot := Some(SnapshotOf(beatCount, startTime, now, evolutions, improvementIndex, engine.tasks));
      }
      assert snapshot == expected.1.snapshot;
      var fetched := FetchSkills(listing);
      assert SkillsState() == expected.0.skills && fetched == expected.1.fetched;
      report := BeatReport(log.processed, log.notifications, log.fixes, log.reflections, false,
                           improvement, EvolutionDue(beatCount), snapshot, fetched);
    }

    /** Seeds the improvement task `template` when the beat is due and nothing is pending. */
    method SeedImprovement(template: Template, now: int) returns (improvement: Option<Task>)
      requires Valid()
      modifies this, engine
      ensures Valid() && beatCount == old(beatCount) && SkillsState() == old(SkillsState())
      ensures var added := AddTaskSpec(old(engine.State()), engine.freshId, template.title, template.description, None, SelfImprovement, now);
        if ImprovementDue(beatCount, |old(engine.queue)|) then
          engine.State() == added.0 && improvement == Some(added.1) && improvementIndex == old(improvementIndex) + 1
        else
          engine.State() == old(engine.State()) && improvement == None && improvementIndex == old(improvementIndex)
    {
      improvement := None;
      if ImprovementDue(beatCount, engine.PendingCount()) {
        improvementIndex := improvementIndex + 1;
        var task := engine.AddTask(template.title, template.description, None, SelfImprovement, now);
        improvement := Some(task);
      }
    }

    /** Fetches skills from the store on a fetch beat, when the engine has a skill loader. */
    method FetchSkills(listing: Skills.Listing) returns (fetched: Option<int>)
      requires Valid()
      modifies SkillsRepr()
      ensures Valid()
      ensures if FetchDue(beatCount) && skills.Some? then
          && SkillsState() == Some(Fetch(old(SkillsState()).value, listing).0)
          && fetched == Some(Fetch(old(SkillsState()).value, listing).1)
        else
          SkillsState() == old(SkillsState()) && fetched == None
    {
      fetched := None;
      if FetchDue(beatCount) && skills.Some? {
        var count := skills.value.FetchFromAgentPlaybooks(listing);
        fetched := Some(count);
      }
    }

    /**
     * The task loop of `_beat`: up to three rounds of `process_next`, each
     * followed by the notification, the self-healing task and the reflection
     * of the task returned. The log's engine is the engine's new state.
     */
    method WorkQueue(oracles: nat -> Oracles, now: int) returns (log: BeatLog)
      requires Valid()
      modifies engine
      ensures Valid() && log.engine == engine.State()
      ensures log == Drain(BeatLog(old(engine.State()), [], [], [], [], false), engine.freshId, SkillsState(), oracles, now)
    {
      var cache := SkillsState();
      log := BeatLog(engine.State(), [], [], [], [], false);
      ghost var start := log;
      while !log.aborted && engine.PendingCount() > 0 && |log.processed| < TasksPerBeat
        invariant Valid() && log.engine == engine.State() && SkillsState() == cache
        invariant |log.processed| <= TasksPerBeat
        invariant Drain(log, engine.freshId, cache, oracles, now) == Drain(start, engine.freshId, cache, oracles, now)
        decreases TasksPerBeat - |log.processed|, if log.aborted then 0 else 1
      {
        var out := engine.ProcessNext(cache, oracles(|log.processed|), now);
        match out {
          case NoTask =>
            log := log.(engine := engine.State());
            break;
          case Raised =>
            log := log.(engine := engine.State(), aborted := true);
          case Returned(t) =>
            log := FollowUp(log, t, now);
        }
      }
    }

    /** The follow-up of a returned task: notify, file the fix task on a failure, hand on the reflection. */
    method FollowUp(log: BeatLog, t: Task, now: int) returns (log': BeatLog)
      requires engine.Valid()
      modifies engine
      ensures engine.Valid() && log'.engine == engine.State()
      ensures log' == Handled(log.(engine := old(engine.State()), processed := log.processed + [t]), engine.freshId, t, now)
    {
      var notes := log.notifications + (if Announced(t) then [Notification(t)] else []);
      var refls := log.reflections + (if t.reflection != "" then [(t.id, t.reflection)] else []);
      var fixes := log.fixes;
      if NeedsFix(t) {
        var fix := engine.AddTask(FixTitle(t.title), FixDescription(t), Some(t.id), SelfHealing, now);
        fixes := fixes + [fix];
      }
      log' := BeatLog(engine.State(), log.processed + [t], notes, fixes, refls, log.aborted);
    }

    /** `get_status`: the status text at time `now`, given the evolver's count. */
    function GetStatus(now: int, evolutions: nat): (r: string)
      reads this, engine
      ensures Split(r, "\n") == StatusTextLines(now - startTime, beatCount, |engine.queue|, |engine.tasks|, evolutions, improvementIndex)
    {
      StatusText(now - startTime, beatCount, |engine.queue|, |engine.tasks|, evolutions, improvementIndex)
    }
  }
}

=== FILE: router.dfy ===
/**
 * The LLM router (cradle/llm_router.py): one completion request walks the
 * configured providers in a try order, skips the ones demoted after repeated
 * failures, and returns the first reply. The HTTP call to a provider is the
 * oracle `call`, asked with the provider's position in the try order; the
 * monotonic clock at the start of the request is the input `now`, and a
 * failure carries the clock reading at which it was observed.
 */
module Router {
  import opened Wrappers
  import opened Sorting
  import opened CradleConfig

  const MaxConsecutiveFailures: int := 3
  const DemotionCooldownSecs: int := 300

  /** The normalised reply; latency and cost (floats) are not modelled. */
  datatype LLMResponse = LLMResponse(content: string, provider: string, model: string, inputTokens: int, outputTokens: int)

  /** What one provider call did. */
  datatype CallOutcome =
    | Replied(content: string, inputTokens: int, outputTokens: int)
    | Failed(at: int)

  /** The integer counters of `UsageStats`; the float cost total is not modelled. */
  datatype UsageStats = UsageStats(
    totalCalls: int,
    totalInputTokens: int,
    totalOutputTokens: int,
    callsByProvider: map<string, int>,
    errorsByProvider: map<string, int>)

  const NoUsage: UsageStats := UsageStats(0, 0, 0, map[], map[])

  /** Everything `complete` updates. */
  datatype RouterState = RouterState(stats: UsageStats, failures: map<string, int>, demotedUntil: map<string, int>)

  /** Python's `d.get(k, 0)`. */
  function Get(m: map<string, int>, k: string): int
  {
    if k in m then m[k] else 0
  }

  /** `d[k] = d.get(k, 0) + 1`. */
  function Bump(m: map<string, int>, k: string): (r: map<string, int>)
    ensures Get(r, k) == Get(m, k) + 1
    ensures forall n :: n != k ==> Get(r, n) == Get(m, n)
    ensures r.Keys == m.Keys + {k}
  {
    m[k := Get(m, k) + 1]
  }

  /** The sort key used when a provider is preferred: 0 for it, its priority for the others. */
  function PreferenceKey(preferred: string): LLMProvider -> int
  {
    (p: LLMProvider) => if p.name == preferred then 0 else p.priority
  }

  /** The order `complete` tries the providers in. */
  function TryOrder(providers: seq<LLMProvider>, preferred: Option<string>): seq<LLMProvider>
  {
    if preferred.Some? && preferred.value != "" then SortBy(providers, PreferenceKey(preferred.value)) else providers
  }

  /**
   * With a preference and priorities of at least 1, the preferred provider
   * comes first and the others follow by ascending priority; without one the
   * configured order is kept. Either way every provider is tried once.
   */
  lemma TryOrderFacts(providers: seq<LLMProvider>, preferred: Option<string>)
    ensures multiset(TryOrder(providers, preferred)) == multiset(providers)
    ensures preferred.None? || preferred.value == "" ==> TryOrder(providers, preferred) == providers
    ensures preferred.Some? && preferred.value != "" && (forall p :: p in providers ==> p.priority >= 1) ==>
      var order, pref := TryOrder(providers, preferred), preferred.value;
      && (forall i, j :: 0 <= i < j < |order| && order[j].name == pref ==> order[i].name == pref)
      && (forall i, j :: 0 <= i < j < |order| && order[i].name != pref && order[j].name != pref ==>
            order[i].priority <= order[j].priority)
  {
    if preferred.Some? && preferred.value != "" {
      var pref := preferred.value;
      var key := PreferenceKey(pref);
      SortBySortedPermutation(providers, key);
      var order := SortBy(providers, key);
      if forall p :: p in providers ==> p.priority >= 1 {
        forall i, j | 0 <= i < j < |order| && order[j].name == pref ensures order[i].name == pref {
          assert key(order[i]) <= key(order[j]);
          assert order[i] in multiset(order);
        }
      }
    }
  }

  /** A reply: the success counters rise and the provider's failure streak ends. */
  function Succeed(s: RouterState, name: string, inputTokens: int, outputTokens: int): (r: RouterState)
    ensures r.stats.totalCalls == s.stats.totalCalls + 1
    ensures r.stats.totalInputTokens == s.stats.totalInputTokens + inputTokens
    ensures r.stats.totalOutputTokens == s.stats.totalOutputTokens + outputTokens
    ensures Get(r.stats.callsByProvider, name) == Get(s.stats.callsByProvider, name) + 1
    ensures forall n :: n != name ==> Get(r.stats.callsByProvider, n) == Get(s.stats.callsByProvider, n)
    ensures r.stats.errorsByProvider == s.stats.errorsByProvider
    ensures Get(r.failures, name) == 0 && forall n :: n != name ==> Get(r.failures, n) == Get(s.failures, n)
    ensures r.demotedUntil == s.demotedUntil
  {
    var st := s.stats;
    RouterState(
      UsageStats(st.totalCalls + 1, st.totalInputTokens + inputTokens, st.totalOutputTokens + outputTokens,
                 Bump(st.callsByProvider, name), st.errorsByProvider),
      s.failures[name := 0],
      s.demotedUntil)
  }

  /**
   * A failure at clock `at`: the error count and the failure streak rise by
   * one, and a streak of 3 or more demotes the provider until `at` + 300.
   */
  function Fail(s: RouterState, name: string, at: int): (r: RouterState)
    ensures Get(r.stats.errorsByProvider, name) == Get(s.stats.errorsByProvider, name) + 1
    ensures forall n :: n != name ==> Get(r.stats.errorsByProvider, n) == Get(s.stats.errorsByProvider, n)
    ensures Get(r.failures, name) == Get(s.failures, name) + 1
    ensures forall n :: n != name ==> Get(r.failures, n) == Get(s.failures, n)
    ensures Get(r.failures, name) >= MaxConsecutiveFailures ==> Get(r.demotedUntil, name) == at + DemotionCooldownSecs
    ensures Get(r.failures, name) < MaxConsecutiveFailures ==> r.demotedUntil == s.demotedUntil
    ensures forall n :: n != name ==> Get(r.demotedUntil, n) == Get(s.demotedUntil, n)
    ensures r.stats.totalCalls == s.stats.totalCalls && r.stats.callsByProvider == s.stats.callsByProvider
    ensures r.stats.totalInputTokens == s.stats.totalInputTokens && r.stats.totalOutputTokens == s.stats.totalOutputTokens
  {
    var st := s.stats;
    var failures := Bump(s.failures, name);
    RouterState(
      UsageStats(st.totalCalls, st.totalInputTokens, st.totalOutputTokens, st.callsByProvider, Bump(st.errorsByProvider, name)),
      failures,
      if failures[name] >= MaxConsecutiveFailures then s.demotedUntil[name := at + DemotionCooldownSecs] else s.demotedUntil)
  }

  /** The provider is demoted at clock `now`. */
  predicate Demoted(s: RouterState, name: string, now: int)
  {
    Get(s.demotedUntil, name) > now
  }

  /**
   * The `for provider in providers` loop from position `i` on: the final
   * state and the reply, or None when every remaining provider was skipped
   * or failed (where `complete` raises).
   */
  function Route(order: seq<LLMProvider>, i: nat, now: int, call: nat -> CallOutcome, s: RouterState)
    : (RouterState, Option<LLMResponse>)
    requires i <= |order|
    decreases |order| - i
  {
    if i == |order| then (s, None)
    else
      var p := order[i];
      if Demoted(s, p.name, now) then Route(order, i + 1, now, call, s)
      else
        match call(i)
        case Replied(content, inTok, outTok) =>
          (Succeed(s, p.name, inTok, outTok), Some(LLMResponse(content, p.name, p.model, inTok, outTok)))
        case Failed(at) => Route(order, i + 1, now, call, Fail(s, p.name, at))
  }

  /** The positions from `i` on that `complete` actually calls, in order. */
  function Attempted(order: seq<LLMProvider>, i: nat, now: int, call: nat -> CallOutcome, s: RouterState): seq<nat>
    requires i <= |order|
    decreases |order| - i
  {
    if i == |order| then []
    else
      var p := order[i];
      if Demoted(s, p.name, now) then Attempted(order, i + 1, now, call, s)
      else
        match call(i)
        case Replied(_, _, _) => [i]
        case Failed(at) => [i] + Attempted(order, i + 1, now, call, Fail(s, p.name, at))
  }

  /** Failures are observed no earlier than the start of the request. */
  ghost predicate FailuresAfter(call: nat -> CallOutcome, now: int)
  {
    forall k :: call(k).Failed? ==> call(k).at >= now
  }

  /** A failure observed after the start never lifts a demotion in force at the start. */
  lemma FailKeepsDemotions(s: RouterState, name: string, at: int, now: int)
    requires at >= now
    ensures forall n :: Demoted(s, n, now) ==> Demoted(Fail(s, name, at), n, now)
  {
  }

  /** A provider demoted when the request starts is never called. */
  lemma {:induction false} RouteSkipsDemoted(order: seq<LLMProvider>, i: nat, now: int, call: nat -> CallOutcome, s: RouterState)
    requires i <= |order| && FailuresAfter(call, now)
    ensures forall t :: t in Attempted(order, i, now, call, s) ==> i <= t < |order| && !Demoted(s, order[t].name, now)
    decreases |order| - i
  {
    if i < |order| {
      var p := order[i];
      if Demoted(s, p.name, now) {
        RouteSkipsDemoted(order, i + 1, now, call, s);
        assert Attempted(order, i, now, call, s) == Attempted(order, i + 1, now, call, s);
      } else if call(i).Failed? {
        var s' := Fail(s, p.name, call(i).at);
        RouteSkipsDemoted(order, i + 1, now, call, s');
        FailKeepsDemotions(s, p.name, call(i).at, now);
        assert Attempted(order, i, now, call, s) == [i] + Attempted(order, i + 1, now, call, s');
      } else {
        assert Attempted(order, i, now, call, s) == [i];
      }
    }
  }

  /** Every call but the last failed, and the request succeeds exactly when the last call replied. */
  lemma {:induction false} RouteStopsAtFirstReply(order: seq<LLMProvider>, i: nat, now: int, call: nat -> CallOutcome, s: RouterState)
    requires i <= |order|
    ensures var tried := Attempted(order, i, now, call, s);
      && (forall k :: 0 <= k < |tried| - 1 ==> call(tried[k]).Failed?)
      && (Route(order, i, now, call, s).1.Some? <==> tried != [] && call(tried[|tried| - 1]).Replied?)
    decreases |order| - i
  {
    if i < |order| {
      var p := order[i];
      if Demoted(s, p.name, now) {
        RouteStopsAtFirstReply(order, i + 1, now, call, s);
      } else if call(i).Failed? {
        var s' := Fail(s, p.name, call(i).at);
        RouteStopsAtFirstReply(order, i + 1, now, call, s');
        var rest := Attempted(order, i + 1, now, call, s');
        assert Attempted(order, i, now, call, s) == [i] + rest;
      }
    }
  }

  /** When no provider replies, no success counter moves. */
  lemma {:induction false} RouteFailureKeepsSuccessStats(order: seq<LLMProvider>, i: nat, now: int, call: nat -> CallOutcome, s: RouterState)
    requires i <= |order|
    ensures var (r, reply) := Route(order, i, now, call, s);
      reply.None? ==>
        && r.stats.totalCalls == s.stats.totalCalls
        && r.stats.totalInputTokens == s.stats.totalInputTokens
        && r.stats.totalOutputTokens == s.stats.totalOutputTokens
        && r.stats.callsByProvider == s.stats.callsByProvider
    decreases |order| - i
  {
    if i < |order| {
      var p := order[i];
      if Demoted(s, p.name, now) {
        RouteFailureKeepsSuccessStats(order, i + 1, now, call, s);
      } else if call(i).Failed? {
        RouteFailureKeepsSuccessStats(order, i + 1, now, call, Fail(s, p.name, call(i).at));
      }
    }
  }

  /**
   * A reply counts exactly one call and exactly its tokens, and ends the
   * failure streak of the provider that gave it.
   */
  lemma {:induction false} RouteSuccessCounts(order: seq<LLMProvider>, i: nat, now: int, call: nat -> CallOutcome, s: RouterState)
    requires i <= |order|
    ensures var (r, reply) := Route(order, i, now, call, s);
      reply.Some? ==>
        && r.stats.totalCalls == s.stats.totalCalls + 1
        && r.stats.totalInputTokens == s.stats.totalInputTokens + reply.value.inputTokens
        && r.stats.totalOutputTokens == s.stats.totalOutputTokens + reply.value.outputTokens
        && Get(r.stats.callsByProvider, reply.value.provider) == Get(s.stats.callsByProvider, reply.value.provider) + 1
        && Get(r.failures, reply.value.provider) == 0
    decreases |order| - i
  {
    if i < |order| {
      var p := order[i];
      if Demoted(s, p.name, now) {
        RouteSuccessCounts(order, i + 1, now, call, s);
      } else if call(i).Failed? {
        RouteSuccessCounts(order, i + 1, now, call, Fail(s, p.name, call(i).at));
      }
    }
  }

  class LLMRouter {
    const providers: seq<LLMProvider>
    var stats: UsageStats
    var failures: map<string, int>
    var demotedUntil: map<string, int>

    function State(): RouterState
      reads this
    {
      RouterState(stats, failures, demotedUntil)
    }

    constructor (cfg: Config)
      ensures providers == cfg.llmProviders && State() == RouterState(NoUsage, map[], map[])
    {
      providers := cfg.llmProviders;
      stats := NoUsage;
      failures := map[];
      demotedUntil := map[];
    }

    /**
     * `complete`: tries the providers in `TryOrder`, skipping demoted ones,
     * and returns the first reply; None stands for the RuntimeError raised
     * when every provider was skipped or failed.
     */
    method Complete(preferred: Option<string>, now: int, call: nat -> CallOutcome) returns (reply: Option<LLMResponse>)
      modifies this
      ensures (State(), reply) == Route(TryOrder(providers, preferred), 0, now, call, old(State()))
    {
      var order := providers;
      if preferred.Some? && preferred.value != "" {
        order := SortBy(order, PreferenceKey(preferred.value));
      }
      var i := 0;
      while i < |order|
        invariant 0 <= i <= |order|
        invariant Route(order, i, now, call, State()) == Route(order, 0, now, call, old(State()))
        decreases |order| - i
      {
        var p := order[i];
        if Get(demotedUntil, p.name) > now {
          i := i + 1;
          continue;
        }
        ghost var before := State();
        var outcome := call(i);
        match outcome {
          case Replied(content, inTok, outTok) =>
            stats := UsageStats(stats.totalCalls + 1, stats.totalInputTokens + inTok, stats.totalOutputTokens + outTok,
                                stats.callsByProvider[p.name := Get(stats.callsByProvider, p.name) + 1],
                                stats.errorsByProvider);
            failures := failures[p.name := 0];
            assert State() == Succeed(before, p.name, inTok, outTok);
            return Some(LLMResponse(content, p.name, p.model, inTok, outTok));
          case Failed(at) =>
            stats := stats.(errorsByProvider := stats.errorsByProvider[p.name := Get(stats.errorsByProvider, p.name) + 1]);
            failures := failures[p.name := Get(failures, p.name) + 1];
            if failures[p.name] >= MaxConsecutiveFailures {
              demotedUntil := demotedUntil[p.name := at + DemotionCooldownSecs];
            }
            assert State() == Fail(before, p.name, at);
        }
        i := i + 1;
      }
      return None;
    }
  }
}

=== FILE: sandbox.dfy ===
/**
 * The Docker sandbox (cradle/sandbox.py): every piece of generated code runs
 * in a throw-away container. The model covers what the host decides: the
 * setup script for Python runs, the `docker run` argument vector, and how the
 * subprocess outcome becomes a `SandboxResult`. Writing the files, starting
 * the process and waiting for it are one oracle, `run`, that maps the files
 * and the argument vector to an `Outcome`.
 */
module Sandbox {
  import opened Wrappers
  import opened Text

  const SandboxImage: string := "python:3.12-slim"
  const ShellImage: string := "ubuntu:22.04"
  const DefaultTimeout: int := 60
  /** The cap on each captured stream, in characters. */
  const MaxOutputBytes: nat := 50000
  const TruncationMarker: string := "\n... [TRUNCATED]"

  /** The outcome of one sandboxed run; the wall-clock duration is not modelled. */
  datatype SandboxResult = SandboxResult(
    success: bool,
    stdout: string,
    stderr: string,
    exitCode: int,
    containerId: string,
    truncated: bool)

  /** How the `docker run` subprocess ended, as seen from the host. */
  datatype Outcome =
    | Finished(stdoutText: string, stderrText: string, returncode: Option<int>)
    | TimedOut
    | DockerMissing
    | Crashed(message: string)

  /** Files written into the mounted work directory, by name. */
  type Files = map<string, string>

  // ---------------------------------------------------------------------------
  // The setup script of `run_python`
  // ---------------------------------------------------------------------------

  const ScriptHeader: string := "#!/bin/bash\nset -e\n"
  const PipCommand: string := "pip install --quiet "
  const RunScriptLine: string := "python /workspace/script.py\n"

  /** The lines of the setup script: the header, a pip line when packages are given, the run line. */
  function ScriptLines(packages: seq<string>): seq<string>
  {
    ["#!/bin/bash", "set -e"]
    + (if packages != [] then [PipCommand + Join(packages, " ")] else [])
    + ["python /workspace/script.py", ""]
  }

  /** The script `run_python` writes as `run.sh`. */
  function SetupScript(packages: seq<string>): (script: string)
    ensures |ScriptHeader| <= |script| && script[..|ScriptHeader|] == ScriptHeader
    ensures EndsWith(script, RunScriptLine)
  {
    var pip := if packages != [] then PipCommand + Join(packages, " ") + "\n" else "";
    OuterParts(ScriptHeader, pip, RunScriptLine);
    ScriptHeader + pip + RunScriptLine
  }

  /** The first and last parts of a three-part concatenation. */
  lemma OuterParts(a: string, b: string, c: string)
    ensures (a + b + c)[..|a|] == a && EndsWith(a + b + c, c)
  {
    assert (a + b + c)[|a + b|..] == c;
  }

  /** The setup script is its lines joined by newlines. */
  lemma SetupScriptJoin(packages: seq<string>)
    ensures SetupScript(packages) == Join(ScriptLines(packages), "\n")
  {
    var mid := if packages != [] then [PipCommand + Join(packages, " ")] else [];
    var pip := if packages != [] then PipCommand + Join(packages, " ") + "\n" else "";
    JoinLines("#!/bin/bash", "set -e", mid, "python /workspace/script.py", "\n");
    assert ScriptHeader == "#!/bin/bash" + "\n" + ("set -e" + "\n");
    assert RunScriptLine == "python /workspace/script.py" + "\n";
    Regroup("#!/bin/bash" + "\n", "set -e" + "\n", pip, RunScriptLine);
  }

  /** Four strings concatenated, grouped from the right. */
  lemma Regroup(a: string, b: string, c: string, d: string)
    ensures a + b + c + d == a + (b + (c + d))
  {
  }

  /** Two lines, at most one middle line, a last line and the empty line after it, joined by `sep`. */
  lemma JoinLines(a: string, b: string, mid: seq<string>, c: string, sep: string)
    requires |mid| <= 1
    ensures Join([a, b] + mid + [c, ""], sep)
         == a + sep + (b + sep + ((if mid == [] then "" else mid[0] + sep) + (c + sep)))
  {
    var tail := mid + [c, ""];
    JoinCons(c, [""], sep);
    if mid != [] {
      assert tail == [mid[0]] + [c, ""];
      JoinCons(mid[0], [c, ""], sep);
    } else {
      assert tail == [c, ""];
      assert "" + (c + sep) == c + sep;
    }
    assert [a, b] + mid + [c, ""] == [a] + ([b] + tail);
    JoinCons(b, tail, sep);
    JoinCons(a, [b] + tail, sep);
  }

  /** Joining a first part onto a non-empty rest puts the separator between them. */
  lemma JoinCons(x: string, rest: seq<string>, sep: string)
    requires rest != []
    ensures Join([x] + rest, sep) == x + sep + Join(rest, sep)
  {
    assert ([x] + rest)[1..] == rest;
  }

  /**
   * Split at newlines, the setup script gives back its lines, so it holds a
   * pip line exactly when packages are given, provided no package name
   * contains a newline.
   */
  lemma SetupScriptLines(packages: seq<string>)
    requires forall i :: 0 <= i < |packages| ==> '\n' !in packages[i]
    ensures Split(SetupScript(packages), "\n") == ScriptLines(packages)
  {
    var lines := ScriptLines(packages);
    SetupScriptJoin(packages);
    if packages != [] {
      JoinAvoids(packages, " ", '\n');
      assert '\n' !in PipCommand + Join(packages, " ");
    }
    forall i | 0 <= i < |lines| ensures '\n' !in lines[i] {
    }
    JoinSplit(lines, '\n');
  }

  /** The pip line names exactly the requested packages, when no package name contains a space. */
  lemma PipLineNamesPackages(packages: seq<string>)
    requires packages != [] && forall i :: 0 <= i < |packages| ==> ' ' !in packages[i]
    ensures var pipLine := ScriptLines(packages)[2];
      pipLine[..|PipCommand|] == PipCommand && Split(pipLine[|PipCommand|..], " ") == packages
  {
    var pipLine := ScriptLines(packages)[2];
    assert pipLine == PipCommand + Join(packages, " ");
    assert pipLine[|PipCommand|..] == Join(packages, " ");
    JoinSplit(packages, ' ');
  }

  /** `run_python` building its setup script step by step. */
  method BuildSetupScript(packages: seq<string>) returns (script: string)
    ensures script == SetupScript(packages)
  {
    script := ScriptHeader;
    if packages != [] {
      script := script + PipCommand + Join(packages, " ") + "\n";
    }
    script := script + RunScriptLine;
  }

  // ---------------------------------------------------------------------------
  // The `docker run` argument vector
  // ---------------------------------------------------------------------------

  /** The isolation flags and the read-only mount every container gets. */
  function BaseArgs(tmpdir: string): seq<string>
  {
    ["docker", "run", "--rm", "--cap-drop=ALL", "--memory=256m", "--cpus=1", "--pids-limit=100",
     "-v", tmpdir + ":/workspace:ro", "-w", "/workspace"]
  }

  /**
   * The argument vector of `_run_in_container`: the fixed isolation flags,
   * "--network=none" unless network access was asked for, the image, then
   * the command.
   */
  function DockerCommand(tmpdir: string, image: string, command: seq<string>, network: bool): (argv: seq<string>)
    ensures |argv| == 12 + (if network then 0 else 1) + |command|
    ensures argv[..4] == ["docker", "run", "--rm", "--cap-drop=ALL"]
    ensures argv[7] == "-v" && argv[8] == tmpdir + ":/workspace:ro"
    ensures argv[|argv| - |command| - 1..] == [image] + command
    ensures !network ==> argv[11] == "--network=none"
    ensures "--network=none" in argv <==> !network || image == "--network=none" || "--network=none" in command
  {
    var base := BaseArgs(tmpdir);
    var argv := base + (if network then [] else ["--network=none"]) + [image] + command;
    assert argv[..4] == base[..4];
    assert argv[|argv| - |command| - 1..] == [image] + command;
    assert "--network=none" !in base by {
      var mount := tmpdir + ":/workspace:ro";
      assert mount[|mount| - 1] == 'o';
    }
    argv
  }

  /** `_run_in_container` assembling `docker_cmd` with appends. */
  method BuildDockerArgv(tmpdir: string, image: string, command: seq<string>, network: bool) returns (argv: seq<string>)
    ensures argv == DockerCommand(tmpdir, image, command, network)
  {
    argv := ["docker", "run", "--rm", "--cap-drop=ALL", "--memory=256m", "--cpus=1", "--pids-limit=100",
             "-v", tmpdir + ":/workspace:ro", "-w", "/workspace"];
    if !network {
      argv := argv + ["--network=none"];
    }
    argv := argv + [image];
    argv := argv + command;
  }

  // ---------------------------------------------------------------------------
  // From the subprocess outcome to a SandboxResult
  // ---------------------------------------------------------------------------

  /** One captured stream after the size cap. */
  function Capped(s: string): (r: string)
    ensures |r| <= MaxOutputBytes + |TruncationMarker|
    ensures |s| <= MaxOutputBytes ==> r == s
    ensures |s| > MaxOutputBytes ==> |r| == MaxOutputBytes + |TruncationMarker|
    ensures |s| > MaxOutputBytes ==> r[..MaxOutputBytes] == s[..MaxOutputBytes] && EndsWith(r, TruncationMarker)
  {
    if |s| > MaxOutputBytes then
      var r := s[..MaxOutputBytes] + TruncationMarker;
      assert r[|r| - |TruncationMarker|..] == TruncationMarker;
      r
    else s
  }

  /** The timeout result: exit code -1, nothing on stdout. */
  function TimeoutResult(timeout: int): (r: SandboxResult)
    ensures !r.success && r.exitCode == -1 && r.stdout == ""
  {
    SandboxResult(false, "", "TIMEOUT: Container killed after " + IntToString(timeout) + "s", -1, "", false)
  }

  /** The result when the docker CLI is missing: exit code -2. */
  function DockerMissingResult(): (r: SandboxResult)
    ensures !r.success && r.exitCode == -2 && r.stdout == ""
  {
    SandboxResult(false, "", "Docker CLI not found — is Docker installed?", -2, "", false)
  }

  /** The result for any other failure to run the container: exit code -3. */
  function CrashResult(message: string): (r: SandboxResult)
    ensures !r.success && r.exitCode == -3 && r.stdout == ""
    ensures r.stderr == "Sandbox error: " + message
  {
    SandboxResult(false, "", "Sandbox error: " + message, -3, "", false)
  }

  /** The `SandboxResult` `_run_in_container` reports for an outcome. */
  function ResultFor(outcome: Outcome, timeout: int): (r: SandboxResult)
    ensures r.success <==> r.exitCode == 0
    ensures r.success ==> outcome.Finished?
    ensures !outcome.Finished? ==> r.stdout == "" && !r.truncated
    ensures outcome.Finished? ==>
      && r.exitCode == outcome.returncode.GetOr(0)
      && r.stdout == Capped(outcome.stdoutText)
      && r.stderr == Capped(outcome.stderrText)
      && (r.truncated <==> |outcome.stdoutText| > MaxOutputBytes || |outcome.stderrText| > MaxOutputBytes)
    ensures r.containerId == ""
  {
    match outcome
    case TimedOut => TimeoutResult(timeout)
    case DockerMissing => DockerMissingResult()
    case Crashed(message) => CrashResult(message)
    case Finished(out, err, code) =>
      var exitCode := code.GetOr(0);
      SandboxResult(exitCode == 0, Capped(out), Capped(err), exitCode, "",
                    |out| > MaxOutputBytes || |err| > MaxOutputBytes)
  }

  /**
   * `_run_in_container`: builds the argument vector, runs it through the
   * `run` oracle with the files mounted, and post-processes the output.
   */
  method RunInContainer(image: string, files: Files, command: seq<string>, timeout: int, network: bool,
                        tmpdir: string, run: (Files, seq<string>) -> Outcome)
    returns (r: SandboxResult)
    ensures r == ResultFor(run(files, DockerCommand(tmpdir, image, command, network)), timeout)
  {
    var argv := BuildDockerArgv(tmpdir, image, command, network);
    var outcome := run(files, argv);
    match outcome {
      case TimedOut =>
        return TimeoutResult(timeout);
      case DockerMissing =>
        return DockerMissingResult();
      case Crashed(message) =>
        return CrashResult(message);
      case Finished(out, err, code) =>
        var stdout, stderr := out, err;
        var truncated := false;
        if |stdout| > MaxOutputBytes {
          stdout := stdout[..MaxOutputBytes] + TruncationMarker;
          truncated := true;
        }
        if |stderr| > MaxOutputBytes {
          stderr := stderr[..MaxOutputBytes] + TruncationMarker;
          truncated := true;
        }
        var exitCode := if code.Some? && code.value != 0 then code.value else 0;
        r := SandboxResult(exitCode == 0, stdout, stderr, exitCode, "", truncated);
    }
  }

  /** `run_python`: the code and its setup script run in the Python image. */
  method RunPython(code: string, timeout: int, packages: seq<string>, network: bool,
                   tmpdir: string, run: (Files, seq<string>) -> Outcome)
    returns (r: SandboxResult)
    ensures r == ResultFor(run(map["script.py" := code, "run.sh" := SetupScript(packages)],
                               DockerCommand(tmpdir, SandboxImage, ["bash", "/workspace/run.sh"], network)), timeout)
  {
    var setupScript := BuildSetupScript(packages);
    r := RunInContainer(SandboxImage, map["script.py" := code, "run.sh" := setupScript],
                        ["bash", "/workspace/run.sh"], timeout, network, tmpdir, run);
  }

  /** `run_shell`: a shell script run in the given image (Ubuntu by default). */
  method RunShell(script: string, image: string, timeout: int, network: bool,
                  tmpdir: string, run: (Files, seq<string>) -> Outcome)
    returns (r: SandboxResult)
    ensures r == ResultFor(run(map["script.sh" := script],
                               DockerCommand(tmpdir, image, ["bash", "/workspace/script.sh"], network)), timeout)
  {
    r := RunInContainer(image, map["script.sh" := script], ["bash", "/workspace/script.sh"], timeout, network, tmpdir, run);
  }
}

=== FILE: skills.dfy ===
/**
 * The skill cache (cradle/skills.py): a name-keyed dictionary of skills,
 * filled from the three built-in skills and merged with the skills listed by
 * the remote skill store, plus the read-only queries that render it into task
 * prompts. Python dictionaries keep insertion order, so the cache is an
 * `order` of names beside the `entries` map; re-assigning an existing name
 * keeps its place. The remote store is an oracle: `stored(i)` is what
 * `store_skill` answered for the i-th built-in, and a listing is either the
 * decoded skills or an error.
 */
module Skills {
  import opened Wrappers
  import opened Text

  /** A cached skill. */
  datatype Skill = Skill(description: string, content: string)

  /** A skill with its name, as defined built in or as listed by the store (missing fields read as ""). */
  datatype NamedSkill = NamedSkill(name: string, description: string, content: string)

  /**
   * The built-in skills. Their markdown bodies are reduced to the YAML
   * frontmatter that opens each of them.
   */
  const Builtins: seq<NamedSkill> := [
    NamedSkill("web_search",
      "Search the web for information. Use for research, current events, documentation lookups, and any question requiring up-to-date data.",
      "---\nname: web_search\ndescription: Search the web using Google Custom Search API or DuckDuckGo fallback.\n---\n"),
    NamedSkill("github_cli",
      "Read files from GitHub repos, clone repositories, commit and push code changes. Use for code downloads, uploads, and version control operations.",
      "---\nname: github_cli\ndescription: Interact with GitHub using git CLI and GitHub API. Clone, read, commit, push.\n---\n"),
    NamedSkill("spawn_agent",
      "Clone a GitHub repo and run it as an ephemeral Docker sub-agent (NanoClaw pattern). Use for running specialized agents, healing-agent, OpenCode instances, or any containerized AI tool.",
      "---\nname: spawn_agent\ndescription: Spawn a sub-agent from a GitHub repository using Docker. NanoClaw-style agent spawning.\n---\n")
  ]

  /** The cache as a value: names in insertion order and their entries. */
  datatype SkillCache = SkillCache(order: seq<string>, entries: map<string, Skill>)

  const EmptyCache: SkillCache := SkillCache([], map[])

  /** The order lists every cached name exactly once. */
  ghost predicate WellFormed(c: SkillCache)
  {
    && (forall i, j :: 0 <= i < j < |c.order| ==> c.order[i] != c.order[j])
    && (forall n :: n in c.entries <==> n in c.order)
  }

  /** `self._cache[name] = {...}`: a new name joins the end of the order, an existing one keeps its place. */
  function WithSkill(c: SkillCache, s: NamedSkill): (r: SkillCache)
    ensures r.entries == c.entries[s.name := Skill(s.description, s.content)]
    ensures |c.order| <= |r.order| && r.order[..|c.order|] == c.order
    ensures WellFormed(c) ==> WellFormed(r) && |r.order| == |c.order| + (if s.name in c.entries then 0 else 1)
  {
    var entries := c.entries[s.name := Skill(s.description, s.content)];
    if s.name in c.entries then SkillCache(c.order, entries)
    else
      var r := SkillCache(c.order + [s.name], entries);
      assert r.order[..|c.order|] == c.order;
      r
  }

  // ---------------------------------------------------------------------------
  // Filling the cache from the built-ins
  // ---------------------------------------------------------------------------

  /** The cache after offering the first `k` built-ins, keeping those `stored` accepts. */
  function SyncedUpTo(c: SkillCache, stored: nat -> bool, k: nat): SkillCache
    requires k <= |Builtins|
  {
    if k == 0 then c
    else
      var p := SyncedUpTo(c, stored, k - 1);
      if stored(k - 1) then WithSkill(p, Builtins[k - 1]) else p
  }

  /** How many of the first `k` built-ins `stored` accepts. */
  function StoredCount(stored: nat -> bool, k: nat): (n: nat)
    ensures n <= k
  {
    if k == 0 then 0 else StoredCount(stored, k - 1) + (if stored(k - 1) then 1 else 0)
  }

  /** Every built-in is accepted, as in `load_builtin_skills_local`. */
  function AlwaysStored(i: nat): bool
  {
    true
  }

  lemma BuiltinNamesDistinct()
    ensures forall i, j :: 0 <= i < j < |Builtins| ==> Builtins[i].name != Builtins[j].name
  {
  }

  /**
   * After offering the first `k` built-ins, the cache holds exactly the old
   * entries and the accepted built-ins; an accepted built-in maps to its own
   * description and content, and every other entry is unchanged.
   */
  lemma {:induction false} SyncedContents(c: SkillCache, stored: nat -> bool, k: nat)
    requires k <= |Builtins|
    ensures var r := SyncedUpTo(c, stored, k);
      && (forall n :: n in r.entries <==> n in c.entries || exists i :: 0 <= i < k && stored(i) && Builtins[i].name == n)
      && (forall i :: 0 <= i < k && stored(i) ==>
            r.entries[Builtins[i].name] == Skill(Builtins[i].description, Builtins[i].content))
      && (forall n :: n in c.entries && (forall i :: 0 <= i < k && stored(i) ==> Builtins[i].name != n) ==>
            r.entries[n] == c.entries[n])
  {
    if k > 0 {
      SyncedContents(c, stored, k - 1);
      BuiltinNamesDistinct();
    }
  }

  /**
   * Offering the built-ins to a cache that holds none of them adds exactly
   * the accepted ones, so the cache grows by the returned count.
   */
  lemma {:induction false} SyncedCount(c: SkillCache, stored: nat -> bool, k: nat)
    requires k <= |Builtins| && WellFormed(c)
    requires forall i :: 0 <= i < |Builtins| ==> Builtins[i].name !in c.entries
    ensures WellFormed(SyncedUpTo(c, stored, k))
    ensures |SyncedUpTo(c, stored, k).order| == |c.order| + StoredCount(stored, k)
  {
    if k > 0 {
      SyncedCount(c, stored, k - 1);
      SyncedContents(c, stored, k - 1);
      BuiltinNamesDistinct();
    }
  }

  /** Offering the built-ins keeps the cache well formed, whatever it held. */
  lemma {:induction false} SyncedWellFormed(c: SkillCache, stored: nat -> bool, k: nat)
    requires k <= |Builtins| && WellFormed(c)
    ensures WellFormed(SyncedUpTo(c, stored, k))
  {
    if k > 0 {
      SyncedWellFormed(c, stored, k - 1);
    }
  }

  // ---------------------------------------------------------------------------
  // Merging the remote listing
  // ---------------------------------------------------------------------------

  /**
   * The store's skill listing: `Err` when `list_skills` raised, and `None`
   * for an element that is not an object.
   */
  type Listing = Result<seq<Option<NamedSkill>>, string>

  /** The cache after merging the first `k` listed skills: only named, not yet cached ones are added. */
  function MergedUpTo(c: SkillCache, remote: seq<NamedSkill>, k: nat): SkillCache
    requires k <= |remote|
  {
    if k == 0 then c
    else
      var p := MergedUpTo(c, remote, k - 1);
      if remote[k - 1].name != "" && remote[k - 1].name !in p.entries then WithSkill(p, remote[k - 1]) else p
  }

  /**
   * Merging never changes an entry already cached, only adds the non-empty
   * names of the listing, and extends the order at its end.
   */
  lemma {:induction false} MergedFacts(c: SkillCache, remote: seq<NamedSkill>, k: nat)
    requires k <= |remote| && WellFormed(c)
    ensures var m := MergedUpTo(c, remote, k);
      && WellFormed(m)
      && (forall n :: n in c.entries ==> n in m.entries && m.entries[n] == c.entries[n])
      && (forall n :: n in m.entries <==> n in c.entries || (n != "" && exists i :: 0 <= i < k && remote[i].name == n))
      && |c.order| <= |m.order| && m.order[..|c.order|] == c.order
  {
    if k > 0 {
      MergedFacts(c, remote, k - 1);
      var p := MergedUpTo(c, remote, k - 1);
      assert p.order[..|c.order|] == c.order;
      var m := MergedUpTo(c, remote, k);
      assert m.order[..|p.order|] == p.order;
      assert m.order[..|c.order|] == p.order[..|c.order|];
    }
  }

  /** A listed skill whose name is new, and first of its name in the listing, is cached with its own fields. */
  lemma {:induction false} MergedMapsNewNames(c: SkillCache, remote: seq<NamedSkill>, k: nat, i: nat)
    requires k <= |remote| && WellFormed(c) && i < k
    requires remote[i].name != "" && remote[i].name !in c.entries
    requires forall j :: 0 <= j < i ==> remote[j].name != remote[i].name
    ensures remote[i].name in MergedUpTo(c, remote, k).entries
    ensures MergedUpTo(c, remote, k).entries[remote[i].name] == Skill(remote[i].description, remote[i].content)
  {
    MergedFacts(c, remote, k - 1);
    if i < k - 1 {
      MergedMapsNewNames(c, remote, k - 1, i);
    } else {
      var p := MergedUpTo(c, remote, k - 1);
      assert remote[i].name !in p.entries;
    }
  }

  // ---------------------------------------------------------------------------
  // The loader object
  // ---------------------------------------------------------------------------

  class SkillLoader {
    var order: seq<string>
    var entries: map<string, Skill>
    var loaded: bool

    function State(): SkillCache
      reads this
    {
      SkillCache(order, entries)
    }

    ghost predicate Valid()
      reads this
    {
      WellFormed(State())
    }

    constructor ()
      ensures Valid() && State() == EmptyCache && !loaded
    {
      order := [];
      entries := map[];
      loaded := false;
    }

    /** One `self._cache[name] = {...}` assignment. */
    method CacheSkill(s: NamedSkill)
      requires Valid()
      modifies this
      ensures Valid() && State() == WithSkill(old(State()), s) && loaded == old(loaded)
    {
      if s.name !in entries {
        order := order + [s.name];
      }
      entries := entries[s.name := Skill(s.description, s.content)];
    }

    /** `sync_builtin_skills`: caches each built-in the store accepted and counts them. */
    method SyncBuiltinSkills(stored: nat -> bool) returns (count: nat)
      requires Valid()
      modifies this
      ensures Valid() && loaded
      ensures State() == SyncedUpTo(old(State()), stored, |Builtins|)
      ensures count == StoredCount(stored, |Builtins|) && count <= 3
    {
      count := 0;
      for i := 0 to |Builtins|
        invariant Valid()
        invariant State() == SyncedUpTo(old(State()), stored, i)
        invariant count == StoredCount(stored, i)
      {
        var ok := stored(i);
        if ok {
          CacheSkill(Builtins[i]);
          count := count + 1;
        }
      }
      loaded := true;
    }

    /** `load_builtin_skills_local`: caches every built-in without the store. */
    method LoadBuiltinSkillsLocal()
      requires Valid()
      modifies this
      ensures Valid() && loaded
      ensures State() == SyncedUpTo(old(State()), AlwaysStored, |Builtins|)
    {
      for i := 0 to |Builtins|
        invariant Valid()
        invariant State() == SyncedUpTo(old(State()), AlwaysStored, i)
      {
        CacheSkill(Builtins[i]);
      }
      loaded := true;
    }

    /**
     * `fetch_from_agentplaybooks`: merges the remote listing and returns how
     * many skills it added. A failed listing returns 0 and changes nothing; an
     * element that is not an object raises once the ones before it are merged,
     * and the handler returns 0.
     */
    method FetchFromAgentPlaybooks(listing: Listing) returns (count: nat)
      requires Valid()
      modifies this
      ensures Valid() && loaded == old(loaded)
      ensures listing.Err? ==> State() == old(State()) && count == 0
      ensures listing.Ok? ==>
        State() == MergedUpTo(old(State()), LeadingValues(listing.value), |LeadingValues(listing.value)|)
      ensures count == if listing.Ok? && |LeadingValues(listing.value)| == |listing.value| then |order| - |old(order)| else 0
    {
      if listing.Err? {
        return 0;
      }
      var remote := listing.value;
      ghost var valid := LeadingValues(remote);
      count := 0;
      var i := 0;
      while i < |remote|
        invariant 0 <= i <= |valid|
        invariant Valid() && loaded == old(loaded)
        invariant State() == MergedUpTo(old(State()), valid, i)
        invariant count == |order| - |old(order)|
      {
        if remote[i].None? {
          assert i == |valid|;
          return 0;
        }
        var s := remote[i].value;
        assert i < |valid| && s == valid[i];
        if s.name != "" && s.name !in entries {
          CacheSkill(s);
          count := count + 1;
        }
        i := i + 1;
      }
    }
  }

  /** Loading the built-ins locally caches all three, each with its own description and content. */
  lemma LoadLocalCachesBuiltins(c: SkillCache)
    ensures forall i :: 0 <= i < |Builtins| ==>
      && Builtins[i].name in SyncedUpTo(c, AlwaysStored, |Builtins|).entries
      && SyncedUpTo(c, AlwaysStored, |Builtins|).entries[Builtins[i].name] == Skill(Builtins[i].description, Builtins[i].content)
  {
    SyncedContents(c, AlwaysStored, |Builtins|);
  }

  // ---------------------------------------------------------------------------
  // Queries
  // ---------------------------------------------------------------------------

  const SummaryHeader: string := "## Available Skills (use these in your code)"
  const SummaryDescriptionLimit: nat := 120

  /** One summary line: the name in bold and the description cut to 120 characters. */
  function SummaryLine(name: string, s: Skill): string
  {
    "- **" + name + "**: " + Take(s.description, SummaryDescriptionLimit)
  }

  /** The header, then one line per cached skill in cache order. */
  function SummaryLines(c: SkillCache): (lines: seq<string>)
    requires WellFormed(c)
    ensures |lines| == |c.order| + 1 && lines[0] == SummaryHeader
    ensures forall k :: 0 <= k < |c.order| ==> lines[k + 1] == SummaryLine(c.order[k], c.entries[c.order[k]])
  {
    [SummaryHeader] + seq(|c.order|, k requires 0 <= k < |c.order| && c.order[k] in c.entries =>
                            SummaryLine(c.order[k], c.entries[c.order[k]]))
  }

  /** `get_skills_summary`. */
  function SkillsSummary(c: SkillCache): (r: string)
    requires WellFormed(c)
    ensures r == "" <==> c.entries == map[]
    ensures c.entries != map[] ==> r == Join(SummaryLines(c), "\n")
  {
    if c.entries == map[] then ""
    else
      var lines := SummaryLines(c);
      assert c.order != [] by {
        var n :| n in c.entries;
      }
      assert Join(lines, "\n") == lines[0] + "\n" + Join(lines[1..], "\n");
      Join(lines, "\n")
  }

  /**
   * Read back line by line, the summary gives the header and one line per
   * skill, provided names and descriptions are single-line.
   */
  lemma SummaryReadsBack(c: SkillCache)
    requires WellFormed(c) && c.entries != map[]
    requires forall n :: n in c.entries ==> '\n' !in n && '\n' !in c.entries[n].description
    ensures Split(SkillsSummary(c), "\n") == SummaryLines(c)
  {
    var lines := SummaryLines(c);
    forall k | 0 <= k < |lines| ensures '\n' !in lines[k] {
      if k > 0 {
        var n := c.order[k - 1];
        SummaryLineSingle(n, c.entries[n]);
      } else {
        HeaderSingleLine();
      }
    }
    JoinSplit(lines, '\n');
    assert SkillsSummary(c) == Join(lines, "\n");
  }

  lemma HeaderSingleLine()
    ensures '\n' !in SummaryHeader
  {
  }

  lemma SummaryLineSingle(name: string, s: Skill)
    requires '\n' !in name && '\n' !in s.description
    ensures '\n' !in SummaryLine(name, s)
  {
    var shown := Take(s.description, SummaryDescriptionLimit);
    assert forall j :: 0 <= j < |shown| ==> shown[j] == s.description[j];
    assert '\n' !in shown;
  }

  /** `get_skill_content`: the cached content of a known skill, None for an unknown name. */
  function SkillContent(c: SkillCache, name: string): (r: Option<string>)
    ensures r.Some? <==> name in c.entries
    ensures r.Some? ==> r.value == c.entries[name].content
  {
    if name in c.entries then Some(c.entries[name].content) else None
  }

  const RelevantSeparator: string := "\n\n---\n\n"

  /** The skills `get_relevant_skills` knows, each with the words that select it, in table order. */
  const KeywordTable: seq<(string, seq<string>)> := [
    ("web_search", ["search", "web", "internet", "research", "find", "look up", "browse", "google", "url", "http"]),
    ("github_cli", ["github", "git", "repo", "clone", "commit", "push", "pull", "code", "file", "repository"]),
    ("spawn_agent", ["spawn", "sub-agent", "agent", "docker", "nanoclaw", "run", "execute", "healing"])
  ]

  /** Some keyword occurs in the text. */
  predicate Mentions(text: string, keywords: seq<string>)
  {
    exists i :: 0 <= i < |keywords| && Contains(text, keywords[i])
  }

  /** The lower-cased text the keywords are searched in. */
  function TaskText(title: string, description: string): string
  {
    Lower(title + " " + description)
  }

  /** The names from the first `k` table rows that are mentioned and cached, in table order. */
  function RelevantNames(c: SkillCache, text: string, k: nat): (names: seq<string>)
    requires k <= |KeywordTable|
    ensures forall i :: 0 <= i < |names| ==> names[i] in c.entries
  {
    if k == 0 then []
    else
      var row := KeywordTable[k - 1];
      RelevantNames(c, text, k - 1) + (if Mentions(text, row.1) && row.0 in c.entries then [row.0] else [])
  }

  /** The position of a name in the keyword table. */
  function TableIndex(name: string): int
  {
    if name == "web_search" then 0 else if name == "github_cli" then 1 else if name == "spawn_agent" then 2 else 3
  }

  /**
   * A skill is selected exactly when its table row has a keyword in the text
   * and the skill is cached; the selection follows table order.
   */
  lemma {:induction false} RelevantNamesSpec(c: SkillCache, text: string, k: nat)
    requires k <= |KeywordTable|
    ensures var names := RelevantNames(c, text, k);
      && (forall n :: n in names <==> exists j :: 0 <= j < k && KeywordTable[j].0 == n && n in c.entries && Mentions(text, KeywordTable[j].1))
      && (forall i :: 0 <= i < |names| ==> TableIndex(names[i]) < k)
      && (forall i, j :: 0 <= i < j < |names| ==> TableIndex(names[i]) < TableIndex(names[j]))
  {
    if k > 0 {
      RelevantNamesSpec(c, text, k - 1);
      TableIndexRow(k - 1);
      var prev := RelevantNames(c, text, k - 1);
      var row := KeywordTable[k - 1];
      var extra := if Mentions(text, row.1) && row.0 in c.entries then [row.0] else [];
      assert RelevantNames(c, text, k) == prev + extra;
    }
  }

  /** Each table row's name sits at its own position. */
  lemma TableIndexRow(j: nat)
    requires j < |KeywordTable|
    ensures TableIndex(KeywordTable[j].0) == j
  {
  }

  /** `get_relevant_skills`: the contents of the selected skills, separated by a rule. */
  function RelevantSkills(c: SkillCache, title: string, description: string): (r: string)
    ensures var names := RelevantNames(c, TaskText(title, description), |KeywordTable|);
      && (names == [] ==> r == "")
      && (names != [] ==> r == Join(seq(|names|, i requires 0 <= i < |names| => c.entries[names[i]].content), RelevantSeparator))
  {
    var names := RelevantNames(c, TaskText(title, description), |KeywordTable|);
    var relevant := seq(|names|, i requires 0 <= i < |names| => c.entries[names[i]].content);
    if relevant == [] then "" else Join(relevant, RelevantSeparator)
  }
}

=== FILE: sorting.dfy ===
/**
 * Python's `list.sort(key=...)` / `sorted(..., key=...)`: a stable sort by an
 * integer key. Stated as an insertion sort; its lemmas show the result is
 * ordered by key, is a permutation of the input, and keeps the input order
 * among elements with equal keys, which together pin down the result.
 */
module Sorting {

  /** The elements appear in non-decreasing key order. */
  ghost predicate SortedBy<T>(s: seq<T>, key: T -> int)
  {
    forall i, j :: 0 <= i < j < |s| ==> key(s[i]) <= key(s[j])
  }

  /** Inserts `x` after every element whose key is not larger. */
  function Insert<T>(s: seq<T>, x: T, key: T -> int): (r: seq<T>)
    ensures |r| == |s| + 1
  {
    if s == [] || key(s[|s| - 1]) <= key(x) then s + [x]
    else Insert(s[..|s| - 1], x, key) + [s[|s| - 1]]
  }

  /** A stable sort by `key`. */
  function SortBy<T>(s: seq<T>, key: T -> int): (r: seq<T>)
    ensures |r| == |s|
  {
    if s == [] then [] else Insert(SortBy(s[..|s| - 1], key), s[|s| - 1], key)
  }

  /** The elements with key `k`, in their order in `s`. */
  function WithKey<T>(s: seq<T>, key: T -> int, k: int): seq<T>
  {
    if s == [] then []
    else WithKey(s[..|s| - 1], key, k) + (if key(s[|s| - 1]) == k then [s[|s| - 1]] else [])
  }

  lemma {:induction false} InsertSorted<T>(s: seq<T>, x: T, key: T -> int)
    requires SortedBy(s, key)
    ensures SortedBy(Insert(s, x, key), key)
    ensures multiset(Insert(s, x, key)) == multiset(s) + multiset{x}
  {
    if s == [] || key(s[|s| - 1]) <= key(x) {
    } else {
      var init, last := s[..|s| - 1], s[|s| - 1];
      InsertSorted(init, x, key);
      var r := Insert(init, x, key);
      assert multiset(r) == multiset(init) + multiset{x};
      forall i | 0 <= i < |r| ensures key(r[i]) <= key(last) {
        assert r[i] in multiset(r);
        if r[i] != x {
          assert r[i] in multiset(init);
          var m :| 0 <= m < |init| && init[m] == r[i];
          assert s[m] == init[m];
        }
      }
      assert s == init + [last];
    }
  }

  /** The sort yields a key-ordered permutation of its input. */
  lemma {:induction false} SortBySortedPermutation<T>(s: seq<T>, key: T -> int)
    ensures SortedBy(SortBy(s, key), key)
    ensures multiset(SortBy(s, key)) == multiset(s)
  {
    if s != [] {
      var init := s[..|s| - 1];
      SortBySortedPermutation(init, key);
      InsertSorted(SortBy(init, key), s[|s| - 1], key);
      assert s == init + [s[|s| - 1]];
    }
  }

  lemma {:induction false} InsertStable<T>(s: seq<T>, x: T, key: T -> int, k: int)
    requires SortedBy(s, key)
    ensures WithKey(Insert(s, x, key), key, k) == WithKey(s, key, k) + (if key(x) == k then [x] else [])
  {
    if s == [] || key(s[|s| - 1]) <= key(x) {
      WithKeySnoc(s, x, key, k);
    } else {
      var init, last := s[..|s| - 1], s[|s| - 1];
      var xs := if key(x) == k then [x] else [];
      var ls := if key(last) == k then [last] else [];
      InsertStable(init, x, key, k);
      assert Insert(s, x, key) == Insert(init, x, key) + [last];
      WithKeySnoc(Insert(init, x, key), last, key, k);
      assert WithKey(s, key, k) == WithKey(init, key, k) + ls;
      // `last` sorts after `x`, so at most one of them has key `k`
      if xs != [] {
        assert ls == [];
      }
    }
  }

  /** Appending one element adds it to its key's list when it has key `k`. */
  lemma WithKeySnoc<T>(s: seq<T>, y: T, key: T -> int, k: int)
    ensures WithKey(s + [y], key, k) == WithKey(s, key, k) + (if key(y) == k then [y] else [])
  {
    assert (s + [y])[..|s|] == s;
  }

  /** Stability: elements with equal keys keep their relative order. */
  lemma {:induction false} SortByStable<T>(s: seq<T>, key: T -> int, k: int)
    ensures WithKey(SortBy(s, key), key, k) == WithKey(s, key, k)
  {
    if s != [] {
      var init := s[..|s| - 1];
      SortByStable(init, key, k);
      SortBySortedPermutation(init, key);
      InsertStable(SortBy(init, key), s[|s| - 1], key, k);
    }
  }

  /** Sorting a list that is already in key order leaves it unchanged. */
  lemma {:induction false} SortBySortedIsIdentity<T>(s: seq<T>, key: T -> int)
    requires SortedBy(s, key)
    ensures SortBy(s, key) == s
  {
    if s != [] {
      var init := s[..|s| - 1];
      SortBySortedIsIdentity(init, key);
      assert s == init + [s[|s| - 1]];
    }
  }
}

=== FILE: tasks.dfy ===
/**
 * The hierarchical task engine (cradle/task_engine.py). Tasks live in a
 * dictionary keyed by id; a FIFO queue holds the ids waiting to be worked
 * on; each dequeued task goes once through the ReAct cycle: think (ask the
 * LLM for a plan), then answer directly, decompose into sub-tasks, or run
 * code in the sandbox and reflect on the outcome.
 *
 * Tasks are values: the engine's `tasks` map holds the current value of each
 * task and every in-place change of the source is a map update. Python
 * dictionaries keep insertion order, which the status summary relies on to
 * break ties, so `order` lists the ids in insertion order. Random uuids
 * become `freshId(issued)` for an injective `freshId` and a counter
 * `issued`. The LLM, the JSON decoder and the container run are oracles
 * bundled in `Oracles`; the clock is the parameter `now`.
 */
module Tasks {
  import opened Wrappers
  import opened Text
  import opened Sorting
  import opened Sandbox
  import Skills

  datatype TaskStatus = Pending | Thinking | Acting | Executing | Reflecting | Completed | Failed | Blocked

  /** The string value of each status. */
  function StatusValue(st: TaskStatus): string
  {
    match st
    case Pending => "pending"
    case Thinking => "thinking"
    case Acting => "acting"
    case Executing => "executing"
    case Reflecting => "reflecting"
    case Completed => "completed"
    case Failed => "failed"
    case Blocked => "blocked"
  }

  const MaxAttempts: int := 3

  /** A unit of work in the task tree; times are whole seconds. */
  datatype Task = Task(
    id: string,
    title: string,
    description: string,
    status: TaskStatus,
    parentId: Option<string>,
    children: seq<string>,
    result: string,
    error: string,
    attempts: int,
    maxAttempts: int,
    createdAt: int,
    completedAt: Option<int>,
    reflection: string,
    source: string)

  /** The engine's state as a value: the tasks, their insertion order, the queue and the ids issued so far. */
  datatype EngineState = EngineState(tasks: map<string, Task>, order: seq<string>, queue: seq<string>, issued: nat)

  const NoTasks: EngineState := EngineState(map[], [], [], 0)

  ghost predicate Distinct(s: seq<string>)
  {
    forall i, j :: 0 <= i < j < |s| ==> s[i] != s[j]
  }

  /** The id source never repeats an id and never yields the empty id. */
  ghost predicate FreshIds(fid: nat -> string)
  {
    && (forall m: nat, n: nat :: m != n ==> fid(m) != fid(n))
    && (forall n: nat :: fid(n) != "")
  }

  /** Every task is stored under its own, non-empty id. */
  ghost predicate IdsMatch(s: EngineState)
  {
    forall id :: id in s.tasks ==> id != "" && s.tasks[id].id == id
  }

  /** No task has used more than its attempts, and a pending one has one left. */
  ghost predicate AttemptsBounded(s: EngineState)
  {
    && (forall id :: id in s.tasks ==> 0 <= s.tasks[id].attempts <= s.tasks[id].maxAttempts == MaxAttempts)
    && (forall id :: id in s.tasks && s.tasks[id].status == Pending ==> s.tasks[id].attempts < MaxAttempts)
  }

  /** The queue holds exactly the pending tasks, each once. */
  ghost predicate QueueIsPending(s: EngineState)
  {
    && (forall id :: id in s.tasks ==> (s.tasks[id].status == Pending <==> id in s.queue))
    && Distinct(s.queue)
  }

  /** The insertion order lists every task once. */
  ghost predicate OrderIsKeys(s: EngineState)
  {
    && Distinct(s.order)
    && (forall id :: id in s.tasks <==> id in s.order)
  }

  /** Ids not yet issued are neither stored nor queued. */
  ghost predicate FreshAbove(s: EngineState, fid: nat -> string)
  {
    forall n: nat :: s.issued <= n ==> fid(n) !in s.tasks && fid(n) !in s.queue
  }

  /** A child listed under a task is a task that names it as its parent. */
  ghost predicate ChildrenLinked(s: EngineState)
  {
    forall p, c :: p in s.tasks && c in s.tasks[p].children ==> c in s.tasks && s.tasks[c].parentId == Some(p)
  }

  /** The engine's invariant. */
  ghost predicate WellFormed(s: EngineState, fid: nat -> string)
  {
    IdsMatch(s) && AttemptsBounded(s) && QueueIsPending(s) && OrderIsKeys(s) && FreshAbove(s, fid) && ChildrenLinked(s)
  }

  // ---------------------------------------------------------------------------
  // add_task
  // ---------------------------------------------------------------------------

  /** A new task: pending, no attempts yet, and the title standing in for an empty description. */
  function NewTask(id: string, title: string, description: string, parent: Option<string>, source: string, now: int): Task
  {
    Task(id, title, if description != "" then description else title, Pending, parent, [],
         "", "", 0, MaxAttempts, now, None, "", source)
  }

  /**
   * `add_task`: stores a new task under the next fresh id, lists it under its
   * parent when the parent id is non-empty and known, and enqueues it. The
   * task returned is the stored one.
   */
  function AddTaskSpec(s: EngineState, fid: nat -> string, title: string, description: string,
                       parent: Option<string>, source: string, now: int): (r: (EngineState, Task))
    ensures var id := fid(s.issued);
      && r.0.tasks.Keys == s.tasks.Keys + {id}
      && r.1 == r.0.tasks[id]
      && r.1.id == id && r.1.title == title && r.1.source == source && r.1.parentId == parent
      && r.1.description == (if description != "" then description else title)
      && r.1.status == Pending && r.1.attempts == 0 && r.1.createdAt == now
      && r.0.queue == s.queue + [id] && r.0.issued == s.issued + 1
      && (forall k :: k in s.tasks && k != id && (parent.None? || k != parent.value) ==> r.0.tasks[k] == s.tasks[k])
  {
    var id := fid(s.issued);
    var tasks := s.tasks[id := NewTask(id, title, description, parent, source, now)];
    var tasks' := if parent.Some? && parent.value != "" && parent.value in tasks then
                    tasks[parent.value := tasks[parent.value].(children := tasks[parent.value].children + [id])]
                  else tasks;
    var order := if id in s.tasks then s.order else s.order + [id];
    (EngineState(tasks', order, s.queue + [id], s.issued + 1), tasks'[id])
  }

  /** Adding a task keeps the invariant, under an id no task had. */
  lemma AddTaskKeepsWellFormed(s: EngineState, fid: nat -> string, title: string, description: string,
                               parent: Option<string>, source: string, now: int)
    requires FreshIds(fid) && WellFormed(s, fid)
    ensures var (s', t) := AddTaskSpec(s, fid, title, description, parent, source, now);
      WellFormed(s', fid) && t.id !in s.tasks
  {
    var id := fid(s.issued);
    assert id !in s.tasks && id !in s.queue;
    AddTaskIds(s, fid, title, description, parent, source, now);
    AddTaskAttempts(s, fid, title, description, parent, source, now);
    AddTaskQueue(s, fid, title, description, parent, source, now);
    AddTaskOrder(s, fid, title, description, parent, source, now);
    AddTaskFresh(s, fid, title, description, parent, source, now);
    AddTaskChildren(s, fid, title, description, parent, source, now);
  }

  /**
   * A known parent gains the new id as its last child and no other task
   * changes; the new task has no children unless it names itself as parent.
   */
  lemma AddTaskLinks(s: EngineState, fid: nat -> string, title: string, description: string,
                     parent: Option<string>, source: string, now: int)
    requires IdsMatch(s) && fid(s.issued) !in s.tasks
    ensures var (s', t) := AddTaskSpec(s, fid, title, description, parent, source, now);
      && (parent != Some(t.id) ==> t.children == [])
      && (parent.Some? && parent.value in s.tasks ==>
            s'.tasks[parent.value] == s.tasks[parent.value].(children := s.tasks[parent.value].children + [t.id]))
      && (forall k :: k in s.tasks && (parent.None? || k != parent.value) ==> s'.tasks[k] == s.tasks[k])
  {
  }

  lemma AddTaskIds(s: EngineState, fid: nat -> string, title: string, description: string,
                   parent: Option<string>, source: string, now: int)
    requires FreshIds(fid) && IdsMatch(s)
    ensures IdsMatch(AddTaskSpec(s, fid, title, description, parent, source, now).0)
  {
  }

  lemma AddTaskAttempts(s: EngineState, fid: nat -> string, title: string, description: string,
                        parent: Option<string>, source: string, now: int)
    requires AttemptsBounded(s)
    ensures AttemptsBounded(AddTaskSpec(s, fid, title, description, parent, source, now).0)
  {
  }

  lemma AddTaskQueue(s: EngineState, fid: nat -> string, title: string, description: string,
                     parent: Option<string>, source: string, now: int)
    requires QueueIsPending(s) && fid(s.issued) !in s.tasks && fid(s.issued) !in s.queue
    ensures QueueIsPending(AddTaskSpec(s, fid, title, description, parent, source, now).0)
  {
  }

  lemma AddTaskOrder(s: EngineState, fid: nat -> string, title: string, description: string,
                     parent: Option<string>, source: string, now: int)
    requires OrderIsKeys(s)
    ensures OrderIsKeys(AddTaskSpec(s, fid, title, description, parent, source, now).0)
  {
  }

  lemma AddTaskFresh(s: EngineState, fid: nat -> string, title: string, description: string,
                     parent: Option<string>, source: string, now: int)
    requires FreshIds(fid) && FreshAbove(s, fid)
    ensures FreshAbove(AddTaskSpec(s, fid, title, description, parent, source, now).0, fid)
  {
    var s' := AddTaskSpec(s, fid, title, description, parent, source, now).0;
    forall n: nat | s'.issued <= n ensures fid(n) !in s'.tasks && fid(n) !in s'.queue {
      assert n != s.issued;
    }
  }

  lemma AddTaskChildren(s: EngineState, fid: nat -> string, title: string, description: string,
                        parent: Option<string>, source: string, now: int)
    requires ChildrenLinked(s) && fid(s.issued) !in s.tasks
    ensures ChildrenLinked(AddTaskSpec(s, fid, title, description, parent, source, now).0)
  {
    var s' := AddTaskSpec(s, fid, title, description, parent, source, now).0;
    var id := fid(s.issued);
    forall p, c | p in s'.tasks && c in s'.tasks[p].children
      ensures c in s'.tasks && s'.tasks[c].parentId == Some(p)
    {
      if c != id {
        assert p in s.tasks && c in s.tasks[p].children;
      }
    }
  }

  // ---------------------------------------------------------------------------
  // The ReAct cycle
  // ---------------------------------------------------------------------------

  /** A sub-task named by a decomposition plan (missing fields read as ""). */
  datatype Subtask = Subtask(title: string, description: string)

  /**
   * What `json.loads` makes of a reply: no JSON at all, a JSON value that is
   * not an object (so the `.get` calls on it raise), or an object read as `T`.
   */
  datatype Decoded<T> = NotJson | NotObject | Object(value: T)

  /**
   * The decoded plan of the think phase. `DirectAnswer` is a plan whose type
   * is "direct_answer", `Decompose` one whose type is "decompose", and
   * `CodePlan` any other; missing fields read as their defaults (answer and
   * code "", language "python", no packages, no network). An element of a
   * decomposition that is not an object is `None` (a `subtasks` value that
   * cannot be iterated reads as `[None]`).
   */
  datatype Plan =
    | DirectAnswer(answer: string)
    | Decompose(subtasks: seq<Option<Subtask>>)
    | CodePlan(code: string, language: string, packages: seq<string>, needsNetwork: bool)

  /** The decoded reflection (missing fields read as "", "Task completed" and false). */
  datatype Reflection = Reflection(reflection: string, summary: string, shouldRetry: bool)

  /**
   * What the engine cannot compute itself. `think` is the LLM's reply to the
   * think prompt given the skills summary for the system prompt (None when
   * every provider failed and the call raised); `reflect` is the reply to the
   * reflection request about a title, the code shown and the run's result
   * (None when the call raised); the decoders stand for `json.loads`; `run`
   * and `tmpdir` drive the sandbox.
   */
  datatype Oracles = Oracles(
    think: (string, string) -> Option<string>,
    decodePlan: string -> Decoded<Plan>,
    tmpdir: string,
    run: (Files, seq<string>) -> Outcome,
    reflect: (string, string, SandboxResult) -> Option<string>,
    decodeReflection: string -> Decoded<Reflection>)

  /** The outcome of `process_next`: no task, an exception out of the think phase, or the processed task. */
  datatype ProcessOutcome = NoTask | Raised | Returned(task: Task)

  /** The skill catalogue appended to the think phase's system prompt ("" without skills). */
  function SkillsSummaryOf(skills: Option<Skills.SkillCache>): string
    requires skills.Some? ==> Skills.WellFormed(skills.value)
  {
    if skills.Some? then Skills.SkillsSummary(skills.value) else ""
  }

  /** The skill instructions relevant to a task ("" without skills). */
  function SkillDetails(skills: Option<Skills.SkillCache>, t: Task): string
  {
    if skills.Some? then Skills.RelevantSkills(skills.value, t.title, t.description) else ""
  }

  /** The think prompt: the task, the previous error on a retry, and the relevant skill instructions. */
  function ThinkPrompt(t: Task, details: string): string
  {
    "Task: " + t.title + "\n\nDescription: " + t.description
    + (if t.attempts > 1 && t.error != "" then "\n\nPrevious attempt failed with:\n" + t.error + "\n\nPlease fix the issue." else "")
    + (if details != "" then "\n\n## Relevant Skill Instructions\n" + details else "")
  }

  /**
   * `_think` after the LLM replied, with the cycle's first look at the plan:
   * the decoded fenced JSON object, the whole reply as a direct answer when it
   * is not JSON, and None when it is JSON but not an object (the cycle raises).
   */
  function ThinkPlan(reply: string, decode: string -> Decoded<Plan>): (p: Option<Plan>)
    ensures p.None? <==> decode(Strip(ExtractFenced(reply))).NotObject?
    ensures decode(Strip(ExtractFenced(reply))).NotJson? ==> p == Some(DirectAnswer(reply))
    ensures decode(Strip(ExtractFenced(reply))).Object? ==> p == Some(decode(Strip(ExtractFenced(reply))).value)
  {
    match decode(Strip(ExtractFenced(reply)))
    case Object(plan) => Some(plan)
    case NotJson => Some(DirectAnswer(reply))
    case NotObject => None
  }

  /** The reflection `_reflect` falls back on when the LLM call raises or its reply does not decode. */
  function FallbackReflection(t: Task, result: SandboxResult): Reflection
  {
    Reflection("Failed to parse reflection",
               if result.success then Take(result.stdout, 500) else Take(result.stderr, 500),
               !result.success && t.attempts < t.maxAttempts)
  }

  /**
   * `_reflect`, with the cycle's first look at its value: the decoded
   * reflection on a run, the fallback when the call raises or the reply is
   * not JSON, and None when the reply is JSON but not an object (the cycle
   * raises reading it).
   */
  function ReflectOn(t: Task, code: string, result: SandboxResult, o: Oracles): (r: Option<Reflection>)
    ensures o.reflect(t.title, Take(code, 2000), result).None? ==> r == Some(FallbackReflection(t, result))
    ensures r.None? <==> o.reflect(t.title, Take(code, 2000), result).Some?
                         && o.decodeReflection(Strip(ExtractFenced(o.reflect(t.title, Take(code, 2000), result).value))).NotObject?
  {
    match o.reflect(t.title, Take(code, 2000), result)
    case None => Some(FallbackReflection(t, result))
    case Some(reply) =>
      match o.decodeReflection(Strip(ExtractFenced(reply)))
      case Object(r) => Some(r)
      case NotJson => Some(FallbackReflection(t, result))
      case NotObject => None
  }

  const PythonCommand: seq<string> := ["bash", "/workspace/run.sh"]
  const ShellCommand: seq<string> := ["bash", "/workspace/script.sh"]

  /** The execute phase: Python runs with the plan's packages and network flag, any other language as a shell script. */
  function Execute(code: string, language: string, packages: seq<string>, network: bool, o: Oracles): SandboxResult
  {
    if language == "python" then
      ResultFor(o.run(map["script.py" := code, "run.sh" := SetupScript(packages)],
                      DockerCommand(o.tmpdir, SandboxImage, PythonCommand, network)), DefaultTimeout)
    else
      ResultFor(o.run(map["script.sh" := code], DockerCommand(o.tmpdir, ShellImage, ShellCommand, false)), DefaultTimeout)
  }

  /** The state with the task stored under `id` replaced. */
  function Put(s: EngineState, id: string, t: Task): EngineState
  {
    s.(tasks := s.tasks[id := t])
  }

  /** The sub-tasks of a decomposition added in order under `parent`, with source "self". */
  function AddSubtasks(s: EngineState, fid: nat -> string, parent: string, subs: seq<Subtask>, now: int): (r: EngineState)
    ensures s.tasks.Keys <= r.tasks.Keys
    decreases |subs|
  {
    if subs == [] then s
    else
      var last := subs[|subs| - 1];
      AddTaskSpec(AddSubtasks(s, fid, parent, subs[..|subs| - 1], now), fid, last.title, last.description,
                  Some(parent), "self", now).0
  }

  /**
   * `_react_loop` from the think phase on, for a task `id` whose attempt has
   * been counted and whose status is THINKING: an exception from the think
   * phase, or a plan that is JSON but not an object, leaves everything as it
   * is; otherwise the plan is carried out.
   */
  function React(s: EngineState, fid: nat -> string, id: string, skills: Option<Skills.SkillCache>,
                 o: Oracles, now: int): (EngineState, ProcessOutcome)
    requires id in s.tasks
    requires skills.Some? ==> Skills.WellFormed(skills.value)
  {
    var t := s.tasks[id];
    match o.think(SkillsSummaryOf(skills), ThinkPrompt(t, SkillDetails(skills, t)))
    case None => (s, Raised)
    case Some(reply) =>
      match ThinkPlan(reply, o.decodePlan)
      case None => (s, Raised)
      case Some(plan) => ActOn(s, fid, id, plan, o, now)
  }

  /**
   * Carrying out a plan: a direct answer completes the task, a decomposition
   * adds the sub-tasks and blocks it (an element that is not an object raises
   * once the ones before it are added, leaving the task THINKING), a plan
   * without code fails it, and code is run and reflected on.
   */
  function ActOn(s: EngineState, fid: nat -> string, id: string, plan: Plan, o: Oracles, now: int): (EngineState, ProcessOutcome)
    requires id in s.tasks
  {
    var t := s.tasks[id];
    match plan
    case DirectAnswer(answer) =>
      var t' := t.(result := answer, status := Completed, completedAt := Some(now));
      (Put(s, id, t'), Returned(t'))
    case Decompose(subs) =>
      var s' := AddSubtasks(s, fid, id, LeadingValues(subs), now);
      if |LeadingValues(subs)| < |subs| then (s', Raised)
      else
        var t' := s'.tasks[id].(status := Blocked);
        (Put(s', id, t'), Returned(t'))
    case CodePlan(code, language, packages, network) =>
      if code == "" then
        var t' := t.(error := "Think phase produced no code", status := Failed);
        (Put(s, id, t'), Returned(t'))
      else
        ReflectAndObserve(s, id, code, Execute(code, language, packages, network, o), o, now)
  }

  /**
   * The reflect and observe phases once the run's `result` is in: a
   * reflection that is JSON but not an object raises with the task
   * REFLECTING; any other reflection ends the cycle.
   */
  function ReflectAndObserve(s: EngineState, id: string, code: string, result: SandboxResult, o: Oracles, now: int)
    : (EngineState, ProcessOutcome)
    requires id in s.tasks
  {
    match ReflectOn(s.tasks[id], code, result, o)
    case None => (Put(s, id, s.tasks[id].(status := Reflecting)), Raised)
    case Some(reflection) => Observe(s, id, result, reflection, now)
  }

  /**
   * The end of the cycle: the reflection is recorded; a successful run
   * completes the task with its output (or the summary when the output is
   * empty); a failed one records the error and is re-queued when an attempt
   * is left and the reflection asks for a retry, and fails otherwise.
   */
  function Observe(s: EngineState, id: string, result: SandboxResult, reflection: Reflection, now: int): (EngineState, ProcessOutcome)
    requires id in s.tasks
  {
    var t1 := s.tasks[id].(reflection := reflection.reflection);
    if result.success then
      var t' := t1.(result := if result.stdout != "" then result.stdout else reflection.summary,
                    status := Completed, completedAt := Some(now));
      (Put(s, id, t'), Returned(t'))
    else
      var t2 := t1.(error := if result.stderr != "" then result.stderr else "Unknown error");
      if t2.attempts < t2.maxAttempts && reflection.shouldRetry then
        var t' := t2.(status := Pending);
        (Put(s, id, t').(queue := s.queue + [id]), Returned(t'))
      else
        var t' := t2.(status := Failed);
        (Put(s, id, t'), Returned(t'))
  }

  /** The task as the cycle starts: one more attempt, status THINKING. */
  function Started(t: Task): Task
  {
    t.(attempts := t.attempts + 1, status := Thinking)
  }

  /** `process_next`: dequeues the next id and runs the cycle on its task. */
  function ProcessSpec(s: EngineState, fid: nat -> string, skills: Option<Skills.SkillCache>,
                       o: Oracles, now: int): (EngineState, ProcessOutcome)
    requires skills.Some? ==> Skills.WellFormed(skills.value)
  {
    if s.queue == [] then (s, NoTask)
    else
      var id := s.queue[0];
      var s0 := s.(queue := s.queue[1..]);
      if id !in s0.tasks then (s0, NoTask)
      else React(Put(s0, id, Started(s0.tasks[id])), fid, id, skills, o, now)
  }

  // ---------------------------------------------------------------------------
  // The invariant through the cycle
  // ---------------------------------------------------------------------------

  /** The ids the next `k` tasks receive. */
  function NextIds(s: EngineState, fid: nat -> string, k: nat): (ids: seq<string>)
    ensures |ids| == k && forall i :: 0 <= i < k ==> ids[i] == fid(s.issued + i)
  {
    seq(k, i requires 0 <= i < k => fid(s.issued + i))
  }

  /**
   * Replacing one task keeps the invariant when its id, children and parent
   * stay, its attempts stay within bounds, and the new queue either stays and
   * agrees with its status or re-enqueues it as a pending task.
   */
  lemma PutKeepsWellFormed(s: EngineState, fid: nat -> string, id: string, t: Task, q: seq<string>)
    requires WellFormed(s, fid) && id in s.tasks
    requires t.id == id && t.children == s.tasks[id].children && t.parentId == s.tasks[id].parentId
    requires 0 <= t.attempts <= t.maxAttempts == MaxAttempts && (t.status == Pending ==> t.attempts < MaxAttempts)
    requires || (q == s.queue && (t.status == Pending <==> id in s.queue))
             || (q == s.queue + [id] && id !in s.queue && t.status == Pending)
    ensures WellFormed(Put(s, id, t).(queue := q), fid)
  {
    var s' := Put(s, id, t).(queue := q);
    assert QueueIsPending(s') by {
      forall k | k in s'.tasks ensures (s'.tasks[k].status == Pending <==> k in s'.queue) {
        if k != id {
          assert s'.tasks[k] == s.tasks[k];
        }
      }
    }
    assert ChildrenLinked(s') by {
      forall p, c | p in s'.tasks && c in s'.tasks[p].children
        ensures c in s'.tasks && s'.tasks[c].parentId == Some(p)
      {
        assert c in s.tasks[p].children;
      }
    }
  }

  /** Adding one more sub-task of a list adds its task after those of the ones before it. */
  lemma AddSubtasksSnoc(s: EngineState, fid: nat -> string, parent: string, subs: seq<Subtask>, i: nat, now: int)
    requires i < |subs|
    ensures AddSubtasks(s, fid, parent, subs[..i + 1], now)
            == AddTaskSpec(AddSubtasks(s, fid, parent, subs[..i], now), fid, subs[i].title, subs[i].description,
                           Some(parent), "self", now).0
  {
    assert subs[..i + 1][..i] == subs[..i];
  }

  /** Adding the sub-tasks of a decomposition keeps the invariant and issues one id per sub-task. */
  lemma {:induction false} AddSubtasksKeepsWellFormed(s: EngineState, fid: nat -> string, parent: string,
                                                     subs: seq<Subtask>, now: int)
    requires FreshIds(fid) && WellFormed(s, fid) && parent in s.tasks
    ensures var s' := AddSubtasks(s, fid, parent, subs, now);
      WellFormed(s', fid) && s'.issued == s.issued + |subs|
    decreases |subs|
  {
    if subs != [] {
      var init := subs[..|subs| - 1];
      var last := subs[|subs| - 1];
      AddSubtasksKeepsWellFormed(s, fid, parent, init, now);
      var m := AddSubtasks(s, fid, parent, init, now);
      AddTaskKeepsWellFormed(m, fid, last.title, last.description, Some(parent), "self", now);
    }
  }

  lemma NextIdsAppend(s: EngineState, fid: nat -> string, k: nat)
    ensures NextIds(s, fid, k + 1) == NextIds(s, fid, k) + [fid(s.issued + k)]
  {
  }

  /** Each sub-task of a decomposition is queued under the next fresh id, in order. */
  lemma {:induction false} AddSubtasksQueue(s: EngineState, fid: nat -> string, parent: string,
                                           subs: seq<Subtask>, now: int)
    ensures AddSubtasks(s, fid, parent, subs, now).queue == s.queue + NextIds(s, fid, |subs|)
    ensures AddSubtasks(s, fid, parent, subs, now).issued == s.issued + |subs|
    decreases |subs|
  {
    if subs != [] {
      var init := subs[..|subs| - 1];
      AddSubtasksQueue(s, fid, parent, init, now);
      NextIdsAppend(s, fid, |init|);
    }
  }

  /** Sub-tasks get ids no task had, so stored tasks keep their ids. */
  lemma {:induction false} AddSubtasksFresh(s: EngineState, fid: nat -> string, parent: string,
                                           subs: seq<Subtask>, now: int)
    requires FreshIds(fid) && IdsMatch(s) && FreshAbove(s, fid)
    ensures var s' := AddSubtasks(s, fid, parent, subs, now);
      IdsMatch(s') && FreshAbove(s', fid) && s'.issued == s.issued + |subs|
    decreases |subs|
  {
    if subs != [] {
      var init := subs[..|subs| - 1];
      var last := subs[|subs| - 1];
      AddSubtasksFresh(s, fid, parent, init, now);
      var m := AddSubtasks(s, fid, parent, init, now);
      AddTaskIds(m, fid, last.title, last.description, Some(parent), "self", now);
      AddTaskFresh(m, fid, last.title, last.description, Some(parent), "self", now);
    }
  }

  /** The parent lists the sub-tasks' ids as its newest children, in order; no other existing task changes. */
  lemma {:induction false} AddSubtasksLinks(s: EngineState, fid: nat -> string, parent: string,
                                           subs: seq<Subtask>, now: int)
    requires FreshIds(fid) && IdsMatch(s) && FreshAbove(s, fid) && parent in s.tasks
    ensures var s' := AddSubtasks(s, fid, parent, subs, now);
      && s'.tasks[parent] == s.tasks[parent].(children := s.tasks[parent].children + NextIds(s, fid, |subs|))
      && (forall k :: k in s.tasks && k != parent ==> s'.tasks[k] == s.tasks[k])
    decreases |subs|
  {
    if subs != [] {
      var init := subs[..|subs| - 1];
      var last := subs[|subs| - 1];
      AddSubtasksLinks(s, fid, parent, init, now);
      AddSubtasksFresh(s, fid, parent, init, now);
      var m := AddSubtasks(s, fid, parent, init, now);
      AddTaskLinks(m, fid, last.title, last.description, Some(parent), "self", now);
      var s' := AddSubtasks(s, fid, parent, subs, now);
      assert s' == AddTaskSpec(m, fid, last.title, last.description, Some(parent), "self", now).0;
      NextIdsAppend(s, fid, |init|);
      var before := s.tasks[parent].children;
      var ids := NextIds(s, fid, |init|);
      assert m.tasks[parent].children == before + ids;
      assert s'.tasks[parent].children == (before + ids) + [fid(m.issued)];
      assert (before + ids) + [fid(m.issued)] == before + (ids + [fid(m.issued)]);
    }
  }

  /** The i-th sub-task is stored under the i-th fresh id, with its title, its description (the title when empty), the parent and source "self". */
  lemma {:induction false} AddSubtasksStores(s: EngineState, fid: nat -> string, parent: string,
                                            subs: seq<Subtask>, now: int, i: nat)
    requires FreshIds(fid) && IdsMatch(s) && FreshAbove(s, fid) && parent in s.tasks && i < |subs|
    ensures var s' := AddSubtasks(s, fid, parent, subs, now);
      && fid(s.issued + i) in s'.tasks
      && s'.tasks[fid(s.issued + i)].title == subs[i].title
      && s'.tasks[fid(s.issued + i)].description
           == (if subs[i].description != "" then subs[i].description else subs[i].title)
      && s'.tasks[fid(s.issued + i)].parentId == Some(parent)
      && s'.tasks[fid(s.issued + i)].source == "self"
    decreases |subs|
  {
    var init := subs[..|subs| - 1];
    var last := subs[|subs| - 1];
    AddSubtasksFresh(s, fid, parent, init, now);
    var m := AddSubtasks(s, fid, parent, init, now);
    var s' := AddSubtasks(s, fid, parent, subs, now);
    assert s' == AddTaskSpec(m, fid, last.title, last.description, Some(parent), "self", now).0;
    var id := fid(s.issued + i);
    if i < |init| {
      AddSubtasksStores(s, fid, parent, init, now, i);
      assert init[i] == subs[i];
      assert id != fid(m.issued) && id != parent by {
        assert fid(s.issued + i) !in s.tasks;
      }
      assert s'.tasks[id] == m.tasks[id];
    } else {
      assert last == subs[i] && id == fid(m.issued);
    }
  }

  /** Dequeuing a pending task and starting its attempt keeps the invariant. */
  lemma StartKeepsWellFormed(s: EngineState, fid: nat -> string)
    requires WellFormed(s, fid) && s.queue != [] && s.queue[0] in s.tasks
    ensures var id := s.queue[0];
      var s0 := s.(queue := s.queue[1..]);
      WellFormed(Put(s0, id, Started(s0.tasks[id])), fid)
  {
    var id := s.queue[0];
    var s0 := s.(queue := s.queue[1..]);
    var s1 := Put(s0, id, Started(s0.tasks[id]));
    assert s.tasks[id].status == Pending;
    assert id !in s.queue[1..] by {
      forall j | 1 <= j < |s.queue| ensures s.queue[j] != id {
        assert s.queue[0] != s.queue[j];
      }
    }
    assert QueueIsPending(s1) by {
      forall k | k in s1.tasks ensures (s1.tasks[k].status == Pending <==> k in s1.queue) {
        if k != id {
          assert k in s.queue <==> k in s.queue[1..] by {
            if k in s.queue {
              var j :| 0 <= j < |s.queue| && s.queue[j] == k;
              assert j != 0;
              assert s.queue[1..][j - 1] == k;
            }
          }
        }
      }
    }
    assert FreshAbove(s1, fid) by {
      forall n: nat | s1.issued <= n ensures fid(n) !in s1.tasks && fid(n) !in s1.queue {
        assert fid(n) !in s.queue;
      }
    }
    assert ChildrenLinked(s1) by {
      forall p, c | p in s1.tasks && c in s1.tasks[p].children
        ensures c in s1.tasks && s1.tasks[c].parentId == Some(p)
      {
        assert c in s.tasks[p].children;
      }
    }
  }

  /** The end of the cycle keeps the invariant. */
  lemma ObserveKeepsWellFormed(s: EngineState, fid: nat -> string, id: string, result: SandboxResult,
                               reflection: Reflection, now: int)
    requires WellFormed(s, fid) && id in s.tasks && s.tasks[id].status == Thinking
    ensures WellFormed(Observe(s, id, result, reflection, now).0, fid)
  {
    var t1 := s.tasks[id].(reflection := reflection.reflection);
    if result.success {
      PutKeepsWellFormed(s, fid, id, t1.(result := if result.stdout != "" then result.stdout else reflection.summary,
                                         status := Completed, completedAt := Some(now)), s.queue);
    } else {
      var t2 := t1.(error := if result.stderr != "" then result.stderr else "Unknown error");
      if t2.attempts < t2.maxAttempts && reflection.shouldRetry {
        PutKeepsWellFormed(s, fid, id, t2.(status := Pending), s.queue + [id]);
      } else {
        PutKeepsWellFormed(s, fid, id, t2.(status := Failed), s.queue);
      }
    }
  }

  /** Carrying out a plan keeps the invariant. */
  lemma ActOnKeepsWellFormed(s: EngineState, fid: nat -> string, id: string, plan: Plan, o: Oracles, now: int)
    requires FreshIds(fid) && WellFormed(s, fid) && id in s.tasks && s.tasks[id].status == Thinking
    ensures WellFormed(ActOn(s, fid, id, plan, o, now).0, fid)
  {
    var t := s.tasks[id];
    match plan
    case DirectAnswer(answer) =>
      PutKeepsWellFormed(s, fid, id, t.(result := answer, status := Completed, completedAt := Some(now)), s.queue);
    case Decompose(subs) =>
      var valid := LeadingValues(subs);
      AddSubtasksKeepsWellFormed(s, fid, id, valid, now);
      AddSubtasksLinks(s, fid, id, valid, now);
      var s' := AddSubtasks(s, fid, id, valid, now);
      PutKeepsWellFormed(s', fid, id, s'.tasks[id].(status := Blocked), s'.queue);
    case CodePlan(code, language, packages, network) =>
      if code == "" {
        PutKeepsWellFormed(s, fid, id, t.(error := "Think phase produced no code", status := Failed), s.queue);
      } else {
        ReflectAndObserveKeepsWellFormed(s, fid, id, code, Execute(code, language, packages, network, o), o, now);
      }
  }

  /** The reflect and observe phases keep the invariant, also when the reflection raises. */
  lemma ReflectAndObserveKeepsWellFormed(s: EngineState, fid: nat -> string, id: string, code: string,
                                         result: SandboxResult, o: Oracles, now: int)
    requires WellFormed(s, fid) && id in s.tasks && s.tasks[id].status == Thinking
    ensures WellFormed(ReflectAndObserve(s, id, code, result, o, now).0, fid)
  {
    match ReflectOn(s.tasks[id], code, result, o)
    case None => PutKeepsWellFormed(s, fid, id, s.tasks[id].(status := Reflecting), s.queue);
    case Some(reflection) => ObserveKeepsWellFormed(s, fid, id, result, reflection, now);
  }

  /** The cycle keeps the invariant. */
  lemma ReactKeepsWellFormed(s: EngineState, fid: nat -> string, id: string, skills: Option<Skills.SkillCache>,
                             o: Oracles, now: int)
    requires FreshIds(fid) && WellFormed(s, fid) && id in s.tasks && s.tasks[id].status == Thinking
    requires skills.Some? ==> Skills.WellFormed(skills.value)
    ensures WellFormed(React(s, fid, id, skills, o, now).0, fid)
  {
    var t := s.tasks[id];
    match o.think(SkillsSummaryOf(skills), ThinkPrompt(t, SkillDetails(skills, t)))
    case None =>
    case Some(reply) =>
      match ThinkPlan(reply, o.decodePlan)
      case None =>
      case Some(plan) => ActOnKeepsWellFormed(s, fid, id, plan, o, now);
  }

  /** `process_next` keeps the invariant. */
  lemma ProcessKeepsWellFormed(s: EngineState, fid: nat -> string, skills: Option<Skills.SkillCache>, o: Oracles, now: int)
    requires FreshIds(fid) && WellFormed(s, fid)
    requires skills.Some? ==> Skills.WellFormed(skills.value)
    ensures WellFormed(ProcessSpec(s, fid, skills, o, now).0, fid)
  {
    if s.queue != [] {
      var id := s.queue[0];
      var s0 := s.(queue := s.queue[1..]);
      if id in s0.tasks {
        StartKeepsWellFormed(s, fid);
        ReactKeepsWellFormed(Put(s0, id, Started(s0.tasks[id])), fid, id, skills, o, now);
      } else {
        assert WellFormed(s0, fid) by {
          forall n: nat | s0.issued <= n ensures fid(n) !in s0.tasks && fid(n) !in s0.queue {
            assert fid(n) !in s.queue;
          }
          assert QueueIsPending(s0) by {
            forall k | k in s0.tasks ensures (s0.tasks[k].status == Pending <==> k in s0.queue) {
              assert k != id;
              if k in s.queue {
                var j :| 0 <= j < |s.queue| && s.queue[j] == k;
                assert s.queue[1..][j - 1] == k;
              }
            }
          }
        }
      }
    }
  }

  // ---------------------------------------------------------------------------
  // What a cycle does to its task
  // ---------------------------------------------------------------------------

  /**
   * The task `id` of `s` after a cycle that ended in `s'` with outcome `r`:
   * it keeps its attempt count; the queue only grows at the end; an exception
   * leaves the task in its phase status (the one it had, or REFLECTING with
   * the queue as it was) and does not re-queue it; a returned task is the
   * stored one and ends completed (with a completion time), failed (with an
   * error), blocked, or pending again with an attempt left and its id back at
   * the end of the queue.
   */
  ghost predicate CycleEnded(s: EngineState, s': EngineState, id: string, r: ProcessOutcome, now: int)
    requires id in s.tasks
  {
    && id in s'.tasks
    && s'.tasks[id].attempts == s.tasks[id].attempts
    && s.queue <= s'.queue
    && r != NoTask
    && (r.Raised? ==>
          && (s'.tasks[id].status == s.tasks[id].status || (s'.tasks[id].status == Reflecting && s'.queue == s.queue))
          && id !in s'.queue[|s.queue|..])
    && (r.Returned? ==>
          && r.task == s'.tasks[id]
          && r.task.status in {Completed, Failed, Blocked, Pending}
          && (r.task.status == Completed ==> r.task.completedAt == Some(now))
          && (r.task.status == Failed ==> r.task.error != "")
          && (r.task.status == Pending ==> r.task.attempts < r.task.maxAttempts && s'.queue == s.queue + [id])
          && (r.task.status != Pending ==> id !in s'.queue[|s.queue|..]))
  }

  lemma ObserveEnds(s: EngineState, id: string, result: SandboxResult, reflection: Reflection, now: int)
    requires id in s.tasks
    ensures var (s', r) := Observe(s, id, result, reflection, now);
      CycleEnded(s, s', id, r, now)
      && (r.task.status == Pending <==> !result.success && s.tasks[id].attempts < s.tasks[id].maxAttempts && reflection.shouldRetry)
  {
  }

  lemma ActOnEnds(s: EngineState, fid: nat -> string, id: string, plan: Plan, o: Oracles, now: int)
    requires FreshIds(fid) && WellFormed(s, fid) && id in s.tasks
    ensures var (s', r) := ActOn(s, fid, id, plan, o, now);
      CycleEnded(s, s', id, r, now)
  {
    var t := s.tasks[id];
    match plan
    case DirectAnswer(answer) =>
    case Decompose(subs) =>
      AddSubtasksEnds(s, fid, id, LeadingValues(subs), now);
    case CodePlan(code, language, packages, network) =>
      if code != "" {
        ReflectAndObserveEnds(s, id, code, Execute(code, language, packages, network, o), o, now);
      }
  }

  /** Adding sub-tasks leaves the parent's status alone and queues only the new ids. */
  lemma AddSubtasksEnds(s: EngineState, fid: nat -> string, id: string, subs: seq<Subtask>, now: int)
    requires FreshIds(fid) && WellFormed(s, fid) && id in s.tasks
    ensures var s' := AddSubtasks(s, fid, id, subs, now);
      && id in s'.tasks
      && s'.tasks[id] == s.tasks[id].(children := s'.tasks[id].children)
      && s.queue <= s'.queue
      && id !in s'.queue[|s.queue|..]
  {
    AddSubtasksLinks(s, fid, id, subs, now);
    AddSubtasksQueue(s, fid, id, subs, now);
    var s' := AddSubtasks(s, fid, id, subs, now);
    var ids := NextIds(s, fid, |subs|);
    assert s'.queue[|s.queue|..] == ids;
    forall i | 0 <= i < |ids| ensures ids[i] != id {
      assert fid(s.issued + i) !in s.tasks;
    }
  }

  lemma ReflectAndObserveEnds(s: EngineState, id: string, code: string, result: SandboxResult, o: Oracles, now: int)
    requires id in s.tasks
    ensures var (s', r) := ReflectAndObserve(s, id, code, result, o, now);
      && CycleEnded(s, s', id, r, now)
      && (r.Raised? <==> ReflectOn(s.tasks[id], code, result, o).None?)
  {
    match ReflectOn(s.tasks[id], code, result, o)
    case None =>
      assert Put(s, id, s.tasks[id].(status := Reflecting)).queue[|s.queue|..] == [];
    case Some(reflection) => ObserveEnds(s, id, result, reflection, now);
  }

  lemma ReactEnds(s: EngineState, fid: nat -> string, id: string, skills: Option<Skills.SkillCache>, o: Oracles, now: int)
    requires FreshIds(fid) && WellFormed(s, fid) && id in s.tasks
    requires skills.Some? ==> Skills.WellFormed(skills.value)
    ensures var (s', r) := React(s, fid, id, skills, o, now);
      CycleEnded(s, s', id, r, now)
  {
    var t := s.tasks[id];
    match o.think(SkillsSummaryOf(skills), ThinkPrompt(t, SkillDetails(skills, t)))
    case None =>
    case Some(reply) =>
      match ThinkPlan(reply, o.decodePlan)
      case None =>
      case Some(plan) => ActOnEnds(s, fid, id, plan, o, now);
  }

  /**
   * `process_next` on a well-formed engine: with an empty queue nothing
   * happens; otherwise the head of the queue is dequeued and its task gets
   * exactly one more attempt, never exceeding the maximum (so a task is
   * worked on at most three times). The rest of the queue keeps its order. An
   * exception leaves the task THINKING, or REFLECTING with the rest of the
   * queue as it was, and out of the queue; a returned task is the stored one
   * and ends completed, failed with a non-empty error, blocked, or pending and
   * re-queued at the end.
   */
  lemma ProcessFacts(s: EngineState, fid: nat -> string, skills: Option<Skills.SkillCache>, o: Oracles, now: int)
    requires FreshIds(fid) && WellFormed(s, fid)
    requires skills.Some? ==> Skills.WellFormed(skills.value)
    ensures var (s', r) := ProcessSpec(s, fid, skills, o, now);
      && (s.queue == [] ==> r == NoTask && s' == s)
      && (s.queue != [] && s.queue[0] in s.tasks ==>
            var id := s.queue[0];
            && r != NoTask
            && id in s'.tasks
            && s'.tasks[id].attempts == s.tasks[id].attempts + 1 <= MaxAttempts
            && s.queue[1..] <= s'.queue
            && (r.Raised? ==>
                  && s'.tasks[id].status in {Thinking, Reflecting}
                  && id !in s'.queue
                  && (s'.tasks[id].status == Reflecting ==> s'.queue == s.queue[1..]))
            && (r.Returned? ==>
                  && r.task == s'.tasks[id]
                  && r.task.status in {Completed, Failed, Blocked, Pending}
                  && (r.task.status == Completed ==> r.task.completedAt == Some(now))
                  && (r.task.status == Failed ==> r.task.error != "")
                  && (r.task.status == Pending <==> id in s'.queue)
                  && (r.task.status == Pending ==> s'.queue == s.queue[1..] + [id])))
  {
    if s.queue != [] && s.queue[0] in s.tasks {
      var id := s.queue[0];
      var s0 := s.(queue := s.queue[1..]);
      var s1 := Put(s0, id, Started(s0.tasks[id]));
      StartKeepsWellFormed(s, fid);
      ReactEnds(s1, fid, id, skills, o, now);
      ReactKeepsWellFormed(s1, fid, id, skills, o, now);
      assert s.tasks[id].status == Pending;
    }
  }

  // ---------------------------------------------------------------------------
  // get_status_summary and pending_count
  // ---------------------------------------------------------------------------

  /*
   * The icon literals of the status summary are kept as the source file
   * holds them: emoji whose UTF-8 bytes were decoded once more as Windows-1252
   * (the ledger emoji becomes "ðŸ“‹"; bytes with no Windows-1252 character
   * are missing).
   */
  const LedgerIcon: string := "\U{f0}\U{178}\U{201c}\U{2039}"
  const NoTasksText: string := LedgerIcon + " No tasks."
  const StatusHeader: string := LedgerIcon + " Task Status:"
  /** How many tasks the summary lists. */
  const ShownTasks: nat := 10

  function Icon(st: TaskStatus): string
  {
    match st
    case Pending => "\U{e2}\U{b3}"
    case Thinking => "\U{f0}\U{178}\U{a7}\U{a0}"
    case Acting => "\U{e2}\U{161}\U{a1}"
    case Executing => "\U{f0}\U{178}\U{b3}"
    case Reflecting => "\U{f0}\U{178}\U{201d}\U{201e}"
    case Completed => "\U{e2}\U{153}\U{2026}"
    case Failed => "\U{e2}\U{152}"
    case Blocked => "\U{f0}\U{178}\U{201d}\U{2019}"
  }

  /** One summary line: icon, id, title and status value. */
  function StatusLine(t: Task): string
  {
    "  " + Icon(t.status) + " [" + t.id + "] " + t.title + " (" + StatusValue(t.status) + ")"
  }

  function StatusLines(ts: seq<Task>): (lines: seq<string>)
    ensures |lines| == |ts| && forall i :: 0 <= i < |ts| ==> lines[i] == StatusLine(ts[i])
  {
    seq(|ts|, i requires 0 <= i < |ts| => StatusLine(ts[i]))
  }

  /** `tasks.values()`: the stored tasks in insertion order. */
  function Values(tasks: map<string, Task>, order: seq<string>): (vs: seq<Task>)
    ensures forall t :: t in vs ==> t in tasks.Values
    ensures forall id :: id in order && id in tasks ==> tasks[id] in vs
    decreases |order|
  {
    if order == [] then []
    else
      var last := order[|order| - 1];
      Values(tasks, order[..|order| - 1]) + (if last in tasks then [tasks[last]] else [])
  }

  /** The sort key of `sorted(..., key=created_at, reverse=True)`, which is stable. */
  function NewestFirst(t: Task): int
  {
    -t.createdAt
  }

  /** The tasks the summary lists: the ten newest, newest first, ties in insertion order. */
  function Newest(s: EngineState): seq<Task>
  {
    var sorted := SortBy(Values(s.tasks, s.order), NewestFirst);
    if |sorted| <= ShownTasks then sorted else sorted[..ShownTasks]
  }

  /** `get_status_summary`. */
  function StatusSummary(s: EngineState): string
  {
    if s.tasks == map[] then NoTasksText
    else Join([StatusHeader] + StatusLines(Newest(s)), "\n")
  }

  /**
   * The summary lists at most ten tasks of the engine, newest first, and
   * leaves out only tasks no newer than every listed one (all of them are
   * listed when fewer than ten are).
   */
  lemma NewestAreListed(s: EngineState, fid: nat -> string)
    requires WellFormed(s, fid)
    ensures var shown := Newest(s);
      && |shown| <= ShownTasks
      && (forall t :: t in shown ==> t in s.tasks.Values)
      && (forall i, j :: 0 <= i < j < |shown| ==> shown[i].createdAt >= shown[j].createdAt)
      && (forall id :: id in s.tasks && s.tasks[id] !in shown ==>
            |shown| == ShownTasks && forall j :: 0 <= j < |shown| ==> shown[j].createdAt >= s.tasks[id].createdAt)
  {
    assert OrderIsKeys(s);
    SortedValues(s);
    var sorted := SortBy(Values(s.tasks, s.order), NewestFirst);
    SortedPrefix(sorted);
  }

  /** The sorted values are exactly the stored tasks. */
  lemma SortedValues(s: EngineState)
    requires OrderIsKeys(s)
    ensures var sorted := SortBy(Values(s.tasks, s.order), NewestFirst);
      && SortedBy(sorted, NewestFirst)
      && (forall t :: t in sorted ==> t in s.tasks.Values)
      && (forall id :: id in s.tasks ==> s.tasks[id] in sorted)
  {
    var vs := Values(s.tasks, s.order);
    var sorted := SortBy(vs, NewestFirst);
    SortBySortedPermutation(vs, NewestFirst);
    forall t ensures t in sorted <==> t in vs {
      assert t in sorted <==> t in multiset(sorted);
      assert t in vs <==> t in multiset(vs);
    }
  }

  /** The first ten of a newest-first list are ordered, and everything after them is no newer. */
  lemma SortedPrefix(sorted: seq<Task>)
    requires SortedBy(sorted, NewestFirst)
    ensures var shown := if |sorted| <= ShownTasks then sorted else sorted[..ShownTasks];
      && (forall i, j :: 0 <= i < j < |shown| ==> shown[i].createdAt >= shown[j].createdAt)
      && (forall t :: t in sorted && t !in shown ==>
            |shown| == ShownTasks && forall j :: 0 <= j < |shown| ==> shown[j].createdAt >= t.createdAt)
  {
    var shown := if |sorted| <= ShownTasks then sorted else sorted[..ShownTasks];
    forall i, j | 0 <= i < j < |shown| ensures shown[i].createdAt >= shown[j].createdAt {
      assert NewestFirst(sorted[i]) <= NewestFirst(sorted[j]);
    }
    forall t | t in sorted && t !in shown
      ensures |shown| == ShownTasks && forall j :: 0 <= j < |shown| ==> shown[j].createdAt >= t.createdAt
    {
      var k :| 0 <= k < |sorted| && sorted[k] == t;
      assert k >= ShownTasks;
      forall j | 0 <= j < |shown| ensures shown[j].createdAt >= t.createdAt {
        assert NewestFirst(sorted[j]) <= NewestFirst(sorted[k]);
      }
    }
  }

  /** Read back line by line, the summary is the header and one line per listed task, for single-line ids and titles. */
  lemma StatusSummaryReadsBack(s: EngineState)
    requires s.tasks != map[]
    requires forall id :: id in s.tasks ==> '\n' !in id && '\n' !in s.tasks[id].title
    requires forall t :: t in s.tasks.Values ==> t.id in s.tasks && s.tasks[t.id] == t
    ensures Split(StatusSummary(s), "\n") == [StatusHeader] + StatusLines(Newest(s))
  {
    var shown := Newest(s);
    var sorted := SortBy(Values(s.tasks, s.order), NewestFirst);
    SortBySortedPermutation(Values(s.tasks, s.order), NewestFirst);
    var lines := [StatusHeader] + StatusLines(shown);
    forall k | 0 <= k < |lines| ensures '\n' !in lines[k] {
      if k > 0 {
        var t := shown[k - 1];
        assert t in multiset(sorted);
        assert t in s.tasks.Values;
        StatusLineSingle(t);
      }
    }
    JoinSplit(lines, '\n');
  }

  lemma StatusLineSingle(t: Task)
    requires '\n' !in t.id && '\n' !in t.title
    ensures '\n' !in StatusLine(t)
  {
  }

  // ---------------------------------------------------------------------------
  // The engine
  // ---------------------------------------------------------------------------

  class TaskEngine {
    /** The id source standing in for `str(uuid.uuid4())[:8]`. */
    const freshId: nat -> string
    var tasks: map<string, Task>
    var order: seq<string>
    var queue: seq<string>
    var issued: nat

    function State(): EngineState
      reads this
    {
      EngineState(tasks, order, queue, issued)
    }

    ghost predicate Valid()
      reads this
    {
      FreshIds(freshId) && WellFormed(State(), freshId)
    }

    constructor (freshId: nat -> string)
      requires FreshIds(freshId)
      ensures Valid() && State() == NoTasks && this.freshId == freshId
    {
      this.freshId := freshId;
      tasks := map[];
      order := [];
      queue := [];
      issued := 0;
    }

    /** `pending_count`: the length of the queue, which is the number of pending tasks. */
    function PendingCount(): (n: nat)
      reads this
      ensures Valid() ==> forall id :: id in tasks ==> (tasks[id].status == Pending <==> id in queue)
      ensures n == |queue|
    {
      |queue|
    }

    /** `add_task`. */
    method AddTask(title: string, description: string, parent: Option<string>, source: string, now: int)
      returns (task: Task)
      requires Valid()
      modifies this
      ensures Valid()
      ensures (State(), task) == AddTaskSpec(old(State()), freshId, title, description, parent, source, now)
    {
      ghost var spec := AddTaskSpec(State(), freshId, title, description, parent, source, now);
      AddTaskKeepsWellFormed(State(), freshId, title, description, parent, source, now);
      var id := freshId(issued);
      task := NewTask(id, title, description, parent, source, now);
      tasks := tasks[id := task];
      order := order + [id];
      if parent.Some? && parent.value != "" && parent.value in tasks {
        var p := tasks[parent.value];
        tasks := tasks[parent.value := p.(children := p.children + [id])];
      }
      // The caller receives the stored task, including a self-link.
      task := tasks[id];
      queue := queue + [id];
      issued := issued + 1;
      assert State() == spec.0;
    }

    /** `process_next`. */
    method ProcessNext(skills: Option<Skills.SkillCache>, o: Oracles, now: int) returns (r: ProcessOutcome)
      requires Valid() && (skills.Some? ==> Skills.WellFormed(skills.value))
      modifies this
      ensures Valid()
      ensures (State(), r) == ProcessSpec(old(State()), freshId, skills, o, now)
    {
      ProcessKeepsWellFormed(State(), freshId, skills, o, now);
      ghost var s := State();
      if queue == [] {
        return NoTask;
      }
      var id := queue[0];
      queue := queue[1..];
      if id !in tasks {
        return NoTask;
      }
      StartKeepsWellFormed(s, freshId);
      var task := tasks[id];
      tasks := tasks[id := task.(attempts := task.attempts + 1, status := Thinking)];
      assert State() == Put(s.(queue := s.queue[1..]), id, Started(task));
      r := ReactLoop(id, skills, o, now);
    }

    /** `_react_loop` once the attempt is counted: the think phase, then the plan. */
    method ReactLoop(id: string, skills: Option<Skills.SkillCache>, o: Oracles, now: int) returns (r: ProcessOutcome)
      requires Valid() && id in tasks && tasks[id].status == Thinking
      requires skills.Some? ==> Skills.WellFormed(skills.value)
      modifies this
      ensures Valid()
      ensures (State(), r) == React(old(State()), freshId, id, skills, o, now)
    {
      var task := tasks[id];
      var reply := o.think(SkillsSummaryOf(skills), ThinkPrompt(task, SkillDetails(skills, task)));
      if reply.None? {
        return Raised;
      }
      var plan := ThinkPlan(reply.value, o.decodePlan);
      if plan.None? {
        return Raised;
      }
      r := CarryOut(id, plan.value, o, now);
    }

    /** The act, execute, observe and reflect phases of `_react_loop`. */
    method CarryOut(id: string, plan: Plan, o: Oracles, now: int) returns (r: ProcessOutcome)
      requires Valid() && id in tasks && tasks[id].status == Thinking
      modifies this
      ensures Valid()
      ensures (State(), r) == ActOn(old(State()), freshId, id, plan, o, now)
    {
      ActOnKeepsWellFormed(State(), freshId, id, plan, o, now);
      ghost var spec := ActOn(State(), freshId, id, plan, o, now);
      var task := tasks[id];
      match plan {
        case DirectAnswer(answer) =>
          task := task.(result := answer, status := Completed, completedAt := Some(now));
          tasks := tasks[id := task];
          assert State() == spec.0;
          return Returned(task);
        case Decompose(subs) =>
          var complete := AddSubtaskList(id, subs, now);
          if !complete {
            assert State() == spec.0;
            return Raised;
          }
          task := tasks[id].(status := Blocked);
          tasks := tasks[id := task];
          assert State() == spec.0;
          return Returned(task);
        case CodePlan(code, language, packages, network) =>
          r := RunCode(id, code, language, packages, network, o, now);
      }
    }

    /** The code branch: a plan without code fails; otherwise the code runs and is reflected on. */
    method RunCode(id: string, code: string, language: string, packages: seq<string>, network: bool,
                   o: Oracles, now: int) returns (r: ProcessOutcome)
      requires id in tasks
      modifies this
      ensures (State(), r) == ActOn(old(State()), freshId, id, CodePlan(code, language, packages, network), o, now)
    {
      ghost var start := State();
      var task := tasks[id];
      ghost var thinking := task;
      task := task.(status := Acting);
      tasks := tasks[id := task];
      if code == "" {
        task := task.(error := "Think phase produced no code", status := Failed);
        tasks := tasks[id := task];
        assert task == thinking.(error := "Think phase produced no code", status := Failed);
        assert tasks == start.tasks[id := task];
        return Returned(task);
      }
      ReflectAndObserveAfterStatus(start, id, Acting, code, Execute(code, language, packages, network, o), o, now);
      r := ExecuteAndReflect(id, code, language, packages, network, o, now);
    }

    /** The execute, observe and reflect phases. */
    method ExecuteAndReflect(id: string, code: string, language: string, packages: seq<string>, network: bool,
                             o: Oracles, now: int) returns (r: ProcessOutcome)
      requires id in tasks
      modifies this
      ensures (State(), r) == ReflectAndObserve(old(State()), id, code, Execute(code, language, packages, network, o), o, now)
    {
      ghost var start := State();
      tasks := tasks[id := tasks[id].(status := Executing)];
      var result := RunInSandbox(code, language, packages, network, o);
      ReflectAndObserveAfterStatus(start, id, Executing, code, result, o, now);
      r := Reflect(id, code, result, o, now);
    }

    /** The reflect phase on the run's `result`, then the end of the cycle. */
    method Reflect(id: string, code: string, result: SandboxResult, o: Oracles, now: int) returns (r: ProcessOutcome)
      requires id in tasks
      modifies this
      ensures (State(), r) == ReflectAndObserve(old(State()), id, code, result, o, now)
    {
      ghost var start := State();
      var task := tasks[id].(status := Reflecting);
      tasks := tasks[id := task];
      var reflection := ReflectOn(task, code, result, o);
      ReflectOnStatus(start.tasks[id], Reflecting, code, result, o);
      if reflection.None? {
        return Raised;
      }
      ObserveAfterStatus(start, id, Reflecting, result, reflection.value, now);
      r := Conclude(id, result, reflection.value, now);
    }

    /**
     * The decomposition branch: each sub-task is added under the task, in
     * order, until an element that is not an object raises; `complete` tells
     * whether every element was added.
     */
    method AddSubtaskList(id: string, subs: seq<Option<Subtask>>, now: int) returns (complete: bool)
      requires Valid() && id in tasks
      modifies this
      ensures Valid() && id in tasks
      ensures State() == AddSubtasks(old(State()), freshId, id, LeadingValues(subs), now)
      ensures complete <==> |LeadingValues(subs)| == |subs|
    {
      ghost var start := State();
      ghost var valid := LeadingValues(subs);
      var i := 0;
      while i < |subs| && subs[i].Some?
        invariant 0 <= i <= |valid|
        invariant Valid() && id in tasks
        invariant State() == AddSubtasks(start, freshId, id, valid[..i], now)
      {
        assert i < |valid| && subs[i].value == valid[i];
        AddSubtasksSnoc(start, freshId, id, valid, i, now);
        var _ := AddTask(subs[i].value.title, subs[i].value.description, Some(id), "self", now);
        i := i + 1;
      }
      assert i == |valid| && valid[..i] == valid;
      complete := i == |subs|;
    }

    /** The end of the cycle after the reflection. */
    method Conclude(id: string, result: SandboxResult, reflection: Reflection, now: int) returns (r: ProcessOutcome)
      requires id in tasks
      modifies this
      ensures (State(), r) == Observe(old(State()), id, result, reflection, now)
    {
      var task := tasks[id].(reflection := reflection.reflection);
      if result.success {
        task := task.(result := if result.stdout != "" then result.stdout else reflection.summary,
                      status := Completed, completedAt := Some(now));
      } else {
        task := task.(error := if result.stderr != "" then result.stderr else "Unknown error");
        if task.attempts < task.maxAttempts && reflection.shouldRetry {
          queue := queue + [id];
          task := task.(status := Pending);
        } else {
          task := task.(status := Failed);
        }
      }
      tasks := tasks[id := task];
      return Returned(task);
    }

    /** `get_status_summary`. */
    method GetStatusSummary() returns (summary: string)
      ensures summary == StatusSummary(State())
    {
      if tasks == map[] {
        return NoTasksText;
      }
      var sorted := SortBy(Values(tasks, order), NewestFirst);
      var shown := if |sorted| <= ShownTasks then sorted else sorted[..ShownTasks];
      var lines := StatusSummaryLines(shown);
      summary := Join(lines, "\n");
    }
  }

  /** The lines of the summary, built one task at a time. */
  method StatusSummaryLines(shown: seq<Task>) returns (lines: seq<string>)
    ensures lines == [StatusHeader] + StatusLines(shown)
  {
    lines := [StatusHeader];
    for i := 0 to |shown|
      invariant |lines| == i + 1 && lines[0] == StatusHeader
      invariant forall k :: 0 <= k < i ==> lines[k + 1] == StatusLine(shown[k])
    {
      lines := lines + [StatusLine(shown[i])];
    }
  }

  /** The reflection on a run does not depend on the task's status. */
  lemma ReflectOnStatus(t: Task, st: TaskStatus, code: string, result: SandboxResult, o: Oracles)
    ensures ReflectOn(t.(status := st), code, result, o) == ReflectOn(t, code, result, o)
  {
  }

  /** The end of the cycle overwrites the status, so the phase statuses set before it do not matter. */
  lemma ObserveAfterStatus(s: EngineState, id: string, st: TaskStatus, result: SandboxResult, reflection: Reflection, now: int)
    requires id in s.tasks
    ensures Observe(Put(s, id, s.tasks[id].(status := st)), id, result, reflection, now) == Observe(s, id, result, reflection, now)
  {
    var s1 := Put(s, id, s.tasks[id].(status := st));
    forall t: Task ensures Put(s1, id, t) == Put(s, id, t) {
      assert s1.tasks[id := t] == s.tasks[id := t];
    }
  }

  /** The reflect and observe phases do not depend on the status the task had before them. */
  lemma ReflectAndObserveAfterStatus(s: EngineState, id: string, st: TaskStatus, code: string, result: SandboxResult,
                                     o: Oracles, now: int)
    requires id in s.tasks
    ensures ReflectAndObserve(Put(s, id, s.tasks[id].(status := st)), id, code, result, o, now)
            == ReflectAndObserve(s, id, code, result, o, now)
  {
    var s1 := Put(s, id, s.tasks[id].(status := st));
    ReflectOnStatus(s.tasks[id], st, code, result, o);
    match ReflectOn(s.tasks[id], code, result, o)
    case None =>
      assert s1.tasks[id := s1.tasks[id].(status := Reflecting)] == s.tasks[id := s.tasks[id].(status := Reflecting)];
    case Some(reflection) => ObserveAfterStatus(s, id, st, result, reflection, now);
  }

  /** The execute phase: Python code through `run_python`, anything else through `run_shell` with its defaults. */
  method RunInSandbox(code: string, language: string, packages: seq<string>, network: bool, o: Oracles)
    returns (result: SandboxResult)
    ensures result == Execute(code, language, packages, network, o)
  {
    if language == "python" {
      result := RunPython(code, DefaultTimeout, packages, network, o.tmpdir, o.run);
    } else {
      result := RunShell(code, ShellImage, DefaultTimeout, false, o.tmpdir, o.run);
    }
  }
}

=== FILE: telegram.dfy ===
/**
 * The pure parts of the Telegram front end (cradle/telegram_bot.py): who may
 * talk to the agent, and how a long reply is cut into messages. The Bot API
 * itself is not modelled; `SendMessage` returns the messages it would post.
 */
module Telegram {
  import opened Wrappers
  import opened Text

  /** The longest piece `send_message` posts (Telegram's own limit is 4096). */
  const ChunkSize: nat := 4000

  /** The sender of an update; Telegram users need not have a username. */
  datatype TgUser = TgUser(username: Option<string>)

  /** The `allowed_user` the bot compares against: the configured name without its leading '@'s. */
  function AllowedUser(configured: string): (u: string)
    ensures |u| <= |configured| && (u == "" || u[0] != '@')
    ensures configured == seq(|configured| - |u|, _ => '@') + u
  {
    var u := LStrip(configured, '@');
    var n := |configured| - |u|;
    assert configured[..n] == seq(n, _ => '@');
    assert configured == configured[..n] + u;
    u
  }

  /** `_is_authorized`: an update without a user is refused; otherwise the username must match exactly. */
  function IsAuthorized(allowedUser: string, user: Option<TgUser>): (ok: bool)
    ensures ok <==> user.Some? && user.value.username == Some(allowedUser)
  {
    match user
    case None => false
    case Some(u) => u.username == Some(allowedUser)
  }

  /** `[text[i:i+4000] for i in range(0, len(text), 4000)]`. */
  function Chunks(text: string): (chunks: seq<string>)
    ensures |chunks| == (|text| + ChunkSize - 1) / ChunkSize
    ensures forall k :: 0 <= k < |chunks| ==> 0 < |chunks[k]| <= ChunkSize
    ensures forall k :: 0 <= k < |chunks| - 1 ==> |chunks[k]| == ChunkSize
  {
    seq((|text| + ChunkSize - 1) / ChunkSize,
        k requires 0 <= k < (|text| + ChunkSize - 1) / ChunkSize =>
          text[k * ChunkSize .. if (k + 1) * ChunkSize <= |text| then (k + 1) * ChunkSize else |text|])
  }

  /** The messages concatenated back into one text. */
  function Concat(parts: seq<string>): string
  {
    if parts == [] then "" else parts[0] + Concat(parts[1..])
  }

  /** A text longer than one chunk: its first chunk, then the chunks of the rest. */
  lemma ChunksStep(text: string)
    requires |text| > ChunkSize
    ensures Chunks(text) == [text[..ChunkSize]] + Chunks(text[ChunkSize..])
  {
    var rest := text[ChunkSize..];
    var a, b := Chunks(text), [text[..ChunkSize]] + Chunks(rest);
    assert |a| == |b|;
    forall k | 1 <= k < |a| ensures a[k] == b[k] {
      var lo := k * ChunkSize;
      var hi := if (k + 1) * ChunkSize <= |text| then (k + 1) * ChunkSize else |text|;
      assert b[k] == Chunks(rest)[k - 1];
      SuffixSlice(text, ChunkSize, lo, hi);
    }
  }

  /** A slice of a suffix is the matching slice of the whole. */
  lemma SuffixSlice(s: string, c: nat, lo: nat, hi: nat)
    requires c <= lo <= hi <= |s|
    ensures s[c..][lo - c .. hi - c] == s[lo..hi]
  {
    assert |s[c..][lo - c .. hi - c]| == hi - lo;
    forall j | 0 <= j < hi - lo ensures s[c..][lo - c .. hi - c][j] == s[lo..hi][j] {
      assert s[c..][lo - c + j] == s[lo + j];
    }
  }

  /** Concatenating the chunks gives back the text exactly; an empty text has no chunks. */
  lemma {:induction false} ChunksConcat(text: string)
    ensures Concat(Chunks(text)) == text
    ensures Chunks(text) == [] <==> text == ""
    decreases |text|
  {
    if |text| > ChunkSize {
      ChunksStep(text);
      ChunksConcat(text[ChunkSize..]);
      assert text == text[..ChunkSize] + text[ChunkSize..];
    } else if text != "" {
      assert (|text| + ChunkSize - 1) / ChunkSize == 1;
      assert Chunks(text)[0] == text[0..|text|] == text;
      assert Chunks(text) == [text];
    }
  }

  /** One message the bot posts. */
  datatype Message = Message(chatId: int, text: string)

  /**
   * `send_message`: the target is the given chat id, else the chat of the
   * last command (a missing id and 0 both count as absent). Without a target
   * or without a running app nothing is sent; otherwise every chunk goes to
   * the target, in order. A chunk the API rejects is logged and skipped, which
   * does not change what is attempted.
   */
  function SendMessage(text: string, chatId: Option<int>, lastChat: Option<int>, appRunning: bool): (sent: seq<Message>)
    ensures var target := if chatId.Some? && chatId.value != 0 then chatId else lastChat;
      && (target.None? || target.value == 0 || !appRunning ==> sent == [])
      && (target.Some? && target.value != 0 && appRunning ==>
            |sent| == |Chunks(text)| && forall k :: 0 <= k < |sent| ==> sent[k] == Message(target.value, Chunks(text)[k]))
  {
    var target := if chatId.Some? && chatId.value != 0 then chatId else lastChat;
    if target.None? || target.value == 0 || !appRunning then []
    else
      var chunks := Chunks(text);
      seq(|chunks|, k requires 0 <= k < |chunks| => Message(target.value, chunks[k]))
  }

  /** What reaches the user is the whole text, when there is somewhere to send it. */
  lemma SendMessageDeliversText(text: string, chatId: Option<int>, lastChat: Option<int>, appRunning: bool)
    requires appRunning && ((chatId.Some? && chatId.value != 0) || (lastChat.Some? && lastChat.value != 0))
    ensures var sent := SendMessage(text, chatId, lastChat, appRunning);
      Concat(seq(|sent|, k requires 0 <= k < |sent| => sent[k].text)) == text
  {
    var sent := SendMessage(text, chatId, lastChat, appRunning);
    assert seq(|sent|, k requires 0 <= k < |sent| => sent[k].text) == Chunks(text);
    ChunksConcat(text);
  }
}

=== FILE: text.dfy ===
/**
 * The Python string operations the agent relies on: slicing, substring
 * search, `str.split`, `str.join`, `str.strip`, `str.lstrip`, `str.lower`,
 * `int()` and `str()` on integers, and the code-fence extraction applied to
 * every LLM reply.
 */
module Text {
  import opened Wrappers

  /** Python's `s[:n]` for a non-negative `n`: slicing past the end is clamped. */
  function Take(s: string, n: nat): (r: string)
    ensures |r| == (if |s| <= n then |s| else n)
    ensures r == s[..|r|]
  {
    if |s| <= n then s else s[..n]
  }

  /** Python's `a.endswith(b)`. */
  predicate EndsWith(a: string, b: string)
  {
    |b| <= |a| && a[|a| - |b|..] == b
  }

  // ---------------------------------------------------------------------------
  // Substring search (`p in s`, `s.find(p)`)
  // ---------------------------------------------------------------------------

  /** `p` occurs in `s` starting at index `i`. */
  predicate OccursAt(s: string, p: string, i: nat)
  {
    i + |p| <= |s| && s[i..i + |p|] == p
  }

  /** The first index at or after `from` where `p` occurs in `s`. */
  function IndexFrom(s: string, p: string, from: nat): (r: Option<nat>)
    decreases |s| - from
    ensures r.Some? ==> from <= r.value && OccursAt(s, p, r.value)
    ensures r.Some? ==> forall j :: from <= j < r.value ==> !OccursAt(s, p, j)
    ensures r.None? ==> forall j :: from <= j ==> !OccursAt(s, p, j)
  {
    if from + |p| > |s| then None
    else if s[from..from + |p|] == p then Some(from)
    else IndexFrom(s, p, from + 1)
  }

  /** Python's `s.find(p)`, with `None` for -1. */
  function IndexOf(s: string, p: string): Option<nat>
  {
    IndexFrom(s, p, 0)
  }

  /** Python's `p in s`. */
  predicate Contains(s: string, p: string)
  {
    IndexOf(s, p).Some?
  }

  /** Python's `s.split(p)[0]`: the text before the first occurrence of `p`. */
  function UpTo(s: string, p: string): string
  {
    match IndexOf(s, p)
    case Some(i) => s[..i]
    case None => s
  }

  /** `p in s` holds exactly when `p` occurs somewhere in `s`. */
  lemma ContainsIff(s: string, p: string)
    ensures Contains(s, p) <==> exists i :: OccursAt(s, p, i)
  {
    if !Contains(s, p) {
      forall i ensures !OccursAt(s, p, i) { }
    }
  }

  /** The text before the first separator never contains the separator. */
  lemma UpToHasNoSeparator(s: string, p: string)
    requires p != ""
    ensures !Contains(UpTo(s, p), p)
    ensures UpTo(s, p) == s[..|UpTo(s, p)|]
  {
    var u := UpTo(s, p);
    forall m: nat | OccursAt(u, p, m) ensures false {
      assert u[m..m + |p|] == s[m..m + |p|];
      assert OccursAt(s, p, m);
    }
    ContainsIff(u, p);
  }

  /** A prefix of `s` contains `p` at `m` whenever `s` does and the occurrence fits. */
  lemma OccursInPrefix(s: string, p: string, m: nat, n: nat)
    requires OccursAt(s, p, m) && m + |p| <= n <= |s|
    ensures OccursAt(s[..n], p, m)
  {
    assert s[..n][m..m + |p|] == s[m..m + |p|];
  }

  // ---------------------------------------------------------------------------
  // `str.split` and `str.join`
  // ---------------------------------------------------------------------------

  /** Python's `s.split(sep)` for a non-empty separator. */
  function Split(s: string, sep: string): (r: seq<string>)
    requires sep != ""
    decreases |s|
    ensures |r| >= 1 && r[0] == UpTo(s, sep)
    ensures Contains(s, sep) <==> |r| >= 2
    ensures Contains(s, sep) ==> r[1] == UpTo(s[IndexOf(s, sep).value + |sep|..], sep)
  {
    match IndexOf(s, sep)
    case None => [s]
    case Some(i) => [s[..i]] + Split(s[i + |sep|..], sep)
  }

  /** Python's `sep.join(parts)`. */
  function Join(parts: seq<string>, sep: string): string
    decreases |parts|
  {
    if |parts| == 0 then ""
    else if |parts| == 1 then parts[0]
    else parts[0] + sep + Join(parts[1..], sep)
  }

  /** Joining the pieces of a split with the same separator gives back the text. */
  lemma {:induction false} SplitJoin(s: string, sep: string)
    requires sep != ""
    ensures Join(Split(s, sep), sep) == s
    decreases |s|
  {
    match IndexOf(s, sep)
    case None =>
      assert Split(s, sep) == [s];
    case Some(i) =>
      var rest := s[i + |sep|..];
      var parts := Split(rest, sep);
      SplitJoin(rest, sep);
      assert Split(s, sep) == [s[..i]] + parts;
      assert ([s[..i]] + parts)[1..] == parts;
      assert Join([s[..i]] + parts, sep) == s[..i] + sep + Join(parts, sep);
      assert s[i..i + |sep|] == sep;
      Pieces(s, i, i + |sep|);
  }

  /** A text is its pieces before, between and after two cut points. */
  lemma Pieces(s: string, i: nat, j: nat)
    requires i <= j <= |s|
    ensures s == s[..i] + s[i..j] + s[j..]
  {
  }

  /** A one-character separator occurs in `s` exactly when that character does. */
  lemma ContainsChar(s: string, c: char)
    ensures Contains(s, [c]) <==> c in s
  {
    ContainsIff(s, [c]);
    if c in s {
      var i :| 0 <= i < |s| && s[i] == c;
      assert s[i..i + 1] == [c];
      assert OccursAt(s, [c], i);
    }
    forall i: nat | OccursAt(s, [c], i) ensures c in s {
      assert s[i] == s[i..i + 1][0];
    }
  }

  /** Splitting at a separator character first yields the piece before its first occurrence. */
  lemma SplitAfter(a: string, c: char, b: string)
    requires c !in a
    ensures Split(a + [c] + b, [c]) == [a] + Split(b, [c])
  {
    var s := a + [c] + b;
    assert s[|a|..|a| + 1] == [c];
    assert OccursAt(s, [c], |a|);
    forall j: nat | j < |a| ensures !OccursAt(s, [c], j) {
      assert s[j] == a[j];
      assert s[j..j + 1][0] == s[j];
    }
    assert IndexOf(s, [c]) == Some(|a|);
    assert s[..|a|] == a;
    assert s[|a| + 1..] == b;
  }

  /** Splitting at a character that does not occur yields the text alone. */
  lemma SplitNone(a: string, c: char)
    requires c !in a
    ensures Split(a, [c]) == [a]
  {
    ContainsChar(a, c);
  }

  /** A join never introduces a character that neither the pieces nor the separator hold. */
  lemma {:induction false} JoinAvoids(parts: seq<string>, sep: string, c: char)
    requires c !in sep && forall i :: 0 <= i < |parts| ==> c !in parts[i]
    ensures c !in Join(parts, sep)
    decreases |parts|
  {
    if |parts| > 1 {
      JoinAvoids(parts[1..], sep, c);
    }
  }

  /**
   * Joining with a one-character separator and splitting at it again gives
   * back the pieces, provided no piece contains the separator.
   */
  lemma {:induction false} JoinSplit(parts: seq<string>, c: char)
    requires |parts| >= 1 && forall i :: 0 <= i < |parts| ==> c !in parts[i]
    ensures Split(Join(parts, [c]), [c]) == parts
    decreases |parts|
  {
    if |parts| == 1 {
      SplitNone(parts[0], c);
    } else {
      JoinSplit(parts[1..], c);
      SplitAfter(parts[0], c, Join(parts[1..], [c]));
      assert parts == [parts[0]] + parts[1..];
    }
  }

  // ---------------------------------------------------------------------------
  // Code-fence extraction (cradle/task_engine.py, `_think` and `_reflect`)
  // ---------------------------------------------------------------------------

  const Fence: string := "```"
  const JsonFence: string := "```json"

  /**
   * The text handed to the JSON decoder: the piece after the first "```json"
   * cut at the next "```", else the piece between the first two "```", else
   * the whole reply.
   */
  function ExtractFenced(text: string): string
  {
    if Contains(text, JsonFence) then Split(Split(text, JsonFence)[1], Fence)[0]
    else if Contains(text, Fence) then Split(Split(text, Fence)[1], Fence)[0]
    else text
  }

  /** Every "```json" contains a "```", no later than it. */
  lemma JsonFenceHasFence(s: string)
    requires Contains(s, JsonFence)
    ensures OccursAt(s, Fence, IndexOf(s, JsonFence).value)
    ensures Contains(s, Fence) && IndexOf(s, Fence).value <= IndexOf(s, JsonFence).value
  {
    var j := IndexOf(s, JsonFence).value;
    assert JsonFence[..3] == Fence;
    assert s[j..j + 3] == s[j..j + 7][..3];
    assert OccursAt(s, Fence, j);
  }

  /**
   * With a "```json" fence, the extracted text is a prefix of what follows the
   * first "```json" and contains no "```"; when that remainder holds no run of
   * four backticks, it is exactly the text up to the next "```".
   */
  lemma {:induction false} ExtractJsonFence(text: string)
    requires Contains(text, JsonFence)
    ensures var rest := text[IndexOf(text, JsonFence).value + |JsonFence|..];
            && !Contains(ExtractFenced(text), Fence)
            && ExtractFenced(text) == rest[..|ExtractFenced(text)|]
            && (!Contains(rest, "````") ==> ExtractFenced(text) == UpTo(rest, Fence))
  {
    var rest := text[IndexOf(text, JsonFence).value + |JsonFence|..];
    var u := UpTo(rest, JsonFence);
    assert ExtractFenced(text) == UpTo(u, Fence);
    UpToHasNoSeparator(rest, JsonFence);
    UpToHasNoSeparator(u, Fence);
    if !Contains(rest, "````") {
      CutAtJsonFence(rest);
    }
  }

  /** Cutting at the first "```json" and then at the first "```" is cutting at the first "```". */
  lemma CutAtJsonFence(rest: string)
    requires !Contains(rest, "````")
    ensures UpTo(UpTo(rest, JsonFence), Fence) == UpTo(rest, Fence)
  {
    if IndexOf(rest, JsonFence).Some? {
      var j := IndexOf(rest, JsonFence).value;
      JsonFenceHasFence(rest);
      var k := IndexOf(rest, Fence).value;
      if k + 3 <= j {
        FirstFenceBeforeCut(rest, j, k);
      } else if k == j {
        NoFenceBeforeFirst(rest, k);
      } else {
        BacktickRun(rest, j, k);
      }
    }
  }

  lemma FirstFenceBeforeCut(rest: string, j: nat, k: nat)
    requires j <= |rest| && IndexOf(rest, Fence) == Some(k) && k + 3 <= j
    ensures UpTo(rest[..j], Fence) == rest[..k]
  {
    var u := rest[..j];
    OccursInPrefix(rest, Fence, k, j);
    var found := IndexOf(u, Fence);
    assert found.Some? && found.value <= k;
    assert u[found.value..found.value + 3] == rest[found.value..found.value + 3];
    assert OccursAt(rest, Fence, found.value);
  }

  lemma NoFenceBeforeFirst(rest: string, k: nat)
    requires k <= |rest| && IndexOf(rest, Fence) == Some(k)
    ensures UpTo(rest[..k], Fence) == rest[..k]
  {
    var u := rest[..k];
    forall m: nat | OccursAt(u, Fence, m) ensures false {
      assert u[m..m + 3] == rest[m..m + 3];
      assert OccursAt(rest, Fence, m);
    }
    ContainsIff(u, Fence);
  }

  /** Two "```" starting one or two characters apart make a run of four backticks. */
  lemma BacktickRun(rest: string, j: nat, k: nat)
    requires OccursAt(rest, Fence, k) && OccursAt(rest, Fence, j) && k < j < k + 3
    ensures Contains(rest, "````")
  {
    assert rest[k..k + 4] == "````" by {
      forall t | k <= t < k + 4 ensures rest[t] == '`' {
        if t < k + 3 { assert rest[t] == rest[k..k + 3][t - k]; }
        else { assert rest[t] == rest[j..j + 3][t - j]; }
      }
    }
    assert OccursAt(rest, "````", k);
    ContainsIff(rest, "````");
  }

  /** Without "```json" but with "```", the extracted text is what lies between the first two fences. */
  lemma ExtractPlainFence(text: string)
    requires !Contains(text, JsonFence) && Contains(text, Fence)
    ensures ExtractFenced(text) == UpTo(text[IndexOf(text, Fence).value + |Fence|..], Fence)
  {
    var rest := text[IndexOf(text, Fence).value + |Fence|..];
    UpToHasNoSeparator(rest, Fence);
  }

  /** A reply with no fence at all is handed over unchanged. */
  lemma ExtractNoFence(text: string)
    requires !Contains(text, Fence)
    ensures ExtractFenced(text) == text
  {
    if Contains(text, JsonFence) {
      JsonFenceHasFence(text);
    }
  }

  // ---------------------------------------------------------------------------
  // `str.strip`, `str.lstrip(c)`, `str.lower`
  // ---------------------------------------------------------------------------

  /** Python's `str.isspace` on one character. */
  predicate IsSpace(c: char)
  {
    || ('\t' <= c <= '\r')
    || ('\U{1c}' <= c <= ' ')
    || c == '\U{85}' || c == '\U{a0}' || c == '\U{1680}'
    || ('\U{2000}' <= c <= '\U{200a}')
    || c == '\U{2028}' || c == '\U{2029}' || c == '\U{202f}' || c == '\U{205f}' || c == '\U{3000}'
  }

  /** Drops leading whitespace. */
  function StripLeft(s: string): (r: string)
    ensures |r| <= |s|
    ensures r == s[|s| - |r|..]
    ensures r == "" || !IsSpace(r[0])
    ensures forall k :: 0 <= k < |s| - |r| ==> IsSpace(s[k])
  {
    if s != "" && IsSpace(s[0]) then
      var r := StripLeft(s[1..]);
      LeadingSpaces(s, r);
      r
    else s
  }

  /** Dropping one more leading space keeps `r` a suffix after a run of spaces. */
  lemma LeadingSpaces(s: string, r: string)
    requires s != "" && IsSpace(s[0]) && |r| < |s|
    requires r == s[1..][|s| - 1 - |r|..]
    requires forall k :: 0 <= k < |s| - 1 - |r| ==> IsSpace(s[1..][k])
    ensures r == s[|s| - |r|..]
    ensures forall k :: 0 <= k < |s| - |r| ==> IsSpace(s[k])
  {
    forall k | 1 <= k < |s| - |r| ensures IsSpace(s[k]) {
      assert s[k] == s[1..][k - 1];
    }
  }

  /** Drops trailing whitespace. */
  function StripRight(s: string): (r: string)
    ensures |r| <= |s|
    ensures r == s[..|r|]
    ensures r == "" || !IsSpace(r[|r| - 1])
    ensures forall k :: |r| <= k < |s| ==> IsSpace(s[k])
  {
    if s != "" && IsSpace(s[|s| - 1]) then StripRight(s[..|s| - 1]) else s
  }

  /** Python's `s.strip()`. */
  function Strip(s: string): string
  {
    StripRight(StripLeft(s))
  }

  /** Python's `s.lstrip(c)` for one character `c`. */
  function LStrip(s: string, c: char): (r: string)
    ensures |r| <= |s|
    ensures r == s[|s| - |r|..]
    ensures r == "" || r[0] != c
    ensures forall k :: 0 <= k < |s| - |r| ==> s[k] == c
  {
    if s != "" && s[0] == c then LStrip(s[1..], c) else s
  }

  function LowerChar(c: char): char
  {
    if 'A' <= c <= 'Z' then (c as int + 32) as char else c
  }

  /** Python's `s.lower()`, restricted to ASCII letters. */
  function Lower(s: string): (r: string)
    ensures |r| == |s| && forall i :: 0 <= i < |s| ==> r[i] == LowerChar(s[i])
  {
    seq(|s|, i requires 0 <= i < |s| => LowerChar(s[i]))
  }

  // ---------------------------------------------------------------------------
  // `str(n)` and `int(s)` on decimal integers
  // ---------------------------------------------------------------------------

  predicate IsDigit(c: char)
  {
    '0' <= c <= '9'
  }

  function DigitChar(d: nat): (c: char)
    requires d < 10
    ensures IsDigit(c) && DigitValue(c) == d
  {
    (d + '0' as int) as char
  }

  /** Python's `str(n)` for `n >= 0`. */
  function NatToString(n: nat): (r: string)
    ensures |r| >= 1 && forall i :: 0 <= i < |r| ==> IsDigit(r[i])
  {
    if n < 10 then [DigitChar(n)] else NatToString(n / 10) + [DigitChar(n % 10)]
  }

  /** Python's `str(n)`. */
  function IntToString(n: int): string
  {
    if n < 0 then "-" + NatToString(-n) else NatToString(n)
  }

  /** Digits, each `_` standing between two digits (the grammar `int()` accepts after the sign). */
  predicate ValidDigits(s: string)
  {
    && |s| >= 1 && IsDigit(s[0])
    && DigitsOrUnderscores(s)
    && forall i :: 0 <= i < |s| && s[i] == '_' ==> i + 1 < |s| && IsDigit(s[i + 1])
  }

  predicate DigitsOrUnderscores(s: string)
  {
    forall i :: 0 <= i < |s| ==> IsDigit(s[i]) || s[i] == '_'
  }

  /** The value of a digit string, underscores ignored. */
  function DigitsValue(s: string): nat
    requires DigitsOrUnderscores(s)
  {
    if s == "" then 0
    else
      var last := s[|s| - 1];
      assert IsDigit(last) || last == '_';
      if last == '_' then DigitsValue(s[..|s| - 1])
      else 10 * DigitsValue(s[..|s| - 1]) + DigitValue(last)
  }

  function DigitValue(c: char): nat
    requires IsDigit(c)
  {
    c as int - '0' as int
  }

  /** Python's `int(s)` in base 10; `None` where Python raises `ValueError`. */
  function ParseInt(s: string): Option<int>
  {
    var t := Strip(s);
    if |t| > 0 && (t[0] == '+' || t[0] == '-') then
      if ValidDigits(t[1..]) then
        var magnitude: int := DigitsValue(t[1..]);
        Some(if t[0] == '-' then -magnitude else magnitude)
      else None
    else if ValidDigits(t) then Some(DigitsValue(t))
    else None
  }

  lemma {:induction false} DigitsValueOfNat(n: nat)
    ensures DigitsValue(NatToString(n)) == n
  {
    var s := NatToString(n);
    if n >= 10 {
      DigitsValueOfNat(n / 10);
      assert s[..|s| - 1] == NatToString(n / 10);
    }
  }

  /** `str(n)` has no surrounding whitespace, so `strip` leaves it alone. */
  lemma StripIntToString(n: int)
    ensures Strip(IntToString(n)) == IntToString(n)
  {
    var s := IntToString(n);
    assert IsDigit(s[0]) || s[0] == '-';
    assert !IsSpace(s[0]);
    assert StripLeft(s) == s;
    assert IsDigit(s[|s| - 1]);
    assert !IsSpace(s[|s| - 1]);
  }

  /** `int(str(n)) == n`: decimal rendering and parsing are inverse. */
  lemma ParseIntToString(n: int)
    ensures ParseInt(IntToString(n)) == Some(n)
  {
    var s := IntToString(n);
    StripIntToString(n);
    var m: nat := if n < 0 then -n else n;
    var digits := NatToString(m);
    assert ValidDigits(digits);
    DigitsValueOfNat(m);
    if n < 0 {
      assert s[1..] == digits;
    } else {
      assert s[0] != '+' && s[0] != '-';
    }
  }
}

=== FILE: wrappers.dfy ===
/** Optional values and error returns, standing in for Python's `None` and raised exceptions. */
module Wrappers {

  /** A value that may be absent (Python's `Optional[T]`). */
  datatype Option<+T> = None | Some(value: T) {
    function GetOr(default: T): T {
      match this
      case Some(v) => v
      case None => default
    }
  }

  /** The outcome of an operation that either produces a value or raises. */
  datatype Result<+R, +E> = Ok(value: R) | Err(error: E)

  /**
   * The values before the first `None`: what a loop over `xs` gets through
   * when a `None` element makes it raise.
   */
  function LeadingValues<T>(xs: seq<Option<T>>): (p: seq<T>)
    ensures |p| <= |xs|
    ensures forall i :: 0 <= i < |p| ==> xs[i] == Some(p[i])
    ensures |p| < |xs| ==> xs[|p|].None?
  {
    if xs == [] || xs[0].None? then [] else [xs[0].value] + LeadingValues(xs[1..])
  }
}
